=== FILE: README.md ===
# a1s core, modelled in Dafny

a1s is a terminal dashboard for AWS resources in the style of k9s. It lists EC2 instances and
volumes, VPCs, subnets, security groups, EKS clusters and node groups, IAM users, roles and
policies, and S3 buckets and objects. The lists are refreshable, sortable and filterable.
This project models the core of that program as pure Dafny functions over immutable datatypes,
and proves what the code promises about them:

- **The table model (`internal/model1`):**
  - `Rows` covers header columns, rows, delta rows and their diff, customise and clone rules.
  - `Events` covers the row-event collection with its id index.
  - `TableSnapshot` covers the snapshot a refresh publishes.
  - `Ordering` covers the column comparators (number, duration, capacity) and the VALID-row check.
- **The refresh engine (`internal/model/table_data.go`), module `Engine`:**
  - accessor and renderer wiring, listener registration and refresh;
  - which notification a refresh sends;
  - the watch loop and renderer lookup.
- **The view stack (`internal/model/stack.go`), module `ViewStack`:**
  - push, pop and clear;
  - the events these send to the listeners.
- **The table views (`internal/ui/resource_table.go`, `internal/ui/table.go`), module `Presentation`:**
  - filtering, sort-column cycling and the filter prompt keys;
  - marks and state colours.
- **The command bar (`internal/ui/cmdbar.go`), module `CommandBar`:**
  - suggestions, completion and cycling;
  - the command list and the keys.
- **The two caches:**
  - `AwsCache` (`internal/aws/cache.go`): TTL and capacity eviction;
  - `DaoCache` (`internal/dao/cache.go`): per-key TTL and prefix invalidation.
- **The data-access layer (`internal/dao`):**
  - `DaoPaths`: the path parsers of every accessor;
  - `DaoObjects`: the SDK-record to display-object conversions, with their tag rules;
  - `DaoOps`: the checks and text formats of the operations, namely node-group scaling, default-VPC refusal, S3 prefix deletion, volume attachments, security-group rules and the kubeconfig.
- **AWS helpers (`internal/aws`):**
  - `Region`: the region manager;
  - `Shell`: the ssh, SSM and EC2 Instance Connect command lines and the login-user guess;
  - `Schema`: CloudFormation schema property names and the editable-property filter;
  - `CloudControl`: the Cloud Control identifier.
- **Rendering helpers (`internal/render/aws_helpers.go`), module `RenderHelpers`:** ages, placeholders and truncation.
- **Configuration (`internal/config`):**
  - `ProfileDir`: per-profile directory names and their parsing;
  - `Alias`: command aliases.
- **The views (`internal/view`):**
  - `Browser`: resource headers and rows, error messages, region cleansing and describe paths;
  - `S3Navigation`: bucket and prefix navigation;
  - `Editor`: the error header of the edit file and its stripping.

`Wrappers` (Option, Result, Outcome) and `Strs` (the `strings` package functions the code uses,
over `seq<char>`) are shared helpers.

Go's `nil` becomes `Option`, and errors become `Result`/`Outcome` values that carry the source's
message. Side effects are returned as event logs rather than performed: stopping a component,
notifying a listener, running a command.
The current time, the SDK's answers and the directory listing are parameters, as is the order in
which Go iterates a map.

## Model

| member | source | states |
|---|---|---|
| Rows.Merge | internal/model1/header.go:20-40 | alignment and decorator come from the left when set there, else from the right; each flag is set when either side sets it |
| Rows.MergeIdentities | internal/model1/header.go:20-40 | merging with an all-unset side changes nothing, and merging is idempotent |
| Rows.CloneHeader | internal/model1/header.go:59-65 | the clone has the same columns in the same order |
| Rows.HeaderDiff | internal/model1/header.go:67-72 | headers of different lengths differ; otherwise they differ iff some pair of columns is not deeply equal, a column with a decorator func never being deeply equal |
| Rows.CloneDiff | internal/model1/header.go:59-72 | a header differs from its clone iff some column has a decorator |
| Rows.IndexOf | internal/model1/header.go:74-84 | the first column with the name (wide columns only when asked), or not found when no such column exists |
| Rows.HasAgeMeaning | internal/model1/header.go:86-89 | HasAge holds iff some column, wide or not, is called AGE |
| Rows.IsTimeCol | internal/model1/header.go:91-96 | false outside the header, otherwise the column's Time attribute |
| Rows.IsCapacityCol | internal/model1/header.go:98-103 | false outside the header, otherwise the column's Capacity attribute |
| Rows.ColumnNames | internal/model1/header.go:105-117 | the visible names in header order, wide columns only when asked |
| Rows.NamesAppend | internal/model1/header.go:105-117 | the names of two headers joined are the names of each, in order |
| Rows.NamesOne | internal/model1/header.go:105-117 | a one-column header lists its name iff the column is not wide or wide columns are asked for |
| Rows.NamesWideAll | internal/model1/header.go:105-117 | with wide on, every column's name is listed in order |
| Rows.NamesComplete | internal/model1/header.go:105-117 | every shown column's name appears in the list |
| Rows.NewRow | internal/model1/row.go:9-11 | an id-less row of exactly `size` empty cells |
| Rows.RowLen | internal/model1/row.go:34-36 | the number of fields |
| Rows.RowDiff | internal/model1/row.go:20-25 | a different id is always a difference; otherwise the fields decide, with the age column ignored |
| Rows.RowCustomize | internal/model1/row.go:13-18 | same id; one cell per requested column, with out-of-range columns empty |
| Rows.RowClone | internal/model1/row.go:27-32 | the clone equals the row and does not differ from it |
| Rows.RowsClone | internal/model1/row.go:41-47 | element-wise clones in the same order |
| Rows.CellsDiff | internal/model1/row.go:20-25 | cells differ iff their lengths differ or some cell outside the age column differs |
| Rows.NewDeltaRow | internal/model1/delta.go:8-19 | one cell per old field; a cell is non-empty exactly when the new row has that field, the old text is non-empty and changed, and the column is not a time column, and then it holds the old text |
| Rows.IsBlank | internal/model1/delta.go:51-61 | blank iff there are no cells or every cell is empty |
| Rows.TimeOnlyChangesAreBlank | internal/model1/delta.go:8-19 | rows that differ only in time columns give a blank delta |
| Rows.DeepEqualDelta | internal/model1/delta.go:21-35 | deep equality is value equality of the Nil/Cells representation, so a nil and an empty delta are not equal |
| Rows.DeltaDiff | internal/model1/delta.go:21-35 | different lengths differ; with the age column in range they differ iff a cell outside it differs; otherwise iff they are not deep-equal, so nil and empty differ |
| Rows.DeltaCustomize | internal/model1/delta.go:37-49 | a blank delta leaves `out` alone; otherwise cell i of out is cell cols[i], with out-of-range columns empty |
| Rows.DeltaClone | internal/model1/delta.go:63-67 | always non-nil, with the same cells |
| Rows.DeltaCloneDiff | internal/model1/delta.go:63-67 | a clone never differs from a non-nil original, but a nil delta's clone does |
| Ordering.RunesToNumRange | internal/model1/helpers.go:84-93 | a digit string denotes a number below 10 to the power of its length |
| Ordering.RunesToNumOfNatToString | internal/model1/helpers.go:84-93 | runesToNum reads back the decimal rendering of any natural number |
| Ordering.RunesToNumLoop | internal/model1/helpers.go:84-93 | the right-to-left loop with a growing power of ten computes the recursive definition |
| Ordering.DurationToSeconds | internal/model1/helpers.go:57-82 | "" and the n/a placeholder mean zero seconds |
| Ordering.DurationOfTerm | internal/model1/helpers.go:57-82 | a one-term duration `<n><unit>` is n times the unit's seconds |
| Ordering.DurationOfTwoTerms | internal/model1/helpers.go:57-82 | a two-term duration is the sum of its terms |
| Ordering.Less | internal/model1/helpers.go:24-55 | equal values order by row id; otherwise the number, duration or capacity comparator the column calls for decides, else natural order |
| Ordering.DurationLessTotal | internal/model1/helpers.go:42-45 | in duration mode two distinct values are always ordered one way or the other |
| Ordering.DurationExamples | internal/model1/helpers.go:42-45 | "90m" < "5h" < "2d", and "60s" and "1m" fall back to row id |
| Ordering.NumberIgnoresCommas | internal/model1/helpers.go:52-55 | "1,000" and "1000" compare like the plain numbers |
| Ordering.IsValid | internal/model1/helpers.go:11-21 | a row without cells, or a header without a VALID column, is valid |
| Ordering.IsValidMeaning | internal/model1/helpers.go:11-21 | invalid iff the first VALID column is within the row and its trimmed, lower-cased text is neither "" nor "true" |
| Ordering.PaddedTrueAccepted | internal/model1/helpers.go:11-21 | a VALID cell of " TRUE " keeps the row: the cell is trimmed and compared without case |
| Ordering.FalseRejected | internal/model1/helpers.go:11-21 | a VALID cell of "false" marks the row invalid |
| Events.Code | internal/model1/types.go:14-18 | the i-th kind in declaration order (unchanged, add, update, delete, clear) has flag 1 shifted left i places: 1, 2, 4, 8 and 16 |
| Events.CodeInjective | internal/model1/types.go:14-18 | the flag values tell the kinds apart |
| Events.NewRowEvent | internal/model1/row_event.go:12-17 | the given kind and row with a nil delta |
| Events.NewRowEventWithDeltas | internal/model1/row_event.go:19-25 | an update event carrying the given row and deltas |
| Events.CloneEvent | internal/model1/row_event.go:27-33 | the same kind and row; deltas become a non-nil copy |
| Events.CustomizeEvent | internal/model1/row_event.go:35-46 | the row projected onto the columns; blank deltas kept as they are, others customised |
| Events.EventDiff | internal/model1/row_event.go:48-56 | events differ iff their kinds differ, or their deltas differ, or their rows differ |
| Events.EventDiffIrreflexive | internal/model1/row_event.go:48-56 | no event differs from itself |
| Events.NewRowEvents | internal/model1/row_event.go:64-69 | no events and an empty index, whatever the capacity hint |
| Events.IndexOfEventsMeaning | internal/model1/row_event.go:71-75 | reindexing maps an id iff some event carries it, to its last position |
| Events.ReindexIdsOnly | internal/model1/row_event.go:71-75 | the index depends only on the events' ids |
| Events.ReindexOverrides | internal/model1/row_event.go:71-75 | reindexing over an old map keeps the old keys and overrides them with the events' positions |
| Events.UniqueIndexExact | internal/model1/row_event.go:71-75 | with unique ids the index maps each id to the one position that holds it |
| Events.Len | internal/model1/row_event.go:94-96 | the number of events |
| Events.At | internal/model1/row_event.go:77-82 | the event at i for an index in range, and nothing for any other index |
| Events.Add | internal/model1/row_event.go:89-92 | appended at the end and indexed at the last position; other index entries are unchanged |
| Events.AddKeepsUnique | internal/model1/row_event.go:89-92 | adding an event with a new id keeps the collection consistent with unique ids |
| Events.FindIndex | internal/model1/row_event.go:117-120 | the indexed position of an id, if any |
| Events.FindIndexMeaning | internal/model1/row_event.go:117-120 | on a consistent collection an id is found iff some event carries it, at its last position |
| Events.Get | internal/model1/row_event.go:109-115 | the event at the indexed position when that position is in range |
| Events.Set | internal/model1/row_event.go:84-87 | position i is overwritten and the new id indexed there; the rest of the index stays |
| Events.SetSameIdConsistent | internal/model1/row_event.go:84-87 | overwriting with the same id keeps the collection consistent with unique ids |
| Events.SetOtherIdLeavesStaleEntry | internal/model1/row_event.go:84-87 | overwriting with another id leaves the old id indexed at a position that no longer carries it |
| Events.Upsert | internal/model1/row_event.go:122-128 | replaced in place when the id is indexed, otherwise appended |
| Events.UpsertPreserves | internal/model1/row_event.go:122-128 | upserting keeps consistency and unique ids, and afterwards the id is found |
| Events.Delete | internal/model1/row_event.go:130-139 | an unknown id is an error and changes nothing; otherwise the indexed event is removed and the rest reindexed |
| Events.Without | internal/model1/row_event.go:130-139 | the events with position v removed, the rest in order |
| Events.WithoutKeepsOtherIds | internal/model1/row_event.go:130-139 | every other id is still carried by a survivor |
| Events.DeleteIndexExact | internal/model1/row_event.go:130-139 | reindexing the survivors over the index minus the victim gives exactly the survivors' index |
| Events.WithoutUnique | internal/model1/row_event.go:130-139 | removal keeps ids unique and gets rid of the removed id |
| Events.DeletePreserves | internal/model1/row_event.go:130-139 | delete keeps consistency, removes exactly one event, and the id is no longer found |
| Events.DeleteUnknownUnchanged | internal/model1/row_event.go:130-139 | deleting an unknown id hands the collection back unchanged |
| Events.Clear | internal/model1/row_event.go:102-107 | no events and an empty index |
| Events.Clone | internal/model1/row_event.go:141-151 | every event cloned in order, with the index rebuilt for them |
| Events.Range | internal/model1/row_event.go:153-159 | the callback is shown events from the first on; it answered true for all but the last one shown, and false for that one when iteration stopped early |
| Events.RangeVisitsAll | internal/model1/row_event.go:153-159 | a callback that always answers true sees every event |
| TableSnapshot.NewTableData | internal/model1/table_data.go:15-19 | no header, no rows, no namespace and no error |
| TableSnapshot.RowCount | internal/model1/table_data.go:64-68 | the number of row events |
| TableSnapshot.SetHeader | internal/model1/table_data.go:29-33 | only the header changes |
| TableSnapshot.SetNamespace | internal/model1/table_data.go:50-54 | only the namespace changes |
| TableSnapshot.SetError | internal/model1/table_data.go:84-88 | only the error changes; HasError iff the message is non-empty |
| TableSnapshot.SettersCommute | internal/model1/table_data.go:29-88 | setting a field twice keeps the last value, and setters of different fields commute |
| TableSnapshot.Clone | internal/model1/table_data.go:71-81 | same header, namespace and error, with the row collection shared |
| Engine.NewEngine | internal/model/table_data.go:29-37 | an empty snapshot; no accessor, renderer, listeners or watch |
| Engine.SetAccessor | internal/model/table_data.go:40-44 | only the accessor changes |
| Engine.SetRenderer | internal/model/table_data.go:47-51 | only the renderer changes |
| Engine.SetRegion | internal/model/table_data.go:54-58 | only the region changes |
| Engine.Peek | internal/model/table_data.go:89-93 | a clone of the current snapshot |
| Engine.AddListener | internal/model/table_data.go:96-100 | the listener is appended |
| Engine.RemoveListener | internal/model/table_data.go:103-113 | only the first reference goes; an unknown listener changes nothing |
| Engine.RemoveFirstSplits | internal/model/table_data.go:103-113 | the result is the entries before the first match followed by those after it |
| Engine.AddThenRemove | internal/model/table_data.go:96-113 | registering then removing a new listener restores the list |
| Engine.Deliver | internal/model/table_data.go:232-265 | each listener of the snapshot taken at notification time gets the notice, in order |
| Engine.BuildRows | internal/model/table_data.go:186-198 | rows sized to the header, one add event per object that renders, in order |
| Engine.BuildRowsEmpty | internal/model/table_data.go:186-198 | no row is built iff every object fails to render |
| Engine.BuildRowsContent | internal/model/table_data.go:186-198 | the built rows are the rendered rows of the objects that rendered, in order |
| Engine.RenderErrorSkipped | internal/model/table_data.go:189-193 | a render failure does not stop the objects after it from rendering |
| Engine.Refresh | internal/model/table_data.go:163-218 | a missing accessor or renderer, or a failed listing, is the source's error and changes nothing; otherwise a fresh, row-less, error-free snapshot with the renderer's header is installed and every listener, in registration order, gets the same notice |
| Engine.RefreshNotice | internal/model/table_data.go:200-211 | "no data" iff nothing rendered and the old snapshot was non-empty, else "data changed" |
| Engine.NoDataNeverSent | internal/model/table_data.go:181-211 | from every reachable state the snapshot is row-less, so "no data" is never sent |
| Engine.ReachableInitially | internal/model/table_data.go:29-37 | a new engine is a reachable state |
| Engine.EffectiveRate | internal/model/table_data.go:143-145 | a non-positive refresh rate becomes five seconds |
| Engine.Watch | internal/model/table_data.go:116-135 | a new cancel function is installed; a failed first refresh returns Refresh's error, reports it to every listener and leaves the engine otherwise as it was, with no loop; otherwise the engine and deliveries are exactly Refresh's, with the loop running |
| Engine.Tick | internal/model/table_data.go:150-159 | a tick returns Refresh's error; a failure is reported to listeners and leaves the engine unchanged, and a success is exactly Refresh's outcome; the loop goes on |
| Engine.WatchTickReachable | internal/model/table_data.go:116-159 | watching and then ticking keep the snapshot row-less, so no tick ever sends "no data" |
| Engine.Stop | internal/model/table_data.go:221-229 | the cancel function is cleared and the loop ends; nothing else changes |
| Engine.StopIdempotent | internal/model/table_data.go:221-229 | stopping twice is stopping once |
| Engine.RendererFor | internal/model/table_data.go:268-297 | a renderer for each of the twelve resource ids, an error naming any other id |
| Engine.RendererForInjective | internal/model/table_data.go:268-297 | distinct ids get distinct renderers |
| ViewStack.NewStack | internal/model/stack.go:42-44 | empty, with no listeners |
| ViewStack.Top | internal/model/stack.go:110-118 | nil iff empty, otherwise the last pushed component |
| ViewStack.Previous | internal/model/stack.go:149-158 | nil iff empty, the top itself when alone, otherwise the one below it |
| ViewStack.Flatten | internal/model/stack.go:161-170 | the component names, bottom first |
| ViewStack.AddListener | internal/model/stack.go:47-52 | appended, and told the current top at once when there is one |
| ViewStack.RemoveListener | internal/model/stack.go:55-67 | exactly the first occurrence is removed; an unknown listener changes nothing |
| ViewStack.AddRemoveListener | internal/model/stack.go:47-67 | adding a new listener then removing it restores the stack |
| ViewStack.Push | internal/model/stack.go:70-83 | the old top is stopped, the component goes on top, and each listener hears pushed then top |
| ViewStack.Pop | internal/model/stack.go:86-107 | nothing on an empty stack; else the top is stopped and returned, and each listener hears popped and then the new top |
| ViewStack.PushThenPop | internal/model/stack.go:70-107 | pop undoes push: the pushed component comes back and the stack is as it was |
| ViewStack.FlattenPush | internal/model/stack.go:70-83 | after a push the names gain the new component's name at the end |
| ViewStack.PreviousAfterPush | internal/model/stack.go:70-83 | after a push, Previous is the old top |
| ViewStack.Clear | internal/model/stack.go:134-138 | the stack ends empty with its listeners kept |
| ViewStack.ClearStopsTopFirst | internal/model/stack.go:134-138 | the first event of clearing is stopping the top |
| ViewStack.ClearStopsAll | internal/model/stack.go:134-138 | with no listeners, clearing stops every component, top first, and nothing else |
| Presentation.NewView | internal/ui/resource_table.go:56-72 | nothing stored, no marks or filter, showing "Loading..." |
| Presentation.FilterEvents | internal/ui/resource_table.go:289-305 | the events that pass the filter, in their original order |
| Presentation.FilterEventsAppend | internal/ui/resource_table.go:289-305 | filtering distributes over concatenation |
| Presentation.FilterEventsAllPass | internal/ui/resource_table.go:289-305 | when every event passes, nothing is dropped |
| Presentation.FilterInto | internal/ui/resource_table.go:289-305 | the loop appends exactly the passing events, in their order, after what the collection held |
| Presentation.FilterIntoConsistent | internal/ui/resource_table.go:289-305 | adding the passing events one by one keeps the id index in step with the events |
| Presentation.Filtered | internal/ui/resource_table.go:275-309 | the full data's header and namespace with exactly the filtered events and no error |
| Presentation.RenderData | internal/ui/resource_table.go:312-337 | an empty snapshot shows "No matching resources" and changes nothing else; otherwise its header and rows are shown |
| Presentation.ApplyFilter | internal/ui/resource_table.go:275-309 | nothing happens without stored data; the stored data, filter, marks and sort are never changed |
| Presentation.ApplyFilterScreen | internal/ui/resource_table.go:275-309 | an empty filter shows every stored row; otherwise exactly the rows with a field containing the filter |
| Presentation.FilterShowsIff | internal/ui/resource_table.go:289-305 | a row is shown iff some field contains the filter, ignoring ASCII case |
| Presentation.FilterCaseInsensitive | internal/ui/resource_table.go:289-305 | an upper-case filter shows the same rows as its lower-case form |
| Presentation.SetFilter | internal/ui/resource_table.go:262-267 | the text is stored and re-applied |
| Presentation.ClearFilter | internal/ui/resource_table.go:270-272 | with stored data, every stored row is shown again |
| Presentation.CurrentSortIndex | internal/ui/resource_table.go:157-163 | the first column named like the sort column, or -1 |
| Presentation.NextSortIndex | internal/ui/resource_table.go:157-166 | the next column, wrapping round; the first column when none is current |
| Presentation.SortResourceTable | internal/ui/resource_table.go:151-172 | an empty header leaves the view unchanged; otherwise the sort column steps on |
| Presentation.SortTable | internal/ui/table.go:259-284 | the sort name and column are both set to the next column |
| Presentation.SortStep | internal/ui/resource_table.go:151-172 | with distinct names the sort column steps to the next one, wrapping from the last to the first |
| Presentation.SortTimes | internal/ui/resource_table.go:151-172 | pressing the sort key k times |
| Presentation.SortTimesPosition | internal/ui/resource_table.go:151-172 | after k presses the column is (start + k) mod the column count |
| Presentation.SortFullCycle | internal/ui/resource_table.go:151-172 | one press per column comes back to the starting column |
| Presentation.UpdateResourceTable | internal/ui/resource_table.go:447-483 | ignored mid-update; an error snapshot shows the error; an empty one "No resources found"; else it is stored and the filter re-applied |
| Presentation.UpdateTable | internal/ui/table.go:421-452 | the same without the error check |
| Presentation.UpdateThenFilter | internal/ui/resource_table.go:447-483 | a non-empty update shows what re-applying the current filter to it shows |
| Presentation.OnNotice | internal/ui/resource_table.go:494-509 | "data changed" updates, "load failed" shows the error, "no data" shows "No resources found" |
| Presentation.ToggleMark | internal/ui/resource_table.go:519-533 | an empty selection does nothing; otherwise the item's mark flips and the others stay |
| Presentation.ToggleTwice | internal/ui/resource_table.go:519-533 | toggling the same item twice restores the marks |
| Presentation.ClearMarks | internal/ui/resource_table.go:512-516 | nothing is marked, and the data and screen are unchanged |
| Presentation.CellColor | internal/ui/resource_table.go:387-419 | state columns colour running, stopped, transitional and shutting-down values green, red, yellow and orange, case-insensitively; a real NAME cell is aqua and ID cells steel blue |
| Presentation.CellColorExamples | internal/ui/resource_table.go:387-419 | the colour classes do not overlap, and the column name is matched case-blind |
| Presentation.HandleFilterInput | internal/ui/table.go:157-198 | Esc clears and closes, Enter closes, Backspace drops the last char, a rune appends; all are consumed |
| Presentation.RuneThenBackspace | internal/ui/table.go:157-198 | typing a character and then Backspace restores the filter text |
| Presentation.Keyboard | internal/ui/table.go:79-154 | with the prompt open every key goes to the filter input; with it closed, a key is consumed iff it is a navigation key or bound to Ctrl-S, Enter, "/" or Esc, and "/" opens the prompt, Esc clears the filter and Ctrl-S sorts, any other key leaving the view alone |
| Presentation.ResourceKeyboard | internal/ui/resource_table.go:75-148 | navigation keys, Ctrl-S and Enter are consumed; only Ctrl-S changes the view, stepping the sort column |
| Presentation.SortKeyTimes | internal/ui/resource_table.go:75-172 | pressing Ctrl-S k times is the k-step sort cycle |
| Presentation.SlashThenEscShowsAll | internal/ui/table.go:250-315 | typing "/" opens the prompt and Esc then shows every stored row |
| Presentation.OpenFilter | internal/ui/table.go:293-300 | the prompt opens with empty text, without re-applying |
| Presentation.ClearFilterKey | internal/ui/table.go:303-315 | the prompt ends closed and empty, re-applying only when a filter was set |
| Presentation.OpenThenEscShowsAll | internal/ui/table.go:157-198 | opening the prompt and pressing Esc shows every stored row |
| CommandBar.NewCmdBar | internal/ui/cmdbar.go:51-75 | normal mode, inactive, the default commands, no suggestion |
| CommandBar.PrefixMatches | internal/ui/cmdbar.go:214-228 | exactly the commands starting with the text, in list order |
| CommandBar.GetSuggestions | internal/ui/cmdbar.go:214-228 | nothing for empty text; otherwise the matching commands, in order |
| CommandBar.SuggestionsExtendText | internal/ui/cmdbar.go:214-228 | every suggestion starts with the typed text |
| CommandBar.ClearSuggestions | internal/ui/cmdbar.go:254-261 | no suggestions, no index, no current suggestion; the rest unchanged |
| CommandBar.UpdateSuggestions | internal/ui/cmdbar.go:231-251 | outside command mode or on empty text they clear; otherwise the first match becomes current |
| CommandBar.CycleDown | internal/ui/cmdbar.go:137-149 | the next suggestion, wrapping to the first; the index stays in range |
| CommandBar.CycleUp | internal/ui/cmdbar.go:123-135 | the previous suggestion, wrapping to the last |
| CommandBar.UpUndoesDown | internal/ui/cmdbar.go:123-149 | Up after Down restores the suggestion state |
| CommandBar.DownUndoesUp | internal/ui/cmdbar.go:123-149 | Down after Up restores the suggestion state |
| CommandBar.Ghost | internal/ui/cmdbar.go:200-205 | the hint is the untyped rest of a suggestion that extends the text, else empty |
| CommandBar.AppendMissing | internal/ui/cmdbar.go:264-281 | each command not yet present is appended, in order, without duplicates |
| CommandBar.AddCommands | internal/ui/cmdbar.go:264-281 | sorted, holding exactly the old and new commands, with no new duplicates |
| CommandBar.AddKnownCommands | internal/ui/cmdbar.go:264-281 | adding only known commands changes nothing but the order |
| CommandBar.SetCommands | internal/ui/cmdbar.go:284-290 | the given list, sorted |
| CommandBar.Activate | internal/ui/cmdbar.go:308-320 | the given mode, active, empty text, no suggestion, and the active callback is told |
| CommandBar.Deactivate | internal/ui/cmdbar.go:323-335 | normal mode, inactive, empty text, no suggestion |
| CommandBar.Execute | internal/ui/cmdbar.go:338-352 | a non-empty command runs as ":" plus the text, a filter text is remembered, and the bar ends inactive in normal mode |
| CommandBar.Cancel | internal/ui/cmdbar.go:355-360 | a filter being typed is cancelled; the bar deactivates either way |
| CommandBar.ClearFilter | internal/ui/cmdbar.go:398-403 | the remembered filter is forgotten and the application told |
| CommandBar.DropLast | internal/ui/cmdbar.go:84-93 | Backspace drops the last character, and nothing from empty text |
| CommandBar.Keyboard | internal/ui/cmdbar.go:78-175 | an inactive bar passes every key on; an active one edits, completes, runs or cancels, and Up and Down consume the key and step the suggestion backward or forward |
| CommandBar.KeyboardKeepsWF | internal/ui/cmdbar.go:78-175 | every key keeps the suggestion index inside the list, so indexing never panics |
| CommandBar.UpdateKeepsWF | internal/ui/cmdbar.go:231-251 | updating the suggestions leaves them well formed |
| CommandBar.Complete | internal/ui/cmdbar.go:112-122 | Tab or Right takes the current suggestion as the text |
| CommandBar.TypeThenComplete | internal/ui/cmdbar.go:112-122 | in command mode, typing a command's first letters and pressing Tab completes to the first matching command |
| AwsCache.NewResourceCache | internal/aws/cache.go:27-45 | empty; a missing config or a non-positive field falls back to the default time-to-live and capacity, so both are positive |
| AwsCache.Get | internal/aws/cache.go:47-61 | a miss for an absent key or once now is strictly after the refresh time; a hit otherwise |
| AwsCache.OldestPos | internal/aws/cache.go:73-82 | the scan picks the first visited key with the earliest timestamp |
| AwsCache.Fresh | internal/aws/cache.go:88-94 | a new entry stamped now, refreshing after ttl |
| AwsCache.SetWithTTLAsWritten | internal/aws/cache.go:67-95 | below capacity (or empty) only the key is stored; at capacity a key with the earliest timestamp is chosen and removed unless it is "", every other entry kept, then the new entry is stored |
| AwsCache.AsWrittenAgreesUnlessEmptyOldest | internal/aws/cache.go:67-95 | the code as written and the corrected eviction agree whenever the oldest key is not "" |
| AwsCache.EmptyOldestOverfills | internal/aws/cache.go:72-86 | at capacity with "" the oldest key, storing a new key leaves one entry more than the capacity |
| AwsCache.SetAsWritten | internal/aws/cache.go:63-65 | Set as written: SetWithTTLAsWritten with the default time-to-live |
| AwsCache.EmptyKeyBlocksEviction | internal/aws/cache.go:83-85 | with capacity one and "" the oldest key, storing "a" leaves two entries |
| AwsCache.SetWithTTL | internal/aws/cache.go:67-95 | at capacity the oldest entry, whatever its key, is evicted before storing |
| AwsCache.Set | internal/aws/cache.go:63-65 | the corrected store with the default time-to-live: below capacity only the key changes, and the capacity is never exceeded (SetAsWritten is the code as written) |
| AwsCache.SetKeepsBound | internal/aws/cache.go:72-86 | the entry count never exceeds the capacity after a store |
| AwsCache.GetAfterSet | internal/aws/cache.go:47-95 | a stored value is served up to its refresh time and missed afterwards |
| AwsCache.Delete | internal/aws/cache.go:97-102 | only the key goes |
| AwsCache.DeletePrefix | internal/aws/cache.go:104-121 | "" removes nothing and reports 0; otherwise exactly the keys with the prefix go, and their number is reported |
| AwsCache.Invalidate | internal/aws/cache.go:123-128 | every entry goes |
| AwsCache.Clear | internal/aws/cache.go:130-132 | every entry goes |
| DaoCache.NewResourceCache | internal/dao/cache.go:27-32 | empty, with the given ttl |
| DaoCache.Get | internal/dao/cache.go:36-50 | nil for an absent key and once more than ttl has elapsed; the stored objects otherwise |
| DaoCache.Set | internal/dao/cache.go:53-61 | the key's entry is replaced and stamped now; other keys are untouched |
| DaoCache.GetAfterSet | internal/dao/cache.go:36-61 | stored objects are served while at most ttl has elapsed, and not after |
| DaoCache.SetIsolated | internal/dao/cache.go:53-61 | storing under one key does not change what another key serves |
| DaoCache.Invalidate | internal/dao/cache.go:64-69 | only the key goes |
| DaoCache.InvalidatePrefix | internal/dao/cache.go:72-81 | exactly the keys starting with the prefix go |
| DaoCache.InvalidateEmptyPrefixClears | internal/dao/cache.go:72-81 | the empty prefix clears everything |
| DaoCache.Clear | internal/dao/cache.go:84-89 | every entry goes |
| DaoPaths.SplitFirstTrimmed | internal/dao/ec2_instance.go:335-349 | no "/" is the source's format error; a success gives two non-empty trimmed parts, the first without "/" |
| DaoPaths.SplitFirstTrimmedRoundTrip | internal/dao/ec2_instance.go:335-349 | a trimmed "/"-free first piece and a trimmed second piece joined with "/" parse back |
| DaoPaths.SplitFirstTrimmedSpaces | internal/dao/ec2_instance.go:335-349 | spaces around either piece do not change the result |
| DaoPaths.ParseEC2Path | internal/dao/ec2_instance.go:335-349 | "region/instance-id" with both parts required |
| DaoPaths.EC2IdMayContainSlash | internal/dao/ec2_instance.go:335-349 | only the first "/" splits, so the id may contain "/" |
| DaoPaths.ParseClusterPath | internal/dao/eks_cluster.go:366-380 | "region/cluster-name" with both parts required |
| DaoPaths.ParseObjectPath | internal/dao/s3_object.go:440-454 | "bucket/key" with both parts required |
| DaoPaths.ParseListPath | internal/dao/s3_object.go:457-470 | a blank path is no bucket; the trimmed path splits at its first "/" into bucket and prefix, or is all bucket |
| DaoPaths.ListPathRoundTrip | internal/dao/s3_object.go:457-470 | a bucket and prefix joined with "/" parse back |
| DaoPaths.ExtractBucketFromPath | internal/dao/s3_object.go:473-476 | the bucket part of the list path |
| DaoPaths.ParseVolumePath | internal/dao/ec2_volume.go:303-317 | exactly two non-empty parts, else the source's error |
| DaoPaths.ParsePrefixedIdPath | internal/dao/vpc.go:187-209 | exactly two parts, a non-empty region, and an id with the required prefix |
| DaoPaths.PrefixedIdRoundTrip | internal/dao/vpc.go:187-209 | valid pairs and valid paths correspond one to one |
| DaoPaths.ParseVPCPath | internal/dao/vpc.go:187-209 | the id must start with "vpc-" |
| DaoPaths.ParseSubnetPath | internal/dao/subnet.go:184-206 | the id must start with "subnet-" |
| DaoPaths.VPCIdNeedsPrefix | internal/dao/vpc.go:187-209 | a well-formed path with an unprefixed id is refused |
| DaoPaths.SubnetPathExample | internal/dao/subnet.go:184-206 | "us-east-1/subnet-1" parses |
| DaoPaths.ParseSGPath | internal/dao/security_group.go:332-338 | exactly two parts, returned as they are |
| DaoPaths.SGPathAllowsEmpty | internal/dao/security_group.go:332-338 | empty parts pass |
| DaoPaths.ParseNodegroupPath | internal/dao/eks_nodegroup.go:336-359 | exactly three non-empty parts, checked in order |
| DaoPaths.NodegroupRoundTrip | internal/dao/eks_nodegroup.go:336-359 | three "/"-free pieces joined parse back; an empty middle is reported as the cluster |
| DaoObjects.SafeString | internal/dao/eks_cluster.go:434-439 | nil reads as "", anything else as itself |
| DaoObjects.SafeBool | internal/dao/eks_cluster.go:442-447 | nil reads as false |
| DaoObjects.CompleteTagsOnly | internal/dao/ec2_instance.go:292-297 | only tags with both key and value reach the map |
| DaoObjects.CompleteTagsLast | internal/dao/ec2_instance.go:292-297 | the last complete tag with a key decides its value |
| DaoObjects.FirstNameTag | internal/dao/ec2_instance.go:325-332 | the value of the first complete "Name" tag, or "" |
| DaoObjects.LastNameIsMapName | internal/dao/ec2_instance.go:292-297 | the last-tag name is the tag map's "Name" entry |
| DaoObjects.FirstNameIsMapName | internal/dao/ec2_instance.go:291-332 | with a single "Name" tag, the first-tag name and the map agree |
| DaoObjects.InstanceNameDisagrees | internal/dao/ec2_instance.go:291-332 | with two "Name" tags, the instance is titled by the first while its map keeps the last |
| DaoObjects.Normalize | internal/dao/ec2_volume.go:276-282 | a nil key or value reads as "", so every tag lands in the map |
| DaoObjects.InstanceToObject | internal/dao/ec2_instance.go:291-322 | id and region as given, the first "Name" tag as name, the complete tags, and an ARN exactly when the id is known |
| DaoObjects.ClusterToObject | internal/dao/eks_cluster.go:338-363 | the cluster name is both id and display name |
| DaoObjects.NodegroupToObject | internal/dao/eks_nodegroup.go:306-333 | the same for node groups; a nil tag map is empty |
| DaoObjects.VolumeToObject | internal/dao/ec2_volume.go:274-300 | every tag counts, with nil halves read as "" |
| DaoObjects.TaggedToObject | internal/dao/vpc.go:156-184 | id, name from the tag map, and tags |
| DaoObjects.NameMatchesTags | internal/dao/vpc.go:156-184 | for volumes, VPCs and subnets the name is the tag map's "Name" entry |
| DaoObjects.VpcToObject | internal/dao/vpc.go:156-184 | the ARN arn:aws:ec2:region::vpc/id, the id and region, the complete tags, and the name the tag map holds under "Name" or "" |
| DaoObjects.SubnetToObject | internal/dao/subnet.go:153-181 | the ARN arn:aws:ec2:region::subnet/id, the id and region, the complete tags, and a non-empty name only when some complete tag is "Name" with that value |
| DaoObjects.SecurityGroupToObject | internal/dao/security_group.go:307-329 | the group name unless a "Name" tag overrides it |
| DaoObjects.S3ObjectToObject | internal/dao/s3_object.go:368-393 | the key is the id; the name is the "/"-free suffix after the key's last "/", the whole key when it has none; the ARN is bucket/key |
| DaoObjects.S3ObjectNameIsLeaf | internal/dao/s3_object.go:368-393 | a key dir + "/" + leaf is named leaf |
| DaoObjects.FolderToObject | internal/dao/s3_object.go:396-413 | the id is the whole common prefix and the name ends in "/" |
| DaoObjects.FolderNameIsLastSegment | internal/dao/s3_object.go:396-413 | a folder for "a/.../seg/" is named "seg/" but identified by the full prefix |
| DaoObjects.S3ArnCarriesPath | internal/dao/s3_object.go:368-393 | the ARN ends in the "bucket/key" path that the object parser reads back |
| DaoObjects.FoldersOf | internal/dao/s3_object.go:66-84 | at most one folder per common prefix |
| DaoObjects.FoldersOfIds | internal/dao/s3_object.go:66-84 | every folder is identified by one of the listed prefixes |
| DaoObjects.FoldersOfAppend | internal/dao/s3_object.go:66-84 | the folders of two prefix lists joined are the folders of each, in order |
| DaoObjects.FoldersOfOne | internal/dao/s3_object.go:66-84 | a nil prefix gives no folder and any other exactly one, for that prefix |
| DaoObjects.ListObjects | internal/dao/s3_object.go:34-88 | a path without a bucket is the source's error; a single page gives its objects followed by its folders |
| DaoOps.ScaleCheck | internal/dao/eks_nodegroup.go:239-244 | below the minimum or above the maximum is an error naming both numbers; otherwise it passes |
| DaoOps.IsDefaultVpc | internal/dao/vpc.go:220-222 | nil counts as not default |
| DaoOps.VpcDelete | internal/dao/vpc.go:121-153 | the path must parse; the default VPC is refused without force |
| DaoOps.AvailableIps | internal/dao/subnet.go:217-222 | nil reads as 0 |
| DaoOps.AvailabilityZone | internal/dao/subnet.go:209-214 | nil reads as "" |
| DaoOps.DeletePrefix | internal/dao/s3_object.go:229-283 | refused without force with the source's message; otherwise the listed keys in order, in batches that are full except the last |
| DaoOps.S3Delete | internal/dao/s3_object.go:187-226 | a bad path is the parser's error; a key ending in "/" deletes the listed keys in batches and needs force; any other key is deleted alone |
| DaoOps.AttachmentLines | internal/dao/ec2_volume.go:320-339 | the lines written for one attachment |
| DaoOps.AttachmentEntryLines | internal/dao/ec2_volume.go:320-339 | an attachment with single-line fields takes three lines, four with the delete-on-termination flag |
| DaoOps.AttachmentInfo | internal/dao/ec2_volume.go:320-339 | the attachment blocks joined with newlines, "" without attachments |
| DaoOps.ProtocolLabel | internal/dao/security_group.go:341-396 | "-1" shows as "All", others as themselves |
| DaoOps.PortRange | internal/dao/security_group.go:341-396 | one port, "from-to", or "All" when either end is nil |
| DaoOps.RuleLine | internal/dao/security_group.go:341-396 | one rule line, with the description in parentheses when present |
| DaoOps.FormatRules | internal/dao/security_group.go:341-396 | no permissions give "" |
| DaoOps.FormatRulesLines | internal/dao/security_group.go:341-396 | with single-line fields there is exactly one line per grant |
| DaoOps.KubeconfigNamesCluster | internal/dao/eks_cluster.go:383-431 | the current context is the cluster's, the server is its endpoint, and the token command names the cluster and region |
| ProfileDir.SanitizeFileName | internal/config/data/helpers.go:17-19 | every maximal run of ':' and '/' becomes one "-", and no ':' or '/' is left |
| ProfileDir.SanitizeIdempotent | internal/config/data/helpers.go:17-19 | sanitising twice is sanitising once |
| ProfileDir.SanitizeRun | internal/config/data/helpers.go:17-19 | a run of invalid characters between two valid ones becomes exactly one "-" |
| ProfileDir.SanitizeProfileSubpath | internal/config/data/helpers.go:23-25 | the directory name is free of ':' and '/', contains the "-" separator and is no longer than the two names and the separator |
| ProfileDir.ParseProfileSubpath | internal/config/data/dir.go:175-199 | ("","") or a non-empty profile and "-"-free region split at the last "-" |
| ProfileDir.ParseJoined | internal/config/data/dir.go:175-199 | a name joined at "-" with a "-"-free region parses back |
| ProfileDir.SubpathRoundTrip | internal/config/data/dir.go:175-199 | for a profile that stays non-empty and a region without "-", ":" or "/", the subpath parses back to the sanitised pair |
| ProfileDir.RegionWithDashSplitsWrong | internal/config/data/dir.go:175-199 | a region "head-tail" parses back as profile "{profile}-head" and region "tail" (so "default" with "us-east-1" gives "default-us-east" and "1") |
| ProfileDir.ProfilePath | internal/config/data/dir.go:43-51 | the profile subpath alone for an empty root; otherwise the root, a "/" unless the root already ends in one, then the subpath, so the root is a prefix and the last segment is the subpath |
| ProfileDir.ProfileFile | internal/config/data/dir.go:55-69 | the named file inside the profile directory |
| ProfileDir.Candidate | internal/config/data/dir.go:144-166 | an entry contributes only when it is a directory holding a config.yaml and its name parses to two non-empty halves, and then contributes that parse |
| ProfileDir.Profiles | internal/config/data/dir.go:142-169 | at most one pair per directory entry, each with a non-empty profile and region |
| ProfileDir.ProfilesListed | internal/config/data/dir.go:144-166 | every listed pair comes from a directory holding a config.yaml whose name parses to that pair |
| ProfileDir.ProfilesComplete | internal/config/data/dir.go:144-166 | every directory holding a config.yaml whose name parses to two non-empty halves is listed |
| ProfileDir.FirstStatFailure | internal/config/data/dir.go:150-155 | nothing exactly when no directory's config.yaml stat failed; otherwise the message of the first that did |
| ProfileDir.ListProfiles | internal/config/data/dir.go:132-170 | a failed directory read or the first failed config stat is reported with its prefix; otherwise the listing succeeds with the pairs of the qualifying directories |
| Schema.ExtractPropertyName | internal/aws/schema.go:74-88 | "/properties/X/..." names X, and any other pointer names nothing |
| Schema.PropertyNameOfPointer | internal/aws/schema.go:74-88 | "/properties/Name" names "Name" |
| Schema.PropertyNameOfNestedPointer | internal/aws/schema.go:74-88 | nested pointers name their top-level property |
| Schema.OtherPointerNamesNothing | internal/aws/schema.go:74-88 | a pointer outside "/properties" names nothing |
| Schema.ExtractPropertyNames | internal/aws/schema.go:60-69 | the non-empty names, in order |
| Schema.ExtractPropertyNamesAppend | internal/aws/schema.go:60-69 | the names of two pointer lists joined are the names of each, in order and with repeats |
| Schema.ExtractPropertyNamesOne | internal/aws/schema.go:60-69 | one pointer gives its name, or nothing when it names none |
| Schema.SchemaFromPointers | internal/aws/schema.go:31-56 | each list holds exactly the non-empty names its pointers name |
| Schema.FilterEditableProperties | internal/aws/schema.go:92-118 | nil stays nil; otherwise exactly the non-editable properties are dropped, and the values are kept |
| Schema.FilterIdempotent | internal/aws/schema.go:92-118 | filtering twice removes nothing more |
| CloudControl.ExtractIdentifier | internal/aws/cloudcontrol.go:90-96 | the text after the last "/", or the whole path |
| CloudControl.IdentifierOfRegionalPath | internal/aws/cloudcontrol.go:90-96 | the region prefix of a "region/id" path is stripped for every type |
| CloudControl.IdentifierAgreesWithEC2Path | internal/aws/cloudcontrol.go:90-96 | for an instance path the EC2 parser accepts, both give the same id |
| Region.Seed | internal/aws/region.go:68-74 | each name becomes an enabled entry, and the list keeps the order |
| Region.NewRegionManager | internal/aws/region.go:40-77 | the manager seeded with the fallback regions |
| Region.FreshManagerShape | internal/aws/region.go:47-66 | eighteen regions, with the default region first and known |
| Region.GetRegion | internal/aws/region.go:138-153 | the stored info, or a "not found" error naming the region |
| Region.ValidateRegion | internal/aws/region.go:156-169 | passes iff the region is "all", "global" or known; the error names it |
| Region.IsGlobalService | internal/aws/region.go:172-174 | true exactly for iam, s3 and route53 |
| Region.ResolveRegion | internal/aws/region.go:182-196 | global services get us-east-1; otherwise the requested region, or the given default when none is requested |
| Region.ResolvedValidates | internal/aws/region.go:156-196 | resolving with known or empty regions gives a region the manager accepts |
| Region.InfoOf | internal/aws/region.go:111-119 | the description repeats the name; disabled iff the opt-in status is "not-opted-in" |
| Region.Rebuild | internal/aws/region.go:96-121 | entries are filed in order until the first nil name, which fails; the keys are exactly the listed names |
| Region.DiscoverRegions | internal/aws/region.go:80-125 | no client or a failed call changes nothing and returns the source's error; otherwise the rebuild |
| Region.DiscoveredInfoIsLast | internal/aws/region.go:96-121 | a name's info comes from its last entry in the response |
| Region.DiscoveredEnabled | internal/aws/region.go:111-119 | a region whose last entry is "not-opted-in" is known but disabled |
| Region.NilNameForgetsDefault | internal/aws/region.go:96-102 | a first entry without a name leaves no regions, so the default region no longer validates |
| Shell.DefaultSSHConfig | internal/aws/shell.go:24-28 | no user, no key, port 22 |
| Shell.BuildSSHCommand | internal/aws/shell.go:130-152 | "-i key" when a key is set, "-p port" when not 22, the host-key option, the target last |
| Shell.DefaultSSHCommand | internal/aws/shell.go:130-152 | the default configuration gives just the option and the address |
| Shell.TargetCarriesUser | internal/aws/shell.go:145-149 | the target is user@ip, or the bare ip without a user, and both parts can be read back |
| Shell.BuildSSMCommand | internal/aws/shell.go:155-161 | "ssm start-session --target id", plus "--region r" when one is given |
| Shell.BuildEC2ICCommand | internal/aws/shell.go:185-191 | "ec2-instance-connect ssh --instance-id id", plus "--region r" when one is given |
| Shell.SameRegionTail | internal/aws/shell.go:155-191 | the two aws CLI commands differ only in their head, and a region adds "--region r" after it |
| Shell.AwsCommand | internal/aws/shell.go:155-191 | the four-word head, then "--region r" exactly when a region is given |
| Shell.InstanceIP | internal/aws/shell.go:31-70 | an API failure, no instance, or no address each gives the source's message; otherwise the first instance's address |
| Shell.InstanceIPIgnoresRest | internal/aws/shell.go:31-70 | only the first instance of the first reservation matters |
| Shell.DetectSSHUser | internal/aws/shell.go:80-127 | ubuntu, admin (for debian), centos and fedora by the first word found in priority order; ec2-user otherwise |
| Shell.ImageFor | internal/aws/shell.go:80-127 | the first returned image is used iff the call succeeds, the first instance names an image and some image is returned |
| Shell.UbuntuImage | internal/aws/shell.go:80-127 | a mixed-case "Ubuntu" name is still recognised |
| Editor.ErrorHeader | internal/view/editor.go:144-149 | the header is empty iff the message is |
| Editor.WriteContent | internal/view/editor.go:141-167 | the JSON and a closing newline end the content; without a message that is all of it, with one the content opens with the "// ERROR:" line |
| Editor.CommentEnd | internal/view/editor.go:235-244 | the scan position stays within the lines |
| Editor.CommentEndSkipsComments | internal/view/editor.go:235-244 | every line passed over is blank or a comment, and the last one a comment |
| Editor.CommentEndMaximal | internal/view/editor.go:235-244 | the lines after the scan start no further comment run |
| Editor.StripErrorComment | internal/view/editor.go:231-252 | the content changes exactly when the leading run of blank and comment lines holds a comment and something follows it; then the result is the lines after that run joined back, otherwise the content itself |
| Editor.StripIdempotent | internal/view/editor.go:231-252 | stripping twice removes nothing more |
| Editor.StripsErrorHeader | internal/view/editor.go:141-252 | a one-line message over JSON starting with "{" strips to a newline, the JSON and its closing newline |
| Editor.MultiLineMessageLeaks | internal/view/editor.go:141-252 | a message with a newline leaves its second line and the rest of the header in place |
| Editor.NoHeaderUnchanged | internal/view/editor.go:141-252 | content written without a message whose first line is not a comment comes back untouched |
| Alias.NewAliases | internal/config/alias.go:56-65 | exactly the default aliases |
| Alias.Get | internal/config/alias.go:129-137 | the mapped resource, or the name itself when unmapped |
| Alias.Set | internal/config/alias.go:140-145 | the name maps to the resource; every other alias is unchanged |
| Alias.Delete | internal/config/alias.go:148-153 | the name is gone; every other alias is unchanged |
| Alias.Merge | internal/config/alias.go:116-126 | the keys of both maps, with the other map's values winning |
| Alias.All | internal/config/alias.go:156-165 | a copy with the same keys and values |
| Alias.SetThenGet | internal/config/alias.go:129-145 | Get after Set returns the resource; other names read as before |
| Alias.DeleteThenGet | internal/config/alias.go:129-153 | Get after Delete returns the name itself; other names read as before |
| Alias.MergeThenGet | internal/config/alias.go:116-137 | after a merge the other map wins, then the current one, then the name |
| Alias.MergeIdempotent | internal/config/alias.go:116-126 | merging a map into itself, or merging twice, changes nothing more |
| Alias.DefaultLookups | internal/config/alias.go:17-53 | "ctx" is profile, "ns" is region, "sg" is the security-group resource, unknown names pass through |
| Alias.LoadFrom | internal/config/alias.go:74-99 | a missing file changes nothing; a stat or decode error is reported and changes nothing; otherwise the file merges over |
| Browser.CleanseRegion | internal/view/browser.go:928-933 | "", "all" and "*" become "all"; anything else is kept |
| Browser.CleanseIdempotent | internal/view/browser.go:928-933 | cleansing twice is cleansing once |
| Browser.FriendlyError | internal/view/browser.go:892-925 | the first matching class in the order access, credentials, region, network, each with its message; otherwise "Unable to list" and the kind |
| Browser.FriendlyErrorNamesResource | internal/view/browser.go:892-925 | every message names the resource kind, except the credential and network ones |
| Browser.AccessWins | internal/view/browser.go:892-925 | a permission problem wins over anything else the text mentions |
| Browser.EndpointBeforeNetwork | internal/view/browser.go:892-925 | a connection failure mentioning an endpoint reads as a region problem |
| Browser.ColumnNames | internal/view/browser.go:197-243 | three to seven distinct columns per kind, NAME included; seven exactly for EC2 instances; NAME leads for buckets, users and roles and ID for the rest; a kind without its own table gets ID, NAME, REGION |
| Browser.HeaderForResource | internal/view/browser.go:197-243 | one plain column per name, in order |
| Browser.Cells | internal/view/browser.go:246-313 | exactly one cell per column of the kind |
| Browser.RowForObject | internal/view/browser.go:246-313 | a row as wide as the header, with the kind's cells first and the rest empty |
| Browser.RowMatchesHeader | internal/view/browser.go:197-313 | with the header of the same kind, every column gets its cell |
| Browser.NameColumnHoldsName | internal/view/browser.go:197-313 | the NAME column holds the object's name |
| Browser.PathRegion | internal/view/browser.go:728-734 | the view's region, else the factory's, else the default region; never empty |
| Browser.DescribePath | internal/view/browser.go:705-742 | nothing for an empty selection; "region/id" for ec2, vpc and eks; the bare id otherwise |
| Browser.DescribePathParsesAsEC2 | internal/view/browser.go:739-742 | the EC2 parser reads a describe path back into the region and id |
| Browser.DescribePathIdentifier | internal/view/browser.go:739-742 | the Cloud Control identifier of a describe path is the selected id |
| S3Navigation.NewNav | internal/view/s3_browser.go:30-41 | at the bucket list: no bucket, no prefix, no trail |
| S3Navigation.Name | internal/view/s3_browser.go:54-62 | the bucket list, the bucket, or bucket/prefix |
| S3Navigation.SplitPrefix | internal/view/s3_browser.go:211-223 | the "/"-separated segments, with empty ones dropped |
| S3Navigation.SplitPrefixOf | internal/view/s3_browser.go:211-223 | splitting reads back the segments a prefix was built from |
| S3Navigation.PrefixOfAppend | internal/view/s3_browser.go:211-223 | the prefix of one more segment extends the prefix |
| S3Navigation.SetBucket | internal/view/s3_browser.go:187-194 | the trail is the bucket alone, or empty for "" |
| S3Navigation.SetPrefix | internal/view/s3_browser.go:197-208 | with a bucket, the trail is the bucket followed by the prefix's segments |
| S3Navigation.GoUp | internal/view/s3_browser.go:268-293 | up one segment, from the bucket root to the list, consumed only inside a bucket |
| S3Navigation.NameIsTrail | internal/view/s3_browser.go:54-62 | inside a bucket the title is the trail joined with "/" |
| S3Navigation.DrillDownAsWritten | internal/view/s3_browser.go:241-265 | a folder's id is appended to the current prefix |
| S3Navigation.DrillDownDoublesPrefix | internal/view/s3_browser.go:257 | below a bucket's top level, entering a child folder by its full id puts the current prefix in front twice (from "a/", folder "a/b/" gives "a/a/b/") and the trail repeats the segments, unlike the corrected DrillDown |
| S3Navigation.DrillDown | internal/view/s3_browser.go:241-265 | the folder's id becomes the new prefix |
| S3Navigation.DrillDownThenGoUp | internal/view/s3_browser.go:241-293 | entering a folder one level down and going up returns to the same place |
| S3Navigation.EnterBucketThenGoUp | internal/view/s3_browser.go:241-293 | entering a bucket and going up returns to the list |
| S3Navigation.GoUpCanonical | internal/view/s3_browser.go:187-293 | every position reached by drilling down or going up keeps prefix and trail in step |
| RenderHelpers.HumanDuration | internal/render/aws_helpers.go:19-43 | "0s" below a second; whole years past 365 days; else whole days when there is at least one; else whole hours, else whole minutes, else whole seconds |
| RenderHelpers.HumanDurationReadBack | internal/render/aws_helpers.go:19-43 | the AGE comparator reads a formatted age back as the elapsed time rounded down to its unit |
| RenderHelpers.ToAge | internal/render/aws_helpers.go:11-16 | an absent or zero time is unknown; otherwise the age at now |
| RenderHelpers.Missing | internal/render/aws_helpers.go:46-51 | the placeholder for "", the text itself otherwise |
| RenderHelpers.NA | internal/render/aws_helpers.go:54-59 | "n/a" for "", the text itself otherwise |
| RenderHelpers.PlaceholdersIdempotent | internal/render/aws_helpers.go:46-59 | substituting a placeholder twice is substituting once |
| RenderHelpers.BoolToYesNo | internal/render/aws_helpers.go:62-67 | "Yes" iff true, "No" iff false |
| RenderHelpers.BoolPtrToYesNo | internal/render/aws_helpers.go:70-75 | "n/a" exactly for nil |
| RenderHelpers.StrPtrToStr | internal/render/aws_helpers.go:78-83 | "" for nil, the text otherwise |
| RenderHelpers.DecimalIsNotNA | internal/render/aws_helpers.go:86-99 | a number's rendering is never "n/a" |
| RenderHelpers.Int32PtrToStr | internal/render/aws_helpers.go:86-91 | "n/a" exactly for nil, else the decimal value |
| RenderHelpers.Int64PtrToStr | internal/render/aws_helpers.go:94-99 | the same for 64-bit values |
| RenderHelpers.FormatSizeGB | internal/render/aws_helpers.go:116-118 | the number followed by " GiB" |
| RenderHelpers.GetTag | internal/render/aws_helpers.go:140-145 | the tag's value, or "" when the key is absent |
| RenderHelpers.ExtractNameTag | internal/render/aws_helpers.go:132-137 | the "Name" tag |
| RenderHelpers.Truncate | internal/render/aws_helpers.go:121-129 | the text when it fits; the first max bytes when max is at most 3; else max-3 bytes and "..." |
| RenderHelpers.TruncateBound | internal/render/aws_helpers.go:121-129 | never longer than max and a long text cut to exactly max; without an ellipsis the result is a prefix of the text, with one it is the first max - 3 bytes followed by "..."; truncating twice changes nothing |
| RenderHelpers.JoinStrings | internal/render/aws_helpers.go:148-156 | all-empty parts give ""; what the joined text holds is stated by JoinStringsSplit |
| RenderHelpers.JoinStringsSplit | internal/render/aws_helpers.go:148-156 | splitting at a one-character separator no part contains gives back the non-empty parts |

## Left out

- AWS SDK calls (List, Get, Describe, Delete, the scaling, IAM and S3 calls): their answers are parameters, and the requests are not modelled.
- The tview widgets, tcell drawing and titles: a view's screen is reduced to what it shows (rows, a message or an error).
- Goroutines, mutexes and contexts: every operation is a single atomic step, and the watch loop is a sequence of ticks.
- Floating-point formatting (`FormatSize`, `formatBytes`, `formatSize`) is not modelled: it is floating-point text formatting.
- Reflection (`extractField` in browser.go and the instance-type interface check): the field extractor is a parameter.
- File I/O (YAML load and save, stat, directory listing, the edit file, the editor process): their results are parameters.
- `ExecSSH`, `ExecSSM` and `ExecEC2IC`: they only spawn the built command.
- `jsondiff` patch generation and `ApplyUpdate`: library and SDK calls.
- Go's `%q` escaping: messages quote with plain double quotes.
- Case folding is ASCII only, and one character stands for one byte: the Backspace key (`text[:len(text)-1]`) and `Truncate` count bytes, which agree with characters only on ASCII text.
- Map iteration order: where it matters (cache eviction, alias merging) the order is a parameter.
- Timestamps, ARNs beyond their path and the raw SDK record of display objects are not modelled.
- `fields.go` (Fields.Diff, Customize, Clone) is not part of this model: `Rows` assumes it follows the DeltaRow rules.
- The row selection is not modelled: j, k, g, G and the arrow keys are consumed and leave the view as it is.
- Pages, menus, hints, dialogs and crumbs are not modelled: they are UI plumbing.
- `RegionManager.lastRefresh` is not modelled: it is a timestamp nothing reads.
- `ListRegions` has no row: it returns a copy of the region list, which is the same value here.
- `cmd/command.go`'s alias dispatch is not modelled: it lives outside the core.
- DaoOps.FormatRules: its own contract states only the empty case; the line structure is stated by FormatRulesLines, for single-line fields.
- Ordering.DurationToSeconds: its own contract states only the zero cases; DurationOfTerm and DurationOfTwoTerms state the scan.
- Ordering.IsValid: its own contract states only the trivially valid cases; IsValidMeaning states the full rule.
- Editor.ErrorHeader: its own contract says only when the header is empty; StripsErrorHeader and MultiLineMessageLeaks state what the text does.
- Durations are unbounded integers: the int64 overflow of time.Duration is not modelled.
- Editor.CommentEnd: its own contract gives only the bound; the meaning of the scan is stated by CommentEndSkipsComments and CommentEndMaximal.
- TableSnapshot.Clone: the shared row collection is modelled as the same value, so aliasing a later mutation is not visible.
- Browser.RowForObject: requires a header at least as wide as the kind's columns, which is what headerForResource always builds.
- Rows.HeaderDiff: compares two separately allocated headers; Go's DeepEqual also treats a nil and an empty header as different and a slice as equal to itself before looking at decorators, and neither nil-ness nor aliasing is modelled.
- DaoCache.Get: a stored nil list and a stored empty list are the same value, so a hit on a stored nil is served as an empty list.
- ProfileDir.ProfilePath: filepath.Join also cleans the root (doubled "/", "." and ".." segments); the model takes the root as already clean.
- RenderHelpers.Truncate: requires a non-negative max, because a negative one makes the source's slice expression panic.
- Presentation.SortTable and Presentation.SortResourceTable: the re-render the sort handlers start in a goroutine (`go t.refresh()` in table.go and `go r.refresh()` in resource_table.go) is not modelled; only the new sort column is.
- RenderHelpers.JoinStrings: its own contract states only the all-empty case; JoinStringsSplit states the joined text only for a one-character separator no part contains, which is what every caller in the renderers passes.
- CommandBar.SetCommands: the source sorts the caller's slice in place, so the caller sees it reordered too; values have no aliasing here, so only the bar's sorted list is modelled.
- Presentation.ToggleMark: the order of `GetMarked` (Go map order) is not modelled; marks are a set.

## Findings

| source | as written | input that shows it | evidently intended | confidence | as-written member | corrected member |
|---|---|---|---|---|---|---|
| internal/aws/cache.go:83 | eviction at capacity runs only when the oldest key is not "" | MaxEntries 1, only entry under "", then Set("a", v): two entries | evict the oldest entry whatever its key, so the count stays at most MaxEntries | high, not executed | AwsCache.SetWithTTLAsWritten / AwsCache.EmptyKeyBlocksEviction | AwsCache.SetWithTTL / AwsCache.SetKeepsBound |
| internal/view/s3_browser.go:257 | drillDownCmd sets the prefix to currentPrefix + the row id, but a folder row's id is already the full common prefix (s3_object.go:396-413) | bucket "bkt", prefix "a/", folder id "a/b/": the new prefix is "a/a/b/" | the folder id becomes the new prefix, so going up returns to "a/" | high, not executed | S3Navigation.DrillDownAsWritten / S3Navigation.DrillDownDoublesPrefix | S3Navigation.DrillDown / S3Navigation.DrillDownThenGoUp |

Other behaviour that follows from the code as written is modelled faithfully and stated as lemmas, without a correction:
- Refresh publishes a snapshot that never receives the rows (Engine.NoDataNeverSent).
- DiscoverRegions wipes the fallback regions before it sees a nil name (Region.NilNameForgetsDefault).
- stripErrorComment keeps a multi-line message's tail (Editor.MultiLineMessageLeaks).
- Region names containing "-" do not survive the profile-directory round trip (ProfileDir.RegionWithDashSplitsWrong).
- RowEvents.Set with another id leaves a stale index entry (Events.SetOtherIdLeavesStaleEntry).

=== FILE: alias.dfy ===
/** Command aliases (internal/config/alias.go): a map from a short name to a resource
    name, seeded with built-in defaults and overridable from the aliases file. The
    lock is left out; reading the YAML file is reduced to what the stat and the
    decoder answered. */
module Alias {
  import opened Wrappers

  datatype Aliases = Aliases(alias: map<string, string>)

  /** The built-in aliases. */
  const DefaultAliases: map<string, string> := map[
    "ec2" := "ec2/instance", "i" := "ec2/instance",
    "vol" := "ec2/volume", "ebs" := "ec2/volume",
    "sg" := "ec2/security-group",
    "vpc" := "vpc/vpc", "subnet" := "vpc/subnet", "sn" := "vpc/subnet",
    "igw" := "vpc/internet-gateway", "nat" := "vpc/nat-gateway",
    "rt" := "vpc/route-table", "acl" := "vpc/network-acl",
    "s3" := "s3/bucket", "bucket" := "s3/bucket",
    "iam" := "iam/user", "user" := "iam/user", "role" := "iam/role", "policy" := "iam/policy",
    "eks" := "eks/cluster", "cluster" := "eks/cluster",
    "ng" := "eks/nodegroup", "nodegroup" := "eks/nodegroup",
    "ctx" := "profile", "ns" := "region"]

  /** NewAliases: a fresh copy of the defaults. */
  function NewAliases(): (a: Aliases)
    ensures forall k :: k in a.alias <==> k in DefaultAliases
    ensures forall k :: k in a.alias ==> a.alias[k] == DefaultAliases[k]
  {
    Aliases(DefaultAliases)
  }

  /** Get: the resource an alias stands for, or the alias itself when unmapped. */
  function Get(a: Aliases, name: string): (r: string)
    ensures name in a.alias ==> r == a.alias[name]
    ensures name !in a.alias ==> r == name
  {
    if name in a.alias then a.alias[name] else name
  }

  function Set(a: Aliases, name: string, resource: string): (r: Aliases)
    ensures name in r.alias && r.alias[name] == resource
    ensures forall k :: k != name ==> (k in r.alias <==> k in a.alias)
    ensures forall k :: k != name && k in a.alias ==> r.alias[k] == a.alias[k]
  {
    Aliases(a.alias[name := resource])
  }

  function Delete(a: Aliases, name: string): (r: Aliases)
    ensures name !in r.alias
    ensures forall k :: k != name ==> (k in r.alias <==> k in a.alias)
    ensures forall k :: k in r.alias ==> r.alias[k] == a.alias[k]
  {
    Aliases(a.alias - {name})
  }

  /** Merge: every key of the other map is copied in, overriding. */
  function Merge(a: Aliases, other: Aliases): (r: Aliases)
    ensures forall k :: k in r.alias <==> k in a.alias || k in other.alias
    ensures forall k :: k in other.alias ==> r.alias[k] == other.alias[k]
    ensures forall k :: k in a.alias && k !in other.alias ==> r.alias[k] == a.alias[k]
  {
    Aliases(a.alias + other.alias)
  }

  /** All: a copy with the same keys and values. */
  function All(a: Aliases): (m: map<string, string>)
    ensures forall k :: k in m <==> k in a.alias
    ensures forall k :: k in m ==> m[k] == a.alias[k]
  {
    a.alias
  }

  /** Set then Get returns the resource; other aliases read as before. */
  lemma SetThenGet(a: Aliases, name: string, resource: string, other: string)
    ensures Get(Set(a, name, resource), name) == resource
    ensures other != name ==> Get(Set(a, name, resource), other) == Get(a, other)
  {
  }

  /** Delete then Get returns the alias itself; other aliases read as before. */
  lemma DeleteThenGet(a: Aliases, name: string, other: string)
    ensures Get(Delete(a, name), name) == name
    ensures other != name ==> Get(Delete(a, name), other) == Get(a, other)
  {
  }

  /** Lookups after a merge: the other map wins, then the current one, then the name. */
  lemma MergeThenGet(a: Aliases, other: Aliases, name: string)
    ensures Get(Merge(a, other), name) == (if name in other.alias then other.alias[name] else Get(a, name))
  {
  }

  /** Merging a map into itself, or merging the same map twice, changes nothing more. */
  lemma MergeIdempotent(a: Aliases, other: Aliases)
    ensures Merge(a, a) == a
    ensures Merge(Merge(a, other), other) == Merge(a, other)
  {
  }

  /** Some built-in lookups, including the k9s-style names for profile and region. */
  lemma DefaultLookups()
    ensures Get(NewAliases(), "ctx") == "profile"
    ensures Get(NewAliases(), "ns") == "region"
    ensures Get(NewAliases(), "sg") == "ec2/security-group"
    ensures Get(NewAliases(), "ec2/instance") == "ec2/instance"
  {
  }

  /** What loading the aliases file found. */
  datatype FileState = Missing | StatError(msg: string) | Decoded(loaded: Result<map<string, string>>)

  /** LoadFrom: a missing file keeps the current aliases; a stat or decode error is
      reported and changes nothing; otherwise the file's aliases are merged over. */
  function LoadFrom(a: Aliases, file: FileState): (r: (Aliases, Outcome))
    ensures r.1.Pass? ==> r.0 == (if file.Decoded? && file.loaded.Ok? then Merge(a, Aliases(file.loaded.value)) else a)
    ensures r.1.Fail? ==> r.0 == a
    ensures r.1.Pass? <==> file.Missing? || (file.Decoded? && file.loaded.Ok?)
  {
    match file
    case Missing => (a, Pass)
    case StatError(msg) => (a, Fail(msg))
    case Decoded(loaded) =>
      if loaded.Err? then (a, Fail(loaded.msg)) else (Merge(a, Aliases(loaded.value)), Pass)
  }
}

=== FILE: aws_cache.dfy ===
/** The AWS response cache: entries with a refresh deadline, a capacity bound enforced by
    evicting the oldest entry, and prefix invalidation (internal/aws/cache.go).
    Times are nanosecond counts passed in by the caller. */
module AwsCache {
  import opened Wrappers
  import opened Strs

  const Second: int := 1000000000

  /** The default time-to-live and capacity. */
  const DefaultTTL: int := 5 * Second
  const DefaultMaxEntries: int := 1000

  datatype Entry<V> = Entry(value: V, timestamp: int, ttl: int, refreshAt: int)

  datatype CacheConfig = CacheConfig(defaultTTL: int, maxEntries: int)

  datatype ResourceCache<V> = ResourceCache(entries: map<string, Entry<V>>, defaultTTL: int, maxEntries: int)

  /** NewResourceCache: an empty cache; a missing configuration or a non-positive field
      falls back to 5 seconds and 1000 entries. */
  function NewResourceCache<V>(cfg: Option<CacheConfig>): (c: ResourceCache<V>)
    ensures |c.entries| == 0
    ensures c.defaultTTL == (if cfg.Some? && cfg.value.defaultTTL > 0 then cfg.value.defaultTTL else DefaultTTL)
    ensures c.maxEntries == (if cfg.Some? && cfg.value.maxEntries > 0 then cfg.value.maxEntries else DefaultMaxEntries)
    ensures c.defaultTTL > 0 && c.maxEntries > 0
  {
    var ttl := if cfg.Some? && cfg.value.defaultTTL > 0 then cfg.value.defaultTTL else DefaultTTL;
    var max := if cfg.Some? && cfg.value.maxEntries > 0 then cfg.value.maxEntries else DefaultMaxEntries;
    ResourceCache(map[], ttl, max)
  }

  /** Get: a miss for an absent key, and a miss once `now` is strictly after the entry's
      refresh time; a hit exactly at the refresh time. */
  function Get<V>(c: ResourceCache<V>, key: string, now: int): (r: Option<V>)
    ensures r.Some? <==> key in c.entries && now <= c.entries[key].refreshAt
    ensures r.Some? ==> r.value == c.entries[key].value
  {
    if key !in c.entries then None
    else if now > c.entries[key].refreshAt then None
    else Some(c.entries[key].value)
  }

  // ---------------------------------------------------------------------------
  // Eviction
  // ---------------------------------------------------------------------------

  /** `order` is one possible iteration order of the map: each key exactly once. Go leaves
      the order unspecified, so the model takes it as a parameter. */
  ghost predicate IterationOrder<V>(entries: map<string, Entry<V>>, order: seq<string>) {
    (forall k :: k in order <==> k in entries)
    && (forall i, j :: 0 <= i < j < |order| ==> order[i] != order[j])
  }

  lemma OrderCoversEntries<V>(entries: map<string, Entry<V>>, order: seq<string>)
    requires IterationOrder(entries, order)
    ensures |entries| > 0 ==> |order| > 0
  {
    if |entries| > 0 {
      var k :| k in entries;
      assert k in order;
    }
  }

  /** The source's scan: the first key visited becomes the candidate, and a later key
      replaces it only when strictly older. The result is a position in `order`. */
  function OldestPos<V>(entries: map<string, Entry<V>>, order: seq<string>): (p: Option<nat>)
    requires forall k :: k in order ==> k in entries
    ensures p.None? <==> |order| == 0
    ensures p.Some? ==> p.value < |order|
    ensures p.Some? ==> forall j :: 0 <= j < |order| ==>
              entries[order[p.value]].timestamp <= entries[order[j]].timestamp
    ensures p.Some? ==> forall j :: 0 <= j < p.value ==>
              entries[order[j]].timestamp > entries[order[p.value]].timestamp
  {
    if |order| == 0 then None
    else
      var n := |order| - 1;
      var prev := OldestPos(entries, order[..n]);
      assert forall j :: 0 <= j < n ==> order[..n][j] == order[j];
      if prev.None? || entries[order[n]].timestamp < entries[order[prev.value]].timestamp
      then Some(n)
      else prev
  }

  /** The new entry SetWithTTL stores. */
  function Fresh<V>(value: V, ttl: int, now: int): (e: Entry<V>)
    ensures e.timestamp == now && e.refreshAt == now + ttl && e.ttl == ttl && e.value == value
  {
    Entry(value, now, ttl, now + ttl)
  }

  /** SetWithTTL as the source writes it: at capacity the oldest key is deleted, but only
      when it is not the empty string, since the scan's "nothing found" value is "". */
  function SetWithTTLAsWritten<V>(c: ResourceCache<V>, key: string, value: V, ttl: int, now: int,
                                  order: seq<string>): (c': ResourceCache<V>)
    requires IterationOrder(c.entries, order)
    ensures c'.defaultTTL == c.defaultTTL && c'.maxEntries == c.maxEntries
    ensures key in c'.entries && c'.entries[key] == Fresh(value, ttl, now)
    ensures |c.entries| < c.maxEntries || |c.entries| == 0 ==> c'.entries == c.entries[key := Fresh(value, ttl, now)]
    ensures |c.entries| >= c.maxEntries && |c.entries| > 0 ==>
              exists victim :: victim in c.entries
                && (forall k :: k in c.entries ==> c.entries[victim].timestamp <= c.entries[k].timestamp)
                && c'.entries == (if victim != "" then c.entries - {victim} else c.entries)[key := Fresh(value, ttl, now)]
  {
    var kept :=
      if |c.entries| >= c.maxEntries then
        match OldestPos(c.entries, order)
        case None => c.entries
        case Some(p) =>
          assert forall k :: k in c.entries ==> c.entries[order[p]].timestamp <= c.entries[k].timestamp by {
            forall k | k in c.entries
              ensures c.entries[order[p]].timestamp <= c.entries[k].timestamp
            {
              var j :| 0 <= j < |order| && order[j] == k;
            }
          }
          if order[p] != "" then c.entries - {order[p]} else c.entries
      else c.entries;
    OrderCoversEntries(c.entries, order);
    ResourceCache(kept[key := Fresh(value, ttl, now)], c.defaultTTL, c.maxEntries)
  }

  /** The source's store and the corrected one differ only when the cache is full and
      its oldest key is the empty string. */
  lemma AsWrittenAgreesUnlessEmptyOldest<V>(c: ResourceCache<V>, key: string, value: V, ttl: int, now: int,
                                            order: seq<string>)
    requires IterationOrder(c.entries, order)
    requires |c.entries| >= c.maxEntries && OldestPos(c.entries, order).Some? ==>
               order[OldestPos(c.entries, order).value] != ""
    ensures SetWithTTLAsWritten(c, key, value, ttl, now, order) == SetWithTTL(c, key, value, ttl, now, order)
  {
  }

  /** An empty-string key that is the oldest entry blocks every eviction: with room for one
      entry, storing "a" next to "" leaves two. */
  lemma EmptyKeyBlocksEviction(v: int)
    ensures var c := ResourceCache(map["" := Fresh(v, DefaultTTL, 0)], DefaultTTL, 1);
            var c' := SetWithTTLAsWritten(c, "a", v, DefaultTTL, 1, [""]);
            |c'.entries| == 2 && |c'.entries| > c'.maxEntries
  {
    var c := ResourceCache(map["" := Fresh(v, DefaultTTL, 0)], DefaultTTL, 1);
    assert OldestPos(c.entries, [""]) == Some(0);
    var c' := SetWithTTLAsWritten(c, "a", v, DefaultTTL, 1, [""]);
    assert c'.entries == map["" := Fresh(v, DefaultTTL, 0), "a" := Fresh(v, DefaultTTL, 1)];
    assert c'.entries.Keys == {"", "a"};
  }

  /** In general: once the cache is full and its oldest key is "", every store of a new
      key grows the cache past its capacity. */
  lemma EmptyOldestOverfills<V>(c: ResourceCache<V>, key: string, value: V, ttl: int, now: int,
                                order: seq<string>)
    requires IterationOrder(c.entries, order)
    requires |c.entries| >= c.maxEntries && key !in c.entries
    requires OldestPos(c.entries, order).Some? && order[OldestPos(c.entries, order).value] == ""
    ensures |SetWithTTLAsWritten(c, key, value, ttl, now, order).entries| == |c.entries| + 1
    ensures |SetWithTTLAsWritten(c, key, value, ttl, now, order).entries| > c.maxEntries
  {
    var c' := SetWithTTLAsWritten(c, key, value, ttl, now, order);
    assert c'.entries == c.entries[key := Fresh(value, ttl, now)];
    assert c'.entries.Keys == c.entries.Keys + {key};
  }

  /** SetWithTTL with the eviction the capacity bound calls for: at capacity, the oldest
      entry (the first visited among equally old ones) is removed, whatever its key, even
      when `key` itself is already stored. */
  function SetWithTTL<V>(c: ResourceCache<V>, key: string, value: V, ttl: int, now: int,
                         order: seq<string>): (c': ResourceCache<V>)
    requires IterationOrder(c.entries, order)
    ensures c'.defaultTTL == c.defaultTTL && c'.maxEntries == c.maxEntries
    ensures key in c'.entries && c'.entries[key] == Fresh(value, ttl, now)
    ensures |c.entries| < c.maxEntries || |c.entries| == 0 ==> c'.entries == c.entries[key := Fresh(value, ttl, now)]
    ensures |c.entries| >= c.maxEntries && |c.entries| > 0 ==>
              exists victim :: victim in c.entries
                && (forall k :: k in c.entries ==> c.entries[victim].timestamp <= c.entries[k].timestamp)
                && c'.entries == (c.entries - {victim})[key := Fresh(value, ttl, now)]
  {
    var kept :=
      if |c.entries| >= c.maxEntries then
        match OldestPos(c.entries, order)
        case None => c.entries
        case Some(p) =>
          assert forall k :: k in c.entries ==> c.entries[order[p]].timestamp <= c.entries[k].timestamp by {
            forall k | k in c.entries
              ensures c.entries[order[p]].timestamp <= c.entries[k].timestamp
            {
              var j :| 0 <= j < |order| && order[j] == k;
            }
          }
          c.entries - {order[p]}
      else c.entries;
    OrderCoversEntries(c.entries, order);
    ResourceCache(kept[key := Fresh(value, ttl, now)], c.defaultTTL, c.maxEntries)
  }

  /** Set as the source writes it: SetWithTTLAsWritten with the default time-to-live, so
      it inherits the empty-key guard. */
  function SetAsWritten<V>(c: ResourceCache<V>, key: string, value: V, now: int, order: seq<string>): (c': ResourceCache<V>)
    requires IterationOrder(c.entries, order)
    ensures key in c'.entries && c'.entries[key] == Fresh(value, c.defaultTTL, now)
    ensures c'.maxEntries == c.maxEntries && c'.defaultTTL == c.defaultTTL
    ensures |c.entries| < c.maxEntries ==> c'.entries == c.entries[key := Fresh(value, c.defaultTTL, now)]
  {
    SetWithTTLAsWritten(c, key, value, c.defaultTTL, now, order)
  }

  /** Set with the corrected eviction: SetWithTTL with the cache's default time-to-live. */
  function Set<V>(c: ResourceCache<V>, key: string, value: V, now: int, order: seq<string>): (c': ResourceCache<V>)
    requires IterationOrder(c.entries, order)
    ensures key in c'.entries && c'.entries[key] == Fresh(value, c.defaultTTL, now)
    ensures c'.maxEntries == c.maxEntries && c'.defaultTTL == c.defaultTTL
    ensures |c.entries| < c.maxEntries ==> c'.entries == c.entries[key := Fresh(value, c.defaultTTL, now)]
    ensures 0 < c.maxEntries && |c.entries| <= c.maxEntries ==> |c'.entries| <= c.maxEntries
  {
    if 0 < c.maxEntries && |c.entries| <= c.maxEntries then
      SetKeepsBound(c, key, value, c.defaultTTL, now, order);
      SetWithTTL(c, key, value, c.defaultTTL, now, order)
    else
      SetWithTTL(c, key, value, c.defaultTTL, now, order)
  }

  /** The resident count never exceeds the capacity after a store. */
  lemma SetKeepsBound<V>(c: ResourceCache<V>, key: string, value: V, ttl: int, now: int, order: seq<string>)
    requires IterationOrder(c.entries, order)
    requires 0 < c.maxEntries && |c.entries| <= c.maxEntries
    ensures |SetWithTTL(c, key, value, ttl, now, order).entries| <= c.maxEntries
  {
    var c' := SetWithTTL(c, key, value, ttl, now, order);
    var e := Fresh(value, ttl, now);
    if |c.entries| >= c.maxEntries {
      var victim :| victim in c.entries
        && (forall k :: k in c.entries ==> c.entries[victim].timestamp <= c.entries[k].timestamp)
        && c'.entries == (c.entries - {victim})[key := e];
      RemoveOneKey(c.entries, victim);
      StoreOneKey(c.entries - {victim}, key, e);
    } else {
      StoreOneKey(c.entries, key, e);
    }
  }

  lemma RemoveOneKey<V>(m: map<string, Entry<V>>, k: string)
    requires k in m
    ensures |m - {k}| == |m| - 1
  {
    assert (m - {k}).Keys == m.Keys - {k};
  }

  lemma StoreOneKey<V>(m: map<string, Entry<V>>, k: string, e: Entry<V>)
    ensures |m[k := e]| <= |m| + 1
  {
    assert m[k := e].Keys == m.Keys + {k};
  }

  /** A stored value is served up to and including its refresh time and missed afterwards. */
  lemma GetAfterSet<V>(c: ResourceCache<V>, key: string, value: V, ttl: int, now: int,
                       later: int, order: seq<string>)
    requires IterationOrder(c.entries, order)
    ensures Get(SetWithTTL(c, key, value, ttl, now, order), key, later)
         == if later <= now + ttl then Some(value) else None
  {
  }

  // ---------------------------------------------------------------------------
  // Removal
  // ---------------------------------------------------------------------------

  /** Delete: only `key` goes. */
  function Delete<V>(c: ResourceCache<V>, key: string): (c': ResourceCache<V>)
    ensures key !in c'.entries
    ensures forall k :: k != key ==> (k in c'.entries <==> k in c.entries)
    ensures forall k :: k in c'.entries ==> c'.entries[k] == c.entries[k]
    ensures c'.maxEntries == c.maxEntries && c'.defaultTTL == c.defaultTTL
  {
    c.(entries := c.entries - {key})
  }

  /** The keys DeletePrefix removes. */
  function Matching<V>(entries: map<string, Entry<V>>, prefix: string): set<string> {
    set k | k in entries && HasPrefix(k, prefix)
  }

  /** DeletePrefix: "" removes nothing and reports 0; otherwise exactly the keys starting
      with `prefix` go, and their number is reported. */
  function DeletePrefix<V>(c: ResourceCache<V>, prefix: string): (res: (ResourceCache<V>, int))
    ensures prefix == "" ==> res == (c, 0)
    ensures prefix != "" ==> forall k :: k in res.0.entries <==> k in c.entries && !HasPrefix(k, prefix)
    ensures forall k :: k in res.0.entries ==> res.0.entries[k] == c.entries[k]
    ensures prefix != "" ==> res.1 == |Matching(c.entries, prefix)|
    ensures res.1 == |c.entries| - |res.0.entries|
    ensures res.0.maxEntries == c.maxEntries && res.0.defaultTTL == c.defaultTTL
  {
    if prefix == "" then (c, 0)
    else
      var gone := Matching(c.entries, prefix);
      var kept := map k | k in c.entries && !HasPrefix(k, prefix) :: c.entries[k];
      assert kept.Keys == c.entries.Keys - gone;
      assert gone <= c.entries.Keys;
      assert |c.entries.Keys| == |c.entries.Keys - gone| + |gone| by {
        assert c.entries.Keys == (c.entries.Keys - gone) + gone;
      }
      (c.(entries := kept), |gone|)
  }

  /** Invalidate (and Clear, which calls it): every entry goes. */
  function Invalidate<V>(c: ResourceCache<V>): (c': ResourceCache<V>)
    ensures |c'.entries| == 0
    ensures forall k :: Get(c', k, 0).None?
    ensures c'.maxEntries == c.maxEntries && c'.defaultTTL == c.defaultTTL
  {
    c.(entries := map[])
  }

  function Clear<V>(c: ResourceCache<V>): (c': ResourceCache<V>)
    ensures |c'.entries| == 0
    ensures c'.maxEntries == c.maxEntries && c'.defaultTTL == c.defaultTTL
  {
    Invalidate(c)
  }
}

=== FILE: browser.dfy ===
/** The pure decisions of the resource browser view (internal/view/browser.go): the
    region it lists, the message shown for a failed listing, the columns of each
    resource table, how an object becomes a row, and the path handed to the describe
    view. Widget plumbing is left out; reflection-based field extraction is
    a parameter. */
module Browser {
  import opened Wrappers
  import opened Strs
  import Rows
  import DaoObjects
  import DaoPaths
  import Region
  import CloudControl

  /** A resource kind: service and resource, written "service/resource". */
  datatype ResourceId = ResourceId(service: string, resource: string)

  function RidString(rid: ResourceId): string {
    rid.service + "/" + rid.resource
  }

  // ---------------------------------------------------------------------------
  // Region
  // ---------------------------------------------------------------------------

  /** cleanseRegion: "", "all" and "*" all mean every region. */
  function CleanseRegion(region: string): (r: string)
    ensures r == Region.RegionAll <==> region == "" || region == "all" || region == "*"
    ensures r != Region.RegionAll ==> r == region
  {
    if region == "" || region == "all" || region == "*" then Region.RegionAll else region
  }

  lemma CleanseIdempotent(region: string)
    ensures CleanseRegion(CleanseRegion(region)) == CleanseRegion(region)
  {
  }

  // ---------------------------------------------------------------------------
  // Error messages
  // ---------------------------------------------------------------------------

  predicate AccessProblem(e: string) {
    Contains(e, "AccessDenied") || Contains(e, "403") || Contains(e, "UnauthorizedOperation") ||
    Contains(e, "not authorized")
  }

  predicate CredentialProblem(e: string) {
    Contains(e, "NoCredentialProviders") || Contains(e, "ExpiredToken") || Contains(e, "InvalidClientTokenId")
  }

  predicate RegionProblem(e: string) {
    Contains(e, "InvalidRegion") || Contains(e, "endpoint")
  }

  predicate NetworkProblem(e: string) {
    Contains(e, "no such host") || Contains(e, "connection refused") || Contains(e, "timeout")
  }

  const CredentialsMsg := "AWS credentials invalid or expired"
  const NetworkMsg := "Unable to connect to AWS"

  /** friendlyError: the first matching class of trouble, tried in the order access,
      credentials, region, network; anything else is a generic listing failure. */
  function FriendlyError(e: string, rid: ResourceId): (msg: string)
    ensures AccessProblem(e) ==> msg == "Access denied for " + RidString(rid)
    ensures !AccessProblem(e) && CredentialProblem(e) ==> msg == CredentialsMsg
    ensures !AccessProblem(e) && !CredentialProblem(e) && RegionProblem(e) ==>
              msg == "Invalid region for " + RidString(rid)
    ensures !AccessProblem(e) && !CredentialProblem(e) && !RegionProblem(e) && NetworkProblem(e) ==>
              msg == NetworkMsg
    ensures !AccessProblem(e) && !CredentialProblem(e) && !RegionProblem(e) && !NetworkProblem(e) ==>
              msg == "Unable to list " + RidString(rid)
  {
    if AccessProblem(e) then "Access denied for " + RidString(rid)
    else if CredentialProblem(e) then CredentialsMsg
    else if RegionProblem(e) then "Invalid region for " + RidString(rid)
    else if NetworkProblem(e) then NetworkMsg
    else "Unable to list " + RidString(rid)
  }

  /** Every message names the resource kind except the credential and network ones,
      which are about the account or the connection as a whole. */
  lemma FriendlyErrorNamesResource(e: string, rid: ResourceId)
    ensures FriendlyError(e, rid) != CredentialsMsg && FriendlyError(e, rid) != NetworkMsg ==>
              Contains(FriendlyError(e, rid), RidString(rid))
  {
    var m := FriendlyError(e, rid);
    var s := RidString(rid);
    ContainsSelf(s);
    if AccessProblem(e) {
      ContainsAppend("Access denied for ", s, s);
    } else if CredentialProblem(e) {
    } else if RegionProblem(e) {
      ContainsAppend("Invalid region for ", s, s);
    } else if NetworkProblem(e) {
    } else {
      ContainsAppend("Unable to list ", s, s);
    }
  }

  /** A permission problem wins over everything else the text mentions. */
  lemma AccessWins(a: string, b: string, rid: ResourceId)
    ensures FriendlyError(a + "403" + b, rid) == "Access denied for " + RidString(rid)
  {
    ContainsMiddle(a, "403", b);
  }

  /** A connection failure that mentions an endpoint reads as a region problem, since
      the region test comes first. */
  lemma EndpointBeforeNetwork(e: string, rid: ResourceId)
    requires !AccessProblem(e) && !CredentialProblem(e)
    requires Contains(e, "endpoint") && Contains(e, "connection refused")
    ensures FriendlyError(e, rid) == "Invalid region for " + RidString(rid)
  {
  }

  // ---------------------------------------------------------------------------
  // Tables
  // ---------------------------------------------------------------------------

  const InstanceColumns := ["ID", "NAME", "TYPE", "STATE", "AZ", "PUBLIC IP", "PRIVATE IP"]
  const BucketColumns := ["NAME", "REGION", "CREATED"]
  const SecurityGroupColumns := ["ID", "NAME", "VPC", "DESCRIPTION"]
  const UserColumns := ["NAME", "USER ID", "CREATED", "LAST USED"]
  const RoleColumns := ["NAME", "ROLE ID", "CREATED", "DESCRIPTION"]
  const DefaultColumns := ["ID", "NAME", "REGION"]

  /** The kinds with a table of their own; every other kind gets DefaultColumns. */
  const TabledKinds: set<string> := {"ec2/instance", "s3/bucket", "vpc/securitygroup", "iam/user", "iam/role"}

  /** The column names of each resource table, by kind: every table has a NAME column
      and no repeated name; the kinds keyed by name (buckets, users, roles) lead with
      it, the others with ID; an unknown kind gets ID, NAME and REGION. */
  function ColumnNames(rid: ResourceId): (names: seq<string>)
    ensures 3 <= |names| <= 7
    ensures RidString(rid) == "ec2/instance" <==> |names| == 7
    ensures "NAME" in names
    ensures forall i, j :: 0 <= i < j < |names| ==> names[i] != names[j]
    ensures names[0] == "NAME" <==> RidString(rid) in {"s3/bucket", "iam/user", "iam/role"}
    ensures names[0] == "ID" <==> RidString(rid) !in {"s3/bucket", "iam/user", "iam/role"}
    ensures RidString(rid) !in TabledKinds ==> names == ["ID", "NAME", "REGION"]
  {
    match RidString(rid)
    case "ec2/instance" => InstanceColumns
    case "s3/bucket" => BucketColumns
    case "vpc/securitygroup" => SecurityGroupColumns
    case "iam/user" => UserColumns
    case "iam/role" => RoleColumns
    case _ => DefaultColumns
  }

  /** headerForResource: one plain column per name. */
  function HeaderForResource(rid: ResourceId): (h: Rows.Header)
    ensures |h| == |ColumnNames(rid)|
    ensures forall i :: 0 <= i < |h| ==> h[i] == Rows.HeaderColumn(ColumnNames(rid)[i], Rows.NoAttrs)
  {
    var names := ColumnNames(rid);
    seq(|names|, i requires 0 <= i < |names| => Rows.HeaderColumn(names[i], Rows.NoAttrs))
  }

  /** The cells rowForObject fills for an object: IAM kinds are keyed by name, the rest
      by id. `extract` stands for the reflective field lookup on the raw record and
      `created` for the creation date already formatted as YYYY-MM-DD. */
  function Cells(obj: DaoObjects.AwsObject, rid: ResourceId, created: Option<string>,
                 extract: string -> string): (cells: seq<string>)
    ensures |cells| == |ColumnNames(rid)|
  {
    var date := if created.Some? then created.value else "-";
    match RidString(rid)
    case "ec2/instance" =>
      [obj.id, obj.name, extract("InstanceType"), extract("State.Name"),
       extract("Placement.AvailabilityZone"), extract("PublicIpAddress"), extract("PrivateIpAddress")]
    case "s3/bucket" => [obj.name, obj.region, date]
    case "vpc/securitygroup" => [obj.id, obj.name, extract("VpcId"), extract("Description")]
    case "iam/user" => [obj.name, obj.id, date, extract("PasswordLastUsed")]
    case "iam/role" => [obj.name, obj.id, date, extract("Description")]
    case _ => [obj.id, obj.name, obj.region]
  }

  predicate KeyedByName(rid: ResourceId) {
    RidString(rid) == "iam/user" || RidString(rid) == "iam/role"
  }

  /** rowForObject: a row as wide as the header, the kind's cells first and the rest
      blank. The source writes the cells at fixed positions, so a header narrower than
      the kind's columns would be indexed out of range. */
  function RowForObject(obj: DaoObjects.AwsObject, rid: ResourceId, header: Rows.Header,
                        created: Option<string>, extract: string -> string): (row: Rows.Row)
    requires |header| >= |ColumnNames(rid)|
    ensures |row.fields| == |header|
    ensures row.id == (if KeyedByName(rid) then obj.name else obj.id)
    ensures row.fields[..|ColumnNames(rid)|] == Cells(obj, rid, created, extract)
    ensures forall i :: |ColumnNames(rid)| <= i < |header| ==> row.fields[i] == ""
  {
    var cells := Cells(obj, rid, created, extract);
    var blank := Rows.NewRow(|header| - |cells|);
    Rows.Row(if KeyedByName(rid) then obj.name else obj.id, cells + blank.fields)
  }

  /** With the header built for the same kind, every column gets its cell and the row
      is exactly as wide as the header. */
  lemma RowMatchesHeader(obj: DaoObjects.AwsObject, rid: ResourceId, created: Option<string>,
                         extract: string -> string)
    ensures |RowForObject(obj, rid, HeaderForResource(rid), created, extract).fields| == |HeaderForResource(rid)|
    ensures RowForObject(obj, rid, HeaderForResource(rid), created, extract).fields == Cells(obj, rid, created, extract)
  {
    var row := RowForObject(obj, rid, HeaderForResource(rid), created, extract);
    assert row.fields == row.fields[..|ColumnNames(rid)|];
  }

  /** The NAME column of every table holds the object's name. */
  lemma NameColumnHoldsName(obj: DaoObjects.AwsObject, rid: ResourceId, created: Option<string>,
                            extract: string -> string, i: int)
    requires 0 <= i < |ColumnNames(rid)| && ColumnNames(rid)[i] == "NAME"
    ensures Cells(obj, rid, created, extract)[i] == obj.name
  {
  }

  // ---------------------------------------------------------------------------
  // Describe path
  // ---------------------------------------------------------------------------

  /** The region used for the path: the view's, else the client factory's, else the
      default region. */
  function PathRegion(region: string, factoryRegion: Option<string>): (r: string)
    ensures r != ""
    ensures region != "" ==> r == region
    ensures region == "" && factoryRegion.Some? && factoryRegion.value != "" ==> r == factoryRegion.value
    ensures region == "" && (factoryRegion.None? || factoryRegion.value == "") ==> r == Region.DefaultRegion
  {
    var r := if region == "" && factoryRegion.Some? then factoryRegion.value else region;
    if r == "" then Region.DefaultRegion else r
  }

  predicate Regional(service: string) {
    service == "ec2" || service == "vpc" || service == "eks"
  }

  /** The path handed to the describe view: "region/id" for EC2, VPC and EKS, the bare
      id for the global services; nothing is opened for an empty selection. */
  function DescribePath(rid: ResourceId, id: string, region: string, factoryRegion: Option<string>): (p: Option<string>)
    ensures id == "" <==> p.None?
    ensures p.Some? && Regional(rid.service) ==> p.value == PathRegion(region, factoryRegion) + "/" + id
    ensures p.Some? && !Regional(rid.service) ==> p.value == id
  {
    if id == "" then None
    else if Regional(rid.service) then Some(PathRegion(region, factoryRegion) + "/" + id)
    else Some(id)
  }

  /** The EC2 accessor parses a describe path back into the region and the id. */
  lemma DescribePathParsesAsEC2(rid: ResourceId, id: string, region: string, factoryRegion: Option<string>)
    requires rid.service == "ec2"
    requires DaoPaths.Piece(id) && DaoPaths.Trimmed(id)
    requires DaoPaths.Piece(PathRegion(region, factoryRegion)) && DaoPaths.Trimmed(PathRegion(region, factoryRegion))
    ensures DaoPaths.ParseEC2Path(DescribePath(rid, id, region, factoryRegion).value)
            == Ok((PathRegion(region, factoryRegion), id))
  {
    DaoPaths.SplitFirstTrimmedRoundTrip(PathRegion(region, factoryRegion), id, "region/instance-id",
                                        "region and instance-id cannot be empty");
  }

  /** Cloud Control gets the selected id back from the path, regional or not. */
  lemma DescribePathIdentifier(rid: ResourceId, id: string, region: string, factoryRegion: Option<string>,
                               resourceType: string)
    requires id != "" && '/' !in id
    ensures CloudControl.ExtractIdentifier(resourceType, DescribePath(rid, id, region, factoryRegion).value) == id
  {
    if Regional(rid.service) {
      CloudControl.IdentifierOfRegionalPath(resourceType, resourceType, PathRegion(region, factoryRegion), id);
    }
  }
}

=== FILE: cloudcontrol.dfy ===
/** How a browser path becomes a Cloud Control identifier (internal/aws/cloudcontrol.go). */
module CloudControl {
  import opened Wrappers
  import opened Strs
  import DaoPaths

  /** ExtractIdentifier: the text after the last "/", or the whole path. The resource
      type is accepted and not consulted. */
  function ExtractIdentifier(resourceType: string, path: string): (id: string)
    ensures '/' !in id
    ensures HasSuffix(path, id)
    ensures '/' !in path ==> id == path
  {
    AfterLast(path, '/')
  }

  /** The region prefix of a "region/id" path is stripped, whatever the type. */
  lemma IdentifierOfRegionalPath(t1: string, t2: string, region: string, id: string)
    requires '/' !in id
    ensures ExtractIdentifier(t1, region + "/" + id) == id
    ensures ExtractIdentifier(t1, region + "/" + id) == ExtractIdentifier(t2, region + "/" + id)
  {
    AfterLastAt(region, id, '/');
  }

  /** For an instance path the EC2 accessor accepts with a "/"-free, trimmed id, the
      identifier is the instance id that accessor parses out. */
  lemma IdentifierAgreesWithEC2Path(resourceType: string, region: string, id: string)
    requires DaoPaths.Piece(region) && DaoPaths.Trimmed(region)
    requires DaoPaths.Piece(id) && DaoPaths.Trimmed(id)
    ensures DaoPaths.ParseEC2Path(region + "/" + id) == Ok((region, ExtractIdentifier(resourceType, region + "/" + id)))
  {
    DaoPaths.SplitFirstTrimmedRoundTrip(region, id, "region/instance-id", "region and instance-id cannot be empty");
    AfterLastAt(region, id, '/');
  }
}

=== FILE: cmdbar.dfy ===
/** The command bar (internal/ui/cmdbar.go): typed text, prefix suggestions over the
    known commands with Up/Down cycling and Tab completion, and command or filter
    submission. Callbacks into the rest of the application are reported as `Effect`s;
    whether each callback is registered is part of the state. */
module CommandBar {
  import opened Strs

  datatype Mode = ModeNormal | ModeCommand | ModeFilter

  /** What the bar asks of the application. */
  datatype Effect = RunCommand(cmd: string) | FilterChanged(text: string) | FilterCancelled | ActiveChanged(active: bool)

  datatype CmdBar = CmdBar(
    mode: Mode,
    isActive: bool,
    filterText: string,
    text: string,
    suggestions: seq<string>,
    suggestionIdx: int,
    currentSuggestion: string,
    commands: seq<string>,
    hasCmdFn: bool,
    hasFilterFn: bool,
    hasCancelFn: bool,
    hasActiveFn: bool)

  const DefaultCommands: seq<string> := ["ec2", "s3", "vpc", "sg", "iam", "role", "eks", "vol", "profile", "region"]

  /** NewCmdBar: normal mode, inactive, the default commands, no suggestion. */
  function NewCmdBar(): (c: CmdBar)
    ensures c.mode == ModeNormal && !c.isActive && c.text == "" && c.commands == DefaultCommands
    ensures c.suggestionIdx == -1 && c.suggestions == [] && c.currentSuggestion == ""
  {
    CmdBar(ModeNormal, false, "", "", [], -1, "", DefaultCommands, false, false, false, false)
  }

  // ---------------------------------------------------------------------------
  // Suggestions
  // ---------------------------------------------------------------------------

  /** The commands starting with `t`, in command-list order. */
  function PrefixMatches(cmds: seq<string>, t: string): (ms: seq<string>)
    ensures forall x :: x in ms <==> x in cmds && HasPrefix(x, t)
  {
    if |cmds| == 0 then []
    else if HasPrefix(cmds[0], t) then [cmds[0]] + PrefixMatches(cmds[1..], t)
    else PrefixMatches(cmds[1..], t)
  }

  /** getSuggestions: nothing for empty text; otherwise the commands starting with the
      lower-cased text, sorted. */
  function GetSuggestions(commands: seq<string>, text: string): (r: seq<string>)
    ensures text == "" ==> r == []
    ensures Sorted(r)
    ensures text != "" ==> multiset(r) == multiset(PrefixMatches(commands, ToLower(text)))
    ensures text != "" ==> forall x :: x in r <==> x in commands && HasPrefix(x, ToLower(text))
  {
    if text == "" then []
    else
      var r := SortStrings(PrefixMatches(commands, ToLower(text)));
      assert forall x :: x in r <==> x in multiset(r);
      r
  }

  /** Each suggestion shown is one the text can be completed to. */
  lemma SuggestionsExtendText(commands: seq<string>, text: string, i: int)
    requires text != "" && 0 <= i < |GetSuggestions(commands, text)|
    ensures HasPrefix(GetSuggestions(commands, text)[i], ToLower(text))
  {
    assert GetSuggestions(commands, text)[i] in GetSuggestions(commands, text);
  }

  function ClearSuggestions(c: CmdBar): (r: CmdBar)
    ensures r == c.(suggestions := [], suggestionIdx := -1, currentSuggestion := "")
  {
    c.(suggestions := [], suggestionIdx := -1, currentSuggestion := "")
  }

  /** updateSuggestions: outside command mode or with empty text the suggestions clear;
      otherwise they are recomputed and the first one (or "") is current. */
  function UpdateSuggestions(c: CmdBar): (r: CmdBar)
    ensures c.mode != ModeCommand || c.text == "" ==> r == ClearSuggestions(c)
    ensures c.mode == ModeCommand && c.text != "" ==>
              r.suggestions == GetSuggestions(c.commands, c.text) && r.suggestionIdx == 0
              && r.currentSuggestion == (if |r.suggestions| > 0 then r.suggestions[0] else "")
    ensures r.text == c.text && r.mode == c.mode && r.commands == c.commands && r.isActive == c.isActive
  {
    if c.mode != ModeCommand || c.text == "" then ClearSuggestions(c)
    else
      var s := GetSuggestions(c.commands, c.text);
      c.(suggestions := s, suggestionIdx := 0, currentSuggestion := if |s| > 0 then s[0] else "")
  }

  /** The suggestion state every operation keeps: with suggestions, the index is inside
      them and the current suggestion is the one it points at; without, there is no
      current suggestion. */
  predicate SuggestionsWF(c: CmdBar) {
    (|c.suggestions| > 0 ==> 0 <= c.suggestionIdx < |c.suggestions|
                             && c.currentSuggestion == c.suggestions[c.suggestionIdx])
    && (|c.suggestions| == 0 ==> c.currentSuggestion == "")
  }

  /** Down: the next suggestion, wrapping to the first. The index is always inside the
      list when there is one (`SuggestionsWF`); outside it the source would panic. */
  function CycleDown(c: CmdBar): (r: CmdBar)
    requires SuggestionsWF(c)
    ensures SuggestionsWF(r)
    ensures |c.suggestions| == 0 ==> r == c
    ensures |c.suggestions| > 0 ==>
              r.suggestionIdx == (if c.suggestionIdx + 1 == |c.suggestions| then 0 else c.suggestionIdx + 1)
    ensures r.suggestions == c.suggestions && r.text == c.text
  {
    if |c.suggestions| == 0 then c
    else
      var i := if c.suggestionIdx + 1 >= |c.suggestions| then 0 else c.suggestionIdx + 1;
      c.(suggestionIdx := i, currentSuggestion := c.suggestions[i])
  }

  /** Up: the previous suggestion, wrapping to the last. */
  function CycleUp(c: CmdBar): (r: CmdBar)
    requires SuggestionsWF(c)
    ensures SuggestionsWF(r)
    ensures |c.suggestions| == 0 ==> r == c
    ensures |c.suggestions| > 0 ==>
              r.suggestionIdx == (if c.suggestionIdx == 0 then |c.suggestions| - 1 else c.suggestionIdx - 1)
    ensures r.suggestions == c.suggestions && r.text == c.text
  {
    if |c.suggestions| == 0 then c
    else
      var i := if c.suggestionIdx - 1 < 0 then |c.suggestions| - 1 else c.suggestionIdx - 1;
      c.(suggestionIdx := i, currentSuggestion := c.suggestions[i])
  }

  /** Up undoes Down. */
  lemma UpUndoesDown(c: CmdBar)
    requires SuggestionsWF(c)
    ensures CycleUp(CycleDown(c)) == c
  {
    if |c.suggestions| > 0 {
      var d := CycleDown(c);
      assert CycleUp(d).suggestionIdx == c.suggestionIdx;
    }
  }

  /** Down undoes Up. */
  lemma DownUndoesUp(c: CmdBar)
    requires SuggestionsWF(c)
    ensures CycleDown(CycleUp(c)) == c
  {
    if |c.suggestions| > 0 {
      var u := CycleUp(c);
      assert CycleDown(u).suggestionIdx == c.suggestionIdx;
    }
  }

  /** The completion hint shown after the typed text. */
  function Ghost(text: string, suggestion: string): (g: string)
    ensures g != "" ==> text + g == suggestion
    ensures g == "" ==> suggestion == "" || !HasPrefix(suggestion, text) || |suggestion| <= |text|
  {
    if suggestion != "" && HasPrefix(suggestion, text) && |suggestion| > |text| then
      assert suggestion == suggestion[..|text|] + suggestion[|text|..];
      suggestion[|text|..]
    else ""
  }

  // ---------------------------------------------------------------------------
  // Commands
  // ---------------------------------------------------------------------------

  ghost predicate Distinct(s: seq<string>) {
    forall x :: multiset(s)[x] <= 1
  }

  /** The source's inner loop: each command not yet present is appended. */
  function AppendMissing(existing: seq<string>, cmds: seq<string>): (r: seq<string>)
    ensures forall x :: x in r <==> x in existing || x in cmds
    ensures |existing| <= |r| && r[..|existing|] == existing
    ensures Distinct(existing) ==> Distinct(r)
    decreases |cmds|
  {
    if |cmds| == 0 then existing
    else if cmds[0] in existing then AppendMissing(existing, cmds[1..])
    else
      var next := existing + [cmds[0]];
      assert next[..|existing|] == existing;
      var r := AppendMissing(next, cmds[1..]);
      assert r[..|existing|] == r[..|next|][..|existing|];
      r
  }

  /** AddCommands: the result is sorted, holds exactly the old and the new commands, and
      adds no duplicate to a duplicate-free list. */
  function AddCommands(c: CmdBar, cmds: seq<string>): (r: CmdBar)
    ensures Sorted(r.commands)
    ensures forall x :: x in r.commands <==> x in c.commands || x in cmds
    ensures Distinct(c.commands) ==> Distinct(r.commands)
    ensures r == c.(commands := r.commands)
  {
    var all := AppendMissing(c.commands, cmds);
    var sorted := SortStrings(all);
    assert forall x :: x in sorted <==> x in multiset(sorted);
    assert forall x :: x in all <==> x in multiset(all);
    c.(commands := sorted)
  }

  /** Adding commands that are already present changes nothing but the order. */
  lemma AddKnownCommands(c: CmdBar, cmds: seq<string>)
    requires forall i :: 0 <= i < |cmds| ==> cmds[i] in c.commands
    ensures multiset(AddCommands(c, cmds).commands) == multiset(c.commands)
  {
    AppendKnown(c.commands, cmds);
  }

  lemma {:induction false} AppendKnown(existing: seq<string>, cmds: seq<string>)
    requires forall i :: 0 <= i < |cmds| ==> cmds[i] in existing
    ensures AppendMissing(existing, cmds) == existing
    decreases |cmds|
  {
    if |cmds| > 0 {
      AppendKnown(existing, cmds[1..]);
    }
  }

  /** SetCommands: the given list, sorted. */
  function SetCommands(c: CmdBar, cmds: seq<string>): (r: CmdBar)
    ensures Sorted(r.commands) && multiset(r.commands) == multiset(cmds)
    ensures r == c.(commands := r.commands)
  {
    c.(commands := SortStrings(cmds))
  }

  // ---------------------------------------------------------------------------
  // Activation and keys
  // ---------------------------------------------------------------------------

  function ActiveEffect(c: CmdBar, active: bool): (es: seq<Effect>)
    ensures es == (if c.hasActiveFn then [ActiveChanged(active)] else [])
  {
    if c.hasActiveFn then [ActiveChanged(active)] else []
  }

  /** Activate: the given mode, active, with empty text and no suggestion. */
  function Activate(c: CmdBar, mode: Mode): (r: (CmdBar, seq<Effect>))
    ensures r.0.mode == mode && r.0.isActive && r.0.text == ""
    ensures r.0.suggestions == [] && r.0.suggestionIdx == -1 && r.0.currentSuggestion == ""
    ensures r.0.commands == c.commands && r.0.filterText == c.filterText
    ensures r.1 == ActiveEffect(c, true)
  {
    (ClearSuggestions(c.(mode := mode, isActive := true, text := "")), ActiveEffect(c, true))
  }

  /** Deactivate: back to normal mode, inactive, with empty text and no suggestion. */
  function Deactivate(c: CmdBar): (r: (CmdBar, seq<Effect>))
    ensures r.0.mode == ModeNormal && !r.0.isActive && r.0.text == ""
    ensures r.0.suggestions == [] && r.0.suggestionIdx == -1 && r.0.currentSuggestion == ""
    ensures r.0.commands == c.commands && r.0.filterText == c.filterText
    ensures r.1 == ActiveEffect(c, false)
  {
    (ClearSuggestions(c.(mode := ModeNormal, isActive := false, text := "")), ActiveEffect(c, false))
  }

  /** execute: a non-empty command runs prefixed with ":", a filter is remembered, and
      the bar deactivates either way. */
  function Execute(c: CmdBar): (r: (CmdBar, seq<Effect>))
    ensures !r.0.isActive && r.0.mode == ModeNormal && r.0.text == ""
    ensures c.mode == ModeCommand && c.hasCmdFn && c.text != "" ==>
              r.1 == [RunCommand(":" + c.text)] + ActiveEffect(c, false)
    ensures !(c.mode == ModeCommand && c.hasCmdFn && c.text != "") ==> r.1 == ActiveEffect(c, false)
    ensures r.0.filterText == if c.mode == ModeFilter then c.text else c.filterText
  {
    var run := if c.mode == ModeCommand && c.hasCmdFn && c.text != "" then [RunCommand(":" + c.text)] else [];
    var c' := if c.mode == ModeFilter then c.(filterText := c.text) else c;
    var d := Deactivate(c');
    (d.0, run + d.1)
  }

  /** cancel: a filter being typed is cancelled; the bar deactivates either way. */
  function Cancel(c: CmdBar): (r: (CmdBar, seq<Effect>))
    ensures !r.0.isActive && r.0.mode == ModeNormal && r.0.text == "" && r.0.filterText == c.filterText
    ensures r.1 == (if c.mode == ModeFilter && c.hasCancelFn then [FilterCancelled] else []) + ActiveEffect(c, false)
  {
    var cancelled := if c.mode == ModeFilter && c.hasCancelFn then [FilterCancelled] else [];
    var d := Deactivate(c);
    (d.0, cancelled + d.1)
  }

  /** ClearFilter: forget the remembered filter and tell the application. */
  function ClearFilter(c: CmdBar): (r: (CmdBar, seq<Effect>))
    ensures r.0 == c.(filterText := "")
    ensures r.1 == if c.hasFilterFn then [FilterChanged("")] else []
  {
    (c.(filterText := ""), if c.hasFilterFn then [FilterChanged("")] else [])
  }

  datatype BarKey = Backspace | Backspace2 | Delete | Enter | Esc | Tab | Right | Up | Down | CtrlU | CtrlW
                  | Rune(r: char) | Other(code: int)

  /** The result of one key: the new bar, whether the key was consumed, the effects. */
  datatype Step = Step(bar: CmdBar, consumed: bool, effects: seq<Effect>)

  function DropLast(s: string): (r: string)
    ensures |s| > 0 ==> r == s[..|s| - 1]
    ensures |s| == 0 ==> r == s
  {
    if |s| > 0 then s[..|s| - 1] else s
  }

  /** keyboard: an inactive bar passes every key on; an active one edits, cycles,
      completes, submits or cancels. */
  function Keyboard(c: CmdBar, k: BarKey): (s: Step)
    requires SuggestionsWF(c)
    ensures !c.isActive ==> s == Step(c, false, [])
    ensures c.isActive && k.Other? ==> s == Step(c, false, [])
    ensures c.isActive && (k.Backspace? || k.Backspace2? || k.Delete?) ==>
              s.bar == UpdateSuggestions(c.(text := DropLast(c.text))) && s.consumed
    ensures c.isActive && k.Rune? ==>
              s.bar == UpdateSuggestions(c.(text := c.text + [k.r]))
              && s.effects == (if c.mode == ModeFilter && c.hasFilterFn then [FilterChanged(c.text + [k.r])] else [])
    ensures c.isActive && (k.Tab? || k.Right?) && c.currentSuggestion != "" ==>
              s.bar.text == c.currentSuggestion && s.bar.suggestions == []
    ensures c.isActive && (k.Tab? || k.Right?) && c.currentSuggestion == "" ==> s == Step(c, true, [])
    ensures c.isActive && (k.CtrlU? || k.CtrlW?) ==> s.bar == ClearSuggestions(c.(text := ""))
    ensures c.isActive && k.Enter? ==> (s.bar, s.effects) == Execute(c)
    ensures c.isActive && k.Esc? ==> (s.bar, s.effects) == Cancel(c)
    ensures c.isActive && k.Up? ==> s == Step(CycleUp(c), true, [])
    ensures c.isActive && k.Down? ==> s == Step(CycleDown(c), true, [])
  {
    if !c.isActive then Step(c, false, [])
    else if k.Tab? || k.Right? || k.Up? || k.Down? || k.Enter? || k.Esc? then MoveKey(c, k)
    else EditKey(c, k)
  }

  /** The keys of an active bar that move through suggestions, complete, run or cancel. */
  function MoveKey(c: CmdBar, k: BarKey): (s: Step)
    requires SuggestionsWF(c)
    requires k.Tab? || k.Right? || k.Up? || k.Down? || k.Enter? || k.Esc?
    ensures (k.Tab? || k.Right?) && c.currentSuggestion != "" ==>
              s.bar.text == c.currentSuggestion && s.bar.suggestions == []
    ensures (k.Tab? || k.Right?) && c.currentSuggestion == "" ==> s == Step(c, true, [])
    ensures k.Enter? ==> (s.bar, s.effects) == Execute(c)
    ensures k.Esc? ==> (s.bar, s.effects) == Cancel(c)
    ensures k.Up? ==> s == Step(CycleUp(c), true, [])
    ensures k.Down? ==> s == Step(CycleDown(c), true, [])
  {
    match k
    case Enter => var r := Execute(c); Step(r.0, true, r.1)
    case Esc => var r := Cancel(c); Step(r.0, true, r.1)
    case Up => Step(CycleUp(c), true, [])
    case Down => Step(CycleDown(c), true, [])
    case _ => Complete(c)
  }

  /** The keys of an active bar that edit the text; any other key is passed on. */
  function EditKey(c: CmdBar, k: BarKey): (s: Step)
    ensures k.Other? ==> s == Step(c, false, [])
    ensures (k.Backspace? || k.Backspace2? || k.Delete?) ==>
              s.bar == UpdateSuggestions(c.(text := DropLast(c.text))) && s.consumed
    ensures k.Rune? ==>
              s.bar == UpdateSuggestions(c.(text := c.text + [k.r]))
              && s.effects == (if c.mode == ModeFilter && c.hasFilterFn then [FilterChanged(c.text + [k.r])] else [])
    ensures (k.CtrlU? || k.CtrlW?) ==> s.bar == ClearSuggestions(c.(text := ""))
  {
    match k
    case Rune(ch) =>
      var t := c.text + [ch];
      Step(UpdateSuggestions(c.(text := t)),
           true,
           if c.mode == ModeFilter && c.hasFilterFn then [FilterChanged(t)] else [])
    case Other(_) => Step(c, false, [])
    case CtrlU => Step(ClearSuggestions(c.(text := "")), true, [])
    case CtrlW => Step(ClearSuggestions(c.(text := "")), true, [])
    case _ => Step(UpdateSuggestions(c.(text := DropLast(c.text))), true, [])
  }

  /** Every key keeps the suggestion state well formed, so the source's indexing never
      leaves the list. */
  lemma KeyboardKeepsWF(c: CmdBar, k: BarKey)
    requires SuggestionsWF(c)
    ensures SuggestionsWF(Keyboard(c, k).bar)
  {
    UpdateKeepsWF(c.(text := DropLast(c.text)));
    UpdateKeepsWF(c.(text := c.text + [if k.Rune? then k.r else ' ']));
  }

  lemma UpdateKeepsWF(c: CmdBar)
    ensures SuggestionsWF(UpdateSuggestions(c))
  {
  }

  /** Tab or Right: take the current suggestion as the text. */
  function Complete(c: CmdBar): (s: Step)
    ensures c.currentSuggestion == "" ==> s == Step(c, true, [])
    ensures c.currentSuggestion != "" ==> s == Step(ClearSuggestions(c.(text := c.currentSuggestion)), true, [])
  {
    if c.currentSuggestion != "" then Step(ClearSuggestions(c.(text := c.currentSuggestion)), true, [])
    else Step(c, true, [])
  }

  /** In command mode, typing a command's first letters and pressing Tab completes
      to the alphabetically first command starting with them. */
  lemma TypeThenComplete(c: CmdBar, t: string)
    requires c.isActive && c.mode == ModeCommand && t != ""
    requires |GetSuggestions(c.commands, t)| > 0
    ensures Keyboard(UpdateSuggestions(c.(text := t)), Tab).bar.text == GetSuggestions(c.commands, t)[0]
  {
    var s := GetSuggestions(c.commands, t);
    assert s[0] in s;
    assert s[0] != "" by {
      assert HasPrefix(s[0], ToLower(t));
    }
  }
}

=== FILE: dao_cache.dfy ===
/** The DAO-level object cache: listed objects per key with a time-to-live
    (internal/dao/cache.go). Times are nanosecond counts passed in by the caller. */
module DaoCache {
  import opened Wrappers
  import opened Strs

  /** DefaultCacheTTL: five seconds. */
  const DefaultCacheTTL: int := 5 * 1000000000

  datatype CacheEntry<O> = CacheEntry(objects: seq<O>, timestamp: int)

  datatype ResourceCache<O> = ResourceCache(data: map<string, CacheEntry<O>>, ttl: int)

  function NewResourceCache<O>(ttl: int): (c: ResourceCache<O>)
    ensures |c.data| == 0 && c.ttl == ttl
  {
    ResourceCache(map[], ttl)
  }

  /** Get: `None` (the source's nil) for an absent key and once more than `ttl` has
      elapsed since the entry was stored; the stored objects otherwise. */
  function Get<O>(c: ResourceCache<O>, key: string, now: int): (r: Option<seq<O>>)
    ensures r.Some? <==> key in c.data && now - c.data[key].timestamp <= c.ttl
    ensures r.Some? ==> r.value == c.data[key].objects
  {
    if key !in c.data then None
    else if now - c.data[key].timestamp > c.ttl then None
    else Some(c.data[key].objects)
  }

  /** Set: the entry under `key` is replaced and stamped with `now`. */
  function Set<O>(c: ResourceCache<O>, key: string, objects: seq<O>, now: int): (c': ResourceCache<O>)
    ensures c'.data == c.data[key := CacheEntry(objects, now)]
    ensures c'.ttl == c.ttl
  {
    c.(data := c.data[key := CacheEntry(objects, now)])
  }

  /** Objects stored at `now` are served while at most `ttl` has elapsed, and not after. */
  lemma GetAfterSet<O>(c: ResourceCache<O>, key: string, objects: seq<O>, now: int, later: int)
    ensures Get(Set(c, key, objects, now), key, later)
         == if later - now <= c.ttl then Some(objects) else None
  {
  }

  /** Storing under one key does not disturb what another key serves. */
  lemma SetIsolated<O>(c: ResourceCache<O>, key: string, other: string, objects: seq<O>, now: int, later: int)
    requires other != key
    ensures Get(Set(c, key, objects, now), other, later) == Get(c, other, later)
  {
  }

  /** Invalidate: only `key` goes. */
  function Invalidate<O>(c: ResourceCache<O>, key: string): (c': ResourceCache<O>)
    ensures key !in c'.data
    ensures forall k :: k != key ==> (k in c'.data <==> k in c.data)
    ensures forall k :: k in c'.data ==> c'.data[k] == c.data[k]
    ensures c'.ttl == c.ttl
  {
    c.(data := c.data - {key})
  }

  /** InvalidatePrefix: exactly the keys starting with `prefix` go; "" is a prefix of
      every key, so it empties the cache. */
  function InvalidatePrefix<O>(c: ResourceCache<O>, prefix: string): (c': ResourceCache<O>)
    ensures forall k :: k in c'.data <==> k in c.data && !HasPrefix(k, prefix)
    ensures forall k :: k in c'.data ==> c'.data[k] == c.data[k]
    ensures c'.ttl == c.ttl
  {
    c.(data := map k | k in c.data && !HasPrefix(k, prefix) :: c.data[k])
  }

  lemma InvalidateEmptyPrefixClears<O>(c: ResourceCache<O>)
    ensures |InvalidatePrefix(c, "").data| == 0
  {
    var d := InvalidatePrefix(c, "").data;
    if |d| > 0 {
      var k :| k in d;
      assert HasPrefix(k, "");
    }
  }

  /** Clear: every entry goes. */
  function Clear<O>(c: ResourceCache<O>): (c': ResourceCache<O>)
    ensures |c'.data| == 0 && c'.ttl == c.ttl
    ensures forall k, now :: Get(c', k, now).None?
  {
    c.(data := map[])
  }
}

=== FILE: dao_objects.dfy ===
/** How each resource accessor turns an AWS record into the generic object the
    browser lists (internal/dao/base.go's BaseAWSObject): its ARN, id, display name,
    region and tag map. AWS string pointers are `Option<string>`; the timestamps and
    the raw record are not carried. */
module DaoObjects {
  import opened Wrappers
  import opened Strs
  import DaoPaths

  /** An AWS tag; either half may be nil. */
  datatype Tag = Tag(key: Option<string>, value: Option<string>)

  datatype AwsObject = AwsObject(arn: string, id: string, name: string, region: string, tags: map<string, string>)

  /** `aws.ToString` / `safeString` / `aws.SafeString`: nil reads as "". */
  function SafeString(s: Option<string>): (r: string)
    ensures s.Some? ==> r == s.value
    ensures s.None? ==> r == ""
  {
    if s.Some? then s.value else ""
  }

  /** `safeBool`: nil reads as false. */
  function SafeBool(b: Option<bool>): (r: bool)
    ensures r <==> b == Some(true)
  {
    if b.Some? then b.value else false
  }

  // ---------------------------------------------------------------------------
  // Tag lists to tag maps
  // ---------------------------------------------------------------------------

  /** A tag with both halves present and the given key. */
  predicate KeyIs(t: Tag, k: string) {
    t.key == Some(k) && t.value.Some?
  }

  /** The map the EC2, VPC, subnet and security-group conversions build: tags with a
      nil half are skipped, and a later tag overwrites an earlier one with the same key. */
  function CompleteTags(ts: seq<Tag>): (m: map<string, string>)
  {
    if |ts| == 0 then map[]
    else
      var m := CompleteTags(ts[..|ts| - 1]);
      var t := ts[|ts| - 1];
      if t.key.Some? && t.value.Some? then m[t.key.value := t.value.value] else m
  }

  /** Only complete tags reach the map. */
  lemma {:induction false} CompleteTagsOnly(ts: seq<Tag>, k: string)
    requires k in CompleteTags(ts)
    ensures exists i :: 0 <= i < |ts| && KeyIs(ts[i], k) && ts[i].value.value == CompleteTags(ts)[k]
  {
    var t := ts[|ts| - 1];
    var pre := ts[..|ts| - 1];
    if KeyIs(t, k) {
      assert KeyIs(ts[|ts| - 1], k);
    } else {
      CompleteTagsOnly(pre, k);
      var i :| 0 <= i < |pre| && KeyIs(pre[i], k) && pre[i].value.value == CompleteTags(pre)[k];
      assert ts[i] == pre[i];
    }
  }

  /** The last complete tag with a key decides that key's value. */
  lemma {:induction false} CompleteTagsLast(ts: seq<Tag>, i: int, k: string)
    requires 0 <= i < |ts| && KeyIs(ts[i], k)
    requires forall j :: i < j < |ts| ==> !KeyIs(ts[j], k)
    ensures k in CompleteTags(ts) && CompleteTags(ts)[k] == ts[i].value.value
  {
    var pre := ts[..|ts| - 1];
    if i < |ts| - 1 {
      assert !KeyIs(ts[|ts| - 1], k);
      forall j | i < j < |pre|
        ensures !KeyIs(pre[j], k)
      {
        assert pre[j] == ts[j];
      }
      assert pre[i] == ts[i];
      CompleteTagsLast(pre, i, k);
    }
  }

  /** `extractNameTag`: the value of the FIRST complete "Name" tag, or "". */
  function FirstNameTag(ts: seq<Tag>): (name: string)
    ensures (forall i :: 0 <= i < |ts| ==> !KeyIs(ts[i], "Name")) ==> name == ""
    ensures forall i :: 0 <= i < |ts| && KeyIs(ts[i], "Name") && (forall j :: 0 <= j < i ==> !KeyIs(ts[j], "Name"))
              ==> name == ts[i].value.value
  {
    if |ts| == 0 then ""
    else if KeyIs(ts[0], "Name") then ts[0].value.value
    else
      assert forall i :: 1 <= i < |ts| ==> ts[i] == ts[1..][i - 1];
      FirstNameTag(ts[1..])
  }

  /** The name the VPC and subnet conversions keep: the LAST complete "Name" tag. */
  function LastNameTag(ts: seq<Tag>): (name: string)
  {
    if |ts| == 0 then ""
    else if KeyIs(ts[|ts| - 1], "Name") then ts[|ts| - 1].value.value
    else LastNameTag(ts[..|ts| - 1])
  }

  /** The last-tag name is always what the tag map says under "Name". */
  lemma {:induction false} LastNameIsMapName(ts: seq<Tag>)
    ensures var m := CompleteTags(ts);
            LastNameTag(ts) == if "Name" in m then m["Name"] else ""
  {
    if |ts| > 0 {
      LastNameIsMapName(ts[..|ts| - 1]);
    }
  }

  /** With a single complete "Name" tag, the first-tag name and the map agree. */
  lemma FirstNameIsMapName(ts: seq<Tag>, i: int)
    requires 0 <= i < |ts| && KeyIs(ts[i], "Name")
    requires forall j :: 0 <= j < |ts| && j != i ==> !KeyIs(ts[j], "Name")
    ensures "Name" in CompleteTags(ts) && FirstNameTag(ts) == CompleteTags(ts)["Name"]
  {
    CompleteTagsLast(ts, i, "Name");
  }

  /** With two "Name" tags an instance is titled by the first while its tag map keeps
      the second. */
  lemma InstanceNameDisagrees()
    ensures var ts := [Tag(Some("Name"), Some("a")), Tag(Some("Name"), Some("b"))];
            FirstNameTag(ts) == "a" && CompleteTags(ts)["Name"] == "b"
  {
    var ts := [Tag(Some("Name"), Some("a")), Tag(Some("Name"), Some("b"))];
    CompleteTagsLast(ts, 1, "Name");
  }

  /** EBS volumes read a nil key or value as "", so every tag lands in the map. */
  function Normalize(t: Tag): (u: Tag)
    ensures u.key.Some? && u.value.Some?
    ensures u.key.value == SafeString(t.key) && u.value.value == SafeString(t.value)
  {
    Tag(Some(SafeString(t.key)), Some(SafeString(t.value)))
  }

  function NormalizeAll(ts: seq<Tag>): (us: seq<Tag>)
    ensures |us| == |ts|
    ensures forall i :: 0 <= i < |ts| ==> us[i] == Normalize(ts[i])
  {
    if |ts| == 0 then [] else [Normalize(ts[0])] + NormalizeAll(ts[1..])
  }

  // ---------------------------------------------------------------------------
  // Conversions
  // ---------------------------------------------------------------------------

  /** instanceToAWSObject: a partial ARN only when the id is known. */
  function InstanceToObject(instanceId: Option<string>, ts: seq<Tag>, region: string): (o: AwsObject)
    ensures o.arn == "" <==> instanceId.None?
    ensures instanceId.Some? ==> o.arn == "arn:aws:ec2:" + region + "::instance/" + instanceId.value
    ensures o.id == SafeString(instanceId) && o.region == region
    ensures o.name == FirstNameTag(ts) && o.tags == CompleteTags(ts)
  {
    var arn := if instanceId.Some? then "arn:aws:ec2:" + region + "::instance/" + instanceId.value else "";
    AwsObject(arn, SafeString(instanceId), FirstNameTag(ts), region, CompleteTags(ts))
  }

  /** clusterToAWSObject: the cluster name is both the id and the display name. */
  function ClusterToObject(arn: Option<string>, name: Option<string>, tags: map<string, string>, region: string): (o: AwsObject)
    ensures o.id == o.name == SafeString(name)
    ensures o.arn == SafeString(arn) && o.tags == tags && o.region == region
  {
    AwsObject(SafeString(arn), SafeString(name), SafeString(name), region, tags)
  }

  /** nodegroupToAWSObject: likewise for node groups; a nil tag map is empty. */
  function NodegroupToObject(arn: Option<string>, name: Option<string>, tags: Option<map<string, string>>, region: string): (o: AwsObject)
    ensures o.id == o.name == SafeString(name)
    ensures tags.None? ==> o.tags == map[]
    ensures tags.Some? ==> o.tags == tags.value
    ensures o.arn == SafeString(arn) && o.region == region
  {
    AwsObject(SafeString(arn), SafeString(name), SafeString(name), region, if tags.Some? then tags.value else map[])
  }

  /** volumeToAWSObject: every tag counts, nil halves read as "". */
  function VolumeToObject(volumeId: Option<string>, ts: seq<Tag>, region: string): (o: AwsObject)
    ensures o.arn == "arn:aws:ec2:" + region + "::volume/" + SafeString(volumeId)
    ensures o.id == SafeString(volumeId)
    ensures o.tags == CompleteTags(NormalizeAll(ts))
  {
    var us := NormalizeAll(ts);
    AwsObject("arn:aws:ec2:" + region + "::volume/" + SafeString(volumeId), SafeString(volumeId),
              LastNameTag(us), region, CompleteTags(us))
  }

  /** vpcToAWSObject and subnetToAWSObject share one shape. */
  function TaggedToObject(kind: string, resourceId: Option<string>, ts: seq<Tag>, region: string): (o: AwsObject)
    ensures o.arn == "arn:aws:ec2:" + region + "::" + kind + "/" + SafeString(resourceId)
    ensures o.id == SafeString(resourceId) && o.tags == CompleteTags(ts)
  {
    AwsObject("arn:aws:ec2:" + region + "::" + kind + "/" + SafeString(resourceId), SafeString(resourceId),
              LastNameTag(ts), region, CompleteTags(ts))
  }

  /** For volumes, VPCs and subnets the display name is the tag map's "Name" entry. */
  lemma NameMatchesTags(volumeId: Option<string>, ts: seq<Tag>, region: string, kind: string)
    ensures var v := VolumeToObject(volumeId, ts, region);
            v.name == if "Name" in v.tags then v.tags["Name"] else ""
    ensures var t := TaggedToObject(kind, volumeId, ts, region);
            t.name == if "Name" in t.tags then t.tags["Name"] else ""
  {
    LastNameIsMapName(NormalizeAll(ts));
    LastNameIsMapName(ts);
  }

  /** vpcToAWSObject: the ARN names the VPC, and the display name is the tag map's "Name" entry. */
  function VpcToObject(vpcId: Option<string>, ts: seq<Tag>, region: string): (o: AwsObject)
    ensures o.arn == "arn:aws:ec2:" + region + "::vpc/" + SafeString(vpcId)
    ensures o.id == SafeString(vpcId) && o.region == region && o.tags == CompleteTags(ts)
    ensures o.name == if "Name" in o.tags then o.tags["Name"] else ""
  {
    LastNameIsMapName(ts);
    TaggedToObject("vpc", vpcId, ts, region)
  }

  /** subnetToAWSObject: a subnet's ARN, and a name that is "" unless some complete tag is "Name". */
  function SubnetToObject(subnetId: Option<string>, ts: seq<Tag>, region: string): (o: AwsObject)
    ensures o.arn == "arn:aws:ec2:" + region + "::subnet/" + SafeString(subnetId)
    ensures o.id == SafeString(subnetId) && o.region == region
    ensures o.name != "" ==> exists i :: 0 <= i < |ts| && KeyIs(ts[i], "Name") && ts[i].value.value == o.name
    ensures o.tags == CompleteTags(ts)
  {
    LastNameIsMapName(ts);
    var o := TaggedToObject("subnet", subnetId, ts, region);
    if o.name != "" then CompleteTagsOnly(ts, "Name"); o else o
  }

  /** sgToAWSObject: the group name unless a "Name" tag overrides it. */
  function SecurityGroupToObject(groupId: Option<string>, groupName: Option<string>, ts: seq<Tag>, region: string): (o: AwsObject)
    ensures "Name" in o.tags ==> o.name == o.tags["Name"]
    ensures "Name" !in o.tags ==> o.name == SafeString(groupName)
    ensures o.arn == "arn:aws:ec2:" + region + ":*:security-group/" + SafeString(groupId)
    ensures o.id == SafeString(groupId) && o.tags == CompleteTags(ts)
  {
    var tags := CompleteTags(ts);
    var name := if "Name" in tags then tags["Name"] else SafeString(groupName);
    AwsObject("arn:aws:ec2:" + region + ":*:security-group/" + SafeString(groupId), SafeString(groupId), name, region, tags)
  }

  // ---------------------------------------------------------------------------
  // S3 objects and folders
  // ---------------------------------------------------------------------------

  /** objectToAWSObject: the key is the id, its last path component the name. */
  function S3ObjectToObject(key: Option<string>, bucket: string, region: string): (o: AwsObject)
    ensures o.id == SafeString(key) && o.tags == map[]
    ensures '/' !in o.name && HasSuffix(o.id, o.name)
    ensures |o.name| < |o.id| ==> o.id[|o.id| - |o.name| - 1] == '/'
    ensures '/' !in o.id ==> o.name == o.id
    ensures o.arn == "arn:aws:s3:::" + bucket + "/" + o.id
  {
    var k := SafeString(key);
    AwsObject("arn:aws:s3:::" + bucket + "/" + k, k, AfterLast(k, '/'), region, map[])
  }

  /** An object under a folder is named by its last path component alone. */
  lemma S3ObjectNameIsLeaf(dir: string, leaf: string, bucket: string, region: string)
    requires '/' !in leaf
    ensures S3ObjectToObject(Some(dir + "/" + leaf), bucket, region).name == leaf
  {
    assert dir + "/" + leaf == dir + ['/'] + leaf;
    AfterLastAt(dir, leaf, '/');
  }

  /** folderToAWSObject: the id is the whole common prefix; the name is its last
      component with a trailing "/". */
  function FolderToObject(prefix: string, bucket: string, region: string): (o: AwsObject)
    ensures o.id == prefix && o.tags == map[]
    ensures HasSuffix(o.name, "/")
    ensures o.arn == "arn:aws:s3:::" + bucket + "/" + prefix
  {
    AwsObject("arn:aws:s3:::" + bucket + "/" + prefix, prefix, AfterLast(TrimSuffix(prefix, "/"), '/') + "/", region, map[])
  }

  /** A folder row for "a/.../seg/" is named "seg/" but identified by the full prefix:
      the id, not the name, is what a row selection hands on. */
  lemma FolderNameIsLastSegment(parent: string, seg: string, bucket: string, region: string)
    requires '/' !in seg
    ensures FolderToObject(parent + "/" + seg + "/", bucket, region).name == seg + "/"
    ensures FolderToObject(parent + "/" + seg + "/", bucket, region).id == parent + "/" + seg + "/"
    ensures FolderToObject(seg + "/", bucket, region).name == seg + "/"
  {
    var p := parent + "/" + seg + "/";
    assert HasSuffix(p, "/");
    assert p[..|p| - 1] == parent + ['/'] + seg;
    AfterLastAt(parent, seg, '/');
    var q := seg + "/";
    assert HasSuffix(q, "/") && q[..|q| - 1] == seg;
  }

  /** An object's ARN carries the "bucket/key" path the object accessor parses, and
      for a bucket name without "/" or surrounding spaces that path parses back. */
  lemma S3ArnCarriesPath(bucket: string, key: string, region: string)
    requires DaoPaths.Piece(bucket) && DaoPaths.Trimmed(bucket) && key != "" && DaoPaths.Trimmed(key)
    ensures var o := S3ObjectToObject(Some(key), bucket, region);
            DaoPaths.ParseObjectPath(TrimPrefix(o.arn, "arn:aws:s3:::")) == Ok((bucket, o.id))
  {
    var o := S3ObjectToObject(Some(key), bucket, region);
    assert o.arn == "arn:aws:s3:::" + (bucket + "/" + key);
    assert HasPrefix(o.arn, "arn:aws:s3:::");
    assert TrimPrefix(o.arn, "arn:aws:s3:::") == bucket + "/" + key;
    DaoPaths.SplitFirstTrimmedRoundTrip(bucket, key, "bucket/key", "bucket and key cannot be empty");
  }

  /** One page of a delimited listing: object keys and common prefixes, either nil. */
  datatype ListPage = ListPage(contents: seq<Option<string>>, prefixes: seq<Option<string>>)

  /** The folder row one prefix contributes, as a list of at most one. */
  function FolderOf(p: Option<string>, bucket: string, region: string): seq<AwsObject> {
    if p.Some? then [FolderToObject(p.value, bucket, region)] else []
  }

  /** One folder row per non-nil common prefix, in listing order. */
  function FoldersOf(prefixes: seq<Option<string>>, bucket: string, region: string): (os: seq<AwsObject>)
    ensures |os| <= |prefixes|
  {
    if |prefixes| == 0 then [] else FolderOf(prefixes[0], bucket, region) + FoldersOf(prefixes[1..], bucket, region)
  }

  /** Every folder row is identified by one of the listed prefixes. */
  lemma {:induction false} FoldersOfIds(prefixes: seq<Option<string>>, bucket: string, region: string)
    ensures forall o :: o in FoldersOf(prefixes, bucket, region) ==> Some(o.id) in prefixes
  {
    if |prefixes| > 0 {
      FoldersOfIds(prefixes[1..], bucket, region);
      assert forall p :: p in prefixes[1..] ==> p in prefixes;
    }
  }

  /** Listing folders distributes over concatenation: the rows of two runs of prefixes
      are the rows of the first followed by the rows of the second. */
  lemma {:induction false} FoldersOfAppend(a: seq<Option<string>>, b: seq<Option<string>>, bucket: string, region: string)
    ensures FoldersOf(a + b, bucket, region) == FoldersOf(a, bucket, region) + FoldersOf(b, bucket, region)
  {
    if |a| == 0 {
      assert a + b == b;
    } else {
      var head := FolderOf(a[0], bucket, region);
      calc {
        FoldersOf(a + b, bucket, region);
      == { assert (a + b)[0] == a[0]; assert (a + b)[1..] == a[1..] + b; }
        head + FoldersOf(a[1..] + b, bucket, region);
      == { FoldersOfAppend(a[1..], b, bucket, region); }
        head + (FoldersOf(a[1..], bucket, region) + FoldersOf(b, bucket, region));
      == { AppendAssoc(head, FoldersOf(a[1..], bucket, region), FoldersOf(b, bucket, region)); }
        FoldersOf(a, bucket, region) + FoldersOf(b, bucket, region);
      }
    }
  }

  /** A single prefix gives one folder row, or none when it is nil. */
  lemma FoldersOfOne(p: Option<string>, bucket: string, region: string)
    ensures FoldersOf([p], bucket, region) == if p.Some? then [FolderToObject(p.value, bucket, region)] else []
  {
    assert [p][1..] == [];
  }

  function ObjectsOf(contents: seq<Option<string>>, bucket: string, region: string): (os: seq<AwsObject>)
    ensures |os| == |contents|
    ensures forall i :: 0 <= i < |os| ==> os[i] == S3ObjectToObject(contents[i], bucket, region)
  {
    seq(|contents|, i requires 0 <= i < |contents| => S3ObjectToObject(contents[i], bucket, region))
  }

  /** S3Object.List after the listing: per page, the objects and then the folders
      (nil prefixes skipped); a path without a bucket is refused. The S3 calls are the
      `pages` parameter and `region` is the bucket's region. */
  function ListObjects(path: string, pages: seq<ListPage>, region: string): (r: Result<seq<AwsObject>>)
    ensures DaoPaths.ExtractBucketFromPath(path) == "" <==> r.Err?
    ensures r.Err? ==> r.msg == "invalid path format, expected 'bucket' or 'bucket/prefix/', got: " + path
    ensures r.Ok? && |pages| == 1 ==>
              r.value == ObjectsOf(pages[0].contents, DaoPaths.ExtractBucketFromPath(path), region)
                         + FoldersOf(pages[0].prefixes, DaoPaths.ExtractBucketFromPath(path), region)
  {
    var (bucket, _) := DaoPaths.ParseListPath(path);
    if bucket == "" then Err("invalid path format, expected 'bucket' or 'bucket/prefix/', got: " + path)
    else Ok(ListPages(pages, bucket, region))
  }

  function ListPages(pages: seq<ListPage>, bucket: string, region: string): (os: seq<AwsObject>)
    ensures |pages| == 1 ==> os == ObjectsOf(pages[0].contents, bucket, region) + FoldersOf(pages[0].prefixes, bucket, region)
  {
    if |pages| == 0 then []
    else
      ObjectsOf(pages[0].contents, bucket, region) + FoldersOf(pages[0].prefixes, bucket, region)
      + ListPages(pages[1..], bucket, region)
  }
}

=== FILE: dao_ops.dfy ===
/** The decisions the resource accessors make around their AWS calls: the node-group
    scaling bounds, the default-VPC delete guard, the S3 prefix delete and its
    batching, and the text the describe views are built from (volume attachments,
    security-group rules, the EKS kubeconfig). The AWS calls themselves are
    parameters: what a listing returned, what a record holds. */
module DaoOps {
  import opened Wrappers
  import opened Strs
  import DaoPaths
  import DaoObjects

  // ---------------------------------------------------------------------------
  // Node-group scaling
  // ---------------------------------------------------------------------------

  /** NodeGroup.Scale's check against the group's current minimum and maximum. */
  function ScaleCheck(desired: int, min: int, max: int): (o: Outcome)
    ensures o.Pass? <==> min <= desired <= max
    ensures desired < min ==> o == Fail("desired size " + IntToString(desired) + " is less than minimum size " + IntToString(min))
    ensures min <= desired && desired > max ==>
              o == Fail("desired size " + IntToString(desired) + " is greater than maximum size " + IntToString(max))
  {
    if desired < min then Fail("desired size " + IntToString(desired) + " is less than minimum size " + IntToString(min))
    else if desired > max then Fail("desired size " + IntToString(desired) + " is greater than maximum size " + IntToString(max))
    else Pass
  }

  // ---------------------------------------------------------------------------
  // VPCs and subnets
  // ---------------------------------------------------------------------------

  /** isDefaultVPC: nil counts as not default. */
  function IsDefaultVpc(isDefault: Option<bool>): (b: bool)
    ensures b <==> isDefault == Some(true)
  {
    DaoObjects.SafeBool(isDefault)
  }

  /** VPC.Delete up to the delete call: the path must parse, and the default VPC is
      only deleted with force. The result is the region and id to delete. */
  function VpcDelete(path: string, isDefault: Option<bool>, force: bool): (r: Result<(string, string)>)
    ensures DaoPaths.ParseVPCPath(path).Err? ==> r == DaoPaths.ParseVPCPath(path)
    ensures r.Ok? ==> r == DaoPaths.ParseVPCPath(path) && (force || !IsDefaultVpc(isDefault))
    ensures DaoPaths.ParseVPCPath(path).Ok? && isDefault == Some(true) && !force ==>
              r == Err("refusing to delete default VPC " + DaoPaths.ParseVPCPath(path).value.1 + " (use --force to override)")
    ensures DaoPaths.ParseVPCPath(path).Ok? && (force || isDefault != Some(true)) ==> r.Ok?
  {
    var p := DaoPaths.ParseVPCPath(path);
    if p.Err? then p
    else if IsDefaultVpc(isDefault) && !force then
      Err("refusing to delete default VPC " + p.value.1 + " (use --force to override)")
    else p
  }

  /** getAvailableIPs, getAvailabilityZone and getVPCCIDR: nil reads as 0 or "". */
  function AvailableIps(count: Option<int>): (n: int)
    ensures count.None? ==> n == 0
    ensures count.Some? ==> n == count.value
  {
    count.GetOr(0)
  }

  function AvailabilityZone(zone: Option<string>): (z: string)
    ensures z == DaoObjects.SafeString(zone)
  {
    zone.GetOr("")
  }

  // ---------------------------------------------------------------------------
  // S3 deletes
  // ---------------------------------------------------------------------------

  /** DeleteObjects accepts at most this many keys per request. */
  const BatchSize := 1000

  function Flatten(bs: seq<seq<string>>): seq<string>
  {
    if |bs| == 0 then [] else bs[0] + Flatten(bs[1..])
  }

  lemma {:induction false} FlattenAppend(bs: seq<seq<string>>, b: seq<string>)
    ensures Flatten(bs + [b]) == Flatten(bs) + b
  {
    if |bs| > 0 {
      assert (bs + [b])[1..] == bs[1..] + [b];
      FlattenAppend(bs[1..], b);
    } else {
      assert bs + [b] == [b];
    }
  }

  /** deletePrefix after the listing: refused without force; otherwise the listed keys
      in order, cut into full batches and one last partial batch. */
  method DeletePrefix(keys: seq<string>, force: bool) returns (r: Result<seq<seq<string>>>)
    ensures r.Err? <==> !force
    ensures r.Err? ==> r.msg == "deleting prefix requires force=true"
    ensures r.Ok? ==> Flatten(r.value) == keys
    ensures r.Ok? ==> forall k :: 0 <= k < |r.value| ==> 1 <= |r.value[k]| <= BatchSize
    ensures r.Ok? ==> forall k :: 0 <= k < |r.value| - 1 ==> |r.value[k]| == BatchSize
    ensures r.Ok? ==> (|r.value| - 1) * BatchSize < |keys| <= |r.value| * BatchSize || (keys == [] && r.value == [])
  {
    if !force {
      return Err("deleting prefix requires force=true");
    }
    var batches: seq<seq<string>> := [];
    var i := 0;
    while i < |keys|
      invariant 0 <= i && i == |batches| * BatchSize
      invariant i == 0 || i - BatchSize < |keys|
      invariant Flatten(batches) == keys[..if i < |keys| then i else |keys|]
      invariant forall k :: 0 <= k < |batches| ==> 1 <= |batches[k]| <= BatchSize
      invariant forall k :: 0 <= k < |batches| - 1 ==> |batches[k]| == BatchSize
      invariant i <= |keys| ==> forall k :: 0 <= k < |batches| ==> |batches[k]| == BatchSize
      decreases |keys| - i
    {
      var end := if i + BatchSize > |keys| then |keys| else i + BatchSize;
      FlattenAppend(batches, keys[i..end]);
      assert keys[..i] + keys[i..end] == keys[..end];
      batches := batches + [keys[i..end]];
      i := i + BatchSize;
    }
    assert keys[..|keys|] == keys;
    return Ok(batches);
  }

  /** What S3Object.Delete asks S3 to do. */
  datatype DeleteAction = DeleteObject(bucket: string, key: string) | DeleteBatches(bucket: string, batches: seq<seq<string>>)

  /** S3Object.Delete: a key ending in "/" is a folder and deletes every listed key
      under it (`listing` is what the prefix listing returned); any other key is one
      object. */
  method S3Delete(path: string, force: bool, listing: seq<string>) returns (r: Result<DeleteAction>)
    ensures DaoPaths.ParseObjectPath(path).Err? ==> r == Err(DaoPaths.ParseObjectPath(path).msg)
    ensures DaoPaths.ParseObjectPath(path).Ok? && !HasSuffix(DaoPaths.ParseObjectPath(path).value.1, "/") ==>
              r == Ok(DeleteObject(DaoPaths.ParseObjectPath(path).value.0, DaoPaths.ParseObjectPath(path).value.1))
    ensures DaoPaths.ParseObjectPath(path).Ok? && HasSuffix(DaoPaths.ParseObjectPath(path).value.1, "/") ==>
              (r.Ok? <==> force) && (r.Ok? ==> r.value.DeleteBatches? && Flatten(r.value.batches) == listing)
  {
    var p := DaoPaths.ParseObjectPath(path);
    if p.Err? {
      return Err(p.msg);
    }
    var (bucket, key) := p.value;
    if HasSuffix(key, "/") {
      var d := DeletePrefix(listing, force);
      if d.Err? {
        return Err(d.msg);
      }
      return Ok(DeleteBatches(bucket, d.value));
    }
    return Ok(DeleteObject(bucket, key));
  }

  // ---------------------------------------------------------------------------
  // Describe text
  // ---------------------------------------------------------------------------

  predicate OneLine(s: string) {
    '\n' !in s
  }

  function BoolText(b: bool): (s: string)
    ensures s == "true" <==> b
    ensures s == "false" <==> !b
  {
    if b then "true" else "false"
  }

  /** One EBS attachment; the state is the SDK's enum text. */
  datatype Attachment = Attachment(instanceId: Option<string>, device: Option<string>, state: string,
                                   deleteOnTermination: Option<bool>)

  /** Text written piece by piece into a builder. */
  function Concat(cs: seq<string>): string
  {
    if |cs| == 0 then "" else cs[0] + Concat(cs[1..])
  }

  /** Every piece shows up in the whole. */
  lemma {:induction false} ConcatContains(cs: seq<string>, i: int)
    requires 0 <= i < |cs|
    ensures Contains(Concat(cs), cs[i])
  {
    if i == 0 {
      ContainsMiddle("", cs[0], Concat(cs[1..]));
      assert "" + cs[0] + Concat(cs[1..]) == Concat(cs);
    } else {
      ConcatContains(cs[1..], i - 1);
      ContainsAppend(cs[0], Concat(cs[1..]), cs[i]);
    }
  }

  /** Pieces that are one line each make as many lines. */
  lemma {:induction false} ConcatLines(cs: seq<string>)
    requires forall i :: 0 <= i < |cs| ==> Count(cs[i], '\n') == 1
    ensures Count(Concat(cs), '\n') == |cs|
  {
    if |cs| > 0 {
      ConcatLines(cs[1..]);
      CountAppend(cs[0], Concat(cs[1..]), '\n');
    }
  }

  /** A "lbl value" line: one newline when neither part has one. */
  lemma LabelLine(lbl: string, v: string)
    requires OneLine(lbl) && OneLine(v)
    ensures Count(lbl + v + "\n", '\n') == 1
  {
    CountZero(lbl, '\n');
    CountZero(v, '\n');
    CountAppend(lbl, v, '\n');
    CountAppend(lbl + v, "\n", '\n');
  }

  /** The lines getVolumeAttachmentInfo writes for one attachment. */
  function AttachmentLines(a: Attachment): (ls: seq<string>)
    ensures |ls| == if a.deleteOnTermination.Some? then 4 else 3
    ensures ls[0] == "  Instance ID: " + DaoObjects.SafeString(a.instanceId) + "\n"
  {
    var base := ["  Instance ID: " + DaoObjects.SafeString(a.instanceId) + "\n",
                 "  Device: " + DaoObjects.SafeString(a.device) + "\n",
                 "  State: " + a.state + "\n"];
    if a.deleteOnTermination.Some? then base + ["  Delete on Termination: " + BoolText(a.deleteOnTermination.value) + "\n"]
    else base
  }

  function AttachmentEntry(a: Attachment): string
  {
    Concat(AttachmentLines(a))
  }

  /** An attachment whose fields are single lines takes three lines, four with the
      delete-on-termination flag, and the block names the instance. */
  lemma AttachmentEntryLines(a: Attachment)
    requires OneLine(DaoObjects.SafeString(a.instanceId)) && OneLine(DaoObjects.SafeString(a.device)) && OneLine(a.state)
    ensures Count(AttachmentEntry(a), '\n') == if a.deleteOnTermination.Some? then 4 else 3
    ensures Contains(AttachmentEntry(a), "  Instance ID: " + DaoObjects.SafeString(a.instanceId) + "\n")
  {
    var ls := AttachmentLines(a);
    LabelLine("  Instance ID: ", DaoObjects.SafeString(a.instanceId));
    LabelLine("  Device: ", DaoObjects.SafeString(a.device));
    LabelLine("  State: ", a.state);
    if a.deleteOnTermination.Some? {
      LabelLine("  Delete on Termination: ", BoolText(a.deleteOnTermination.value));
    }
    ConcatLines(ls);
    ConcatContains(ls, 0);
  }

  function Entries(atts: seq<Attachment>): (es: seq<string>)
    ensures |es| == |atts| && forall k :: 0 <= k < |atts| ==> es[k] == AttachmentEntry(atts[k])
  {
    seq(|atts|, k requires 0 <= k < |atts| => AttachmentEntry(atts[k]))
  }

  /** getVolumeAttachmentInfo: "" without attachments, otherwise the blocks separated
      by one blank line. */
  method AttachmentInfo(atts: seq<Attachment>) returns (s: string)
    ensures |atts| == 0 ==> s == ""
    ensures s == Join(Entries(atts), "\n")
  {
    if |atts| == 0 {
      return "";
    }
    var es := Entries(atts);
    s := "";
    var i := 0;
    while i < |atts|
      invariant 0 <= i <= |atts|
      invariant i > 0 ==> s == Join(es[..i], "\n")
      invariant i == 0 ==> s == ""
    {
      if i > 0 {
        JoinAppend(es[..i], es[i], "\n");
        assert es[..i] + [es[i]] == es[..i + 1];
        s := s + "\n";
      }
      s := s + AttachmentEntry(atts[i]);
      i := i + 1;
    }
    assert es[..|atts|] == es;
  }

  /** One address range, peer group or similar target of a security-group rule. */
  datatype Grant = Grant(target: Option<string>, description: Option<string>)

  datatype Permission = Permission(protocol: Option<string>, fromPort: Option<int>, toPort: Option<int>,
                                   ipv4: seq<Grant>, ipv6: seq<Grant>, groups: seq<Grant>)

  /** The protocol column: "-1" (every protocol) shows as "All". */
  function ProtocolLabel(p: Option<string>): (s: string)
    ensures DaoObjects.SafeString(p) == "-1" ==> s == "All"
    ensures DaoObjects.SafeString(p) != "-1" ==> s == DaoObjects.SafeString(p)
  {
    var v := DaoObjects.SafeString(p);
    if v == "-1" then "All" else v
  }

  /** The port column: one port, a "from-to" range, or "All" when either end is nil. */
  function PortRange(from: Option<int>, to: Option<int>): (s: string)
    ensures from.None? || to.None? ==> s == "All"
    ensures from.Some? && to.Some? && from.value == to.value ==> s == IntToString(from.value)
    ensures from.Some? && to.Some? && from.value != to.value ==>
              s == IntToString(from.value) + "-" + IntToString(to.value)
    ensures OneLine(s)
  {
    if from.Some? && to.Some? then
      NumberOneLine(from.value);
      NumberOneLine(to.value);
      if from.value == to.value then IntToString(from.value)
      else IntToString(from.value) + "-" + IntToString(to.value)
    else "All"
  }

  lemma NumberOneLine(i: int)
    ensures OneLine(IntToString(i))
  {
    var s := IntToString(i);
    if i < 0 {
      assert s == "-" + NatToString(-i);
      assert forall k :: 1 <= k < |s| ==> s[k] == NatToString(-i)[k - 1];
    }
  }

  /** One rule line; the description is added in parentheses when there is one. */
  function RuleLine(proto: string, port: string, g: Grant): (s: string)
    ensures HasPrefix(s, "  " + proto + " " + port + " " + DaoObjects.SafeString(g.target))
    ensures HasSuffix(s, "\n")
  {
    var head := "  " + proto + " " + port + " " + DaoObjects.SafeString(g.target);
    var desc := DaoObjects.SafeString(g.description);
    if desc != "" then head + " (" + desc + ")\n" else head + "\n"
  }

  function GrantLines(proto: string, port: string, gs: seq<Grant>): string
  {
    if |gs| == 0 then "" else RuleLine(proto, port, gs[0]) + GrantLines(proto, port, gs[1..])
  }

  function PermissionLines(p: Permission): string
  {
    var proto := ProtocolLabel(p.protocol);
    var port := PortRange(p.fromPort, p.toPort);
    GrantLines(proto, port, p.ipv4) + GrantLines(proto, port, p.ipv6) + GrantLines(proto, port, p.groups)
  }

  /** formatRules: the permissions' lines, each permission's IPv4 ranges, then IPv6
      ranges, then peer groups. */
  function FormatRules(perms: seq<Permission>): (s: string)
    ensures perms == [] ==> s == ""
  {
    if |perms| == 0 then "" else PermissionLines(perms[0]) + FormatRules(perms[1..])
  }

  predicate GrantOneLine(g: Grant) {
    OneLine(DaoObjects.SafeString(g.target)) && OneLine(DaoObjects.SafeString(g.description))
  }

  predicate PermissionOneLine(p: Permission) {
    OneLine(DaoObjects.SafeString(p.protocol))
    && (forall g :: g in p.ipv4 ==> GrantOneLine(g))
    && (forall g :: g in p.ipv6 ==> GrantOneLine(g))
    && (forall g :: g in p.groups ==> GrantOneLine(g))
  }

  function GrantCount(perms: seq<Permission>): nat
  {
    if |perms| == 0 then 0 else |perms[0].ipv4| + |perms[0].ipv6| + |perms[0].groups| + GrantCount(perms[1..])
  }

  lemma RuleLineOneLine(proto: string, port: string, g: Grant)
    requires OneLine(proto) && OneLine(port) && GrantOneLine(g)
    ensures Count(RuleLine(proto, port, g), '\n') == 1
  {
    var t := DaoObjects.SafeString(g.target);
    var d := DaoObjects.SafeString(g.description);
    var head := "  " + proto + " " + port + " " + t;
    assert OneLine(head);
    CountZero(head, '\n');
    if d != "" {
      var tail := " (" + d + ")";
      assert OneLine(tail);
      CountZero(tail, '\n');
      CountAppend(head, tail, '\n');
      CountAppend(head + tail, "\n", '\n');
      assert head + " (" + d + ")\n" == head + tail + "\n";
    } else {
      CountAppend(head, "\n", '\n');
    }
  }

  lemma {:induction false} GrantLinesCount(proto: string, port: string, gs: seq<Grant>)
    requires OneLine(proto) && OneLine(port) && forall g :: g in gs ==> GrantOneLine(g)
    ensures Count(GrantLines(proto, port, gs), '\n') == |gs|
  {
    if |gs| > 0 {
      RuleLineOneLine(proto, port, gs[0]);
      GrantLinesCount(proto, port, gs[1..]);
      CountAppend(RuleLine(proto, port, gs[0]), GrantLines(proto, port, gs[1..]), '\n');
    }
  }

  /** With single-line fields, formatRules writes exactly one line per grant. */
  lemma {:induction false} FormatRulesLines(perms: seq<Permission>)
    requires forall p :: p in perms ==> PermissionOneLine(p)
    ensures Count(FormatRules(perms), '\n') == GrantCount(perms)
  {
    if |perms| > 0 {
      var p := perms[0];
      assert PermissionOneLine(p);
      var proto := ProtocolLabel(p.protocol);
      var port := PortRange(p.fromPort, p.toPort);
      assert OneLine(proto);
      GrantLinesCount(proto, port, p.ipv4);
      GrantLinesCount(proto, port, p.ipv6);
      GrantLinesCount(proto, port, p.groups);
      CountAppend(GrantLines(proto, port, p.ipv4), GrantLines(proto, port, p.ipv6), '\n');
      CountAppend(GrantLines(proto, port, p.ipv4) + GrantLines(proto, port, p.ipv6), GrantLines(proto, port, p.groups), '\n');
      FormatRulesLines(perms[1..]);
      CountAppend(PermissionLines(p), FormatRules(perms[1..]), '\n');
    }
  }

  // ---------------------------------------------------------------------------
  // Kubeconfig
  // ---------------------------------------------------------------------------

  /** generateKubeconfig: a one-cluster, one-context, one-user kubeconfig whose user
      authenticates with `aws eks get-token` for this cluster and region. A nil
      certificate authority, nil data, name or endpoint read as "". The template is
      kept as the pieces it is written in. */
  function KubeconfigPieces(name: Option<string>, endpoint: Option<string>, caData: Option<Option<string>>, region: string): seq<string>
  {
    var n := DaoObjects.SafeString(name);
    var ca := if caData.Some? then DaoObjects.SafeString(caData.value) else "";
    [ "apiVersion: v1\n" + "kind: Config\n" + "clusters:\n" + "- cluster:\n"
        + "    certificate-" + "authority-data: " + ca + "\n",
      "    server: " + DaoObjects.SafeString(endpoint) + "\n",
      "  name: " + n + "\n",
      "contexts:\n- context:\n    cluster: " + n + "\n",
      "    user: " + n + "\n",
      "  name: " + n + "\n",
      "current-context: " + n + "\n",
      "users:\n- name: " + n + "\n",
      "  user:\n" + "    exec:\n" + "      apiVersion: " + "client.authentication" + ".k8s.io/v1beta1\n"
        + "      command: aws\n" + "      args:\n" + "      - eks\n" + "      - get-token\n"
        + "      - --cluster-name\n",
      "      - " + n + "\n",
      "      - --region\n",
      "      - " + region + "\n" ]
  }

  function Kubeconfig(name: Option<string>, endpoint: Option<string>, caData: Option<Option<string>>, region: string): string
  {
    Concat(KubeconfigPieces(name, endpoint, caData, region))
  }

  /** The context in use is the cluster's, the server is the cluster's endpoint, and
      the token command names the cluster and the region. */
  lemma KubeconfigNamesCluster(name: Option<string>, endpoint: Option<string>, caData: Option<Option<string>>, region: string)
    ensures var k := Kubeconfig(name, endpoint, caData, region);
            && Contains(k, "current-context: " + DaoObjects.SafeString(name) + "\n")
            && Contains(k, "    server: " + DaoObjects.SafeString(endpoint) + "\n")
            && Contains(k, "      - " + DaoObjects.SafeString(name) + "\n")
            && Contains(k, "      - " + region + "\n")
  {
    var ps := KubeconfigPieces(name, endpoint, caData, region);
    var n := DaoObjects.SafeString(name);
    assert Kubeconfig(name, endpoint, caData, region) == Concat(ps);
    assert Contains(Concat(ps), "current-context: " + n + "\n") by {
      ConcatContains(ps, 6);
    }
    assert Contains(Concat(ps), "    server: " + DaoObjects.SafeString(endpoint) + "\n") by {
      ConcatContains(ps, 1);
    }
    assert Contains(Concat(ps), "      - " + n + "\n") by {
      ConcatContains(ps, 9);
    }
    assert Contains(Concat(ps), "      - " + region + "\n") by {
      ConcatContains(ps, 11);
    }
  }
}

=== FILE: dao_paths.dfy ===
/** The path strings the resource accessors take ("region/id", "bucket/key",
    "region/cluster/nodegroup") and their parsers (internal/dao/ec2_instance.go,
    eks_cluster.go, eks_nodegroup.go, ec2_volume.go, vpc.go, subnet.go,
    security_group.go and s3_object.go). Two families exist: the first "/" splits
    and both sides are trimmed, or the path must have exactly so many "/"-separated
    parts, taken verbatim. */
module DaoPaths {
  import opened Wrappers
  import opened Strs

  /** No white space at either end. */
  predicate Trimmed(s: string) {
    s == [] || (!IsSpace(s[0]) && !IsSpace(s[|s| - 1]))
  }

  /** A path piece a parser gives back verbatim: non-empty and without "/". */
  predicate Piece(s: string) {
    s != "" && '/' !in s
  }

  // ---------------------------------------------------------------------------
  // Split at the first "/", trim both sides
  // ---------------------------------------------------------------------------

  /** The shared shape of parseEC2Path, parseClusterPath and parseObjectPath: the text
      before the first "/" and everything after it, both trimmed, both required. */
  function SplitFirstTrimmed(path: string, expected: string, emptyMsg: string): (r: Result<(string, string)>)
    ensures '/' !in path ==> r == Err("invalid path format, expected '" + expected + "', got: " + path)
    ensures r.Ok? ==> r.value.0 != "" && r.value.1 != "" && Trimmed(r.value.0) && Trimmed(r.value.1)
    ensures r.Ok? ==> '/' !in r.value.0
  {
    var parts := SplitN2(path, '/');
    if |parts| != 2 then Err("invalid path format, expected '" + expected + "', got: " + path)
    else
      var a := TrimSpace(parts[0]);
      var b := TrimSpace(parts[1]);
      if a == "" || b == "" then Err(emptyMsg)
      else
        TrimSpaceWithin(parts[0], '/');
        Ok((a, b))
  }

  /** The first piece has no "/", the second may: the split happens once, and trimmed
      non-empty pieces come back as they were. */
  lemma SplitFirstTrimmedRoundTrip(a: string, b: string, expected: string, emptyMsg: string)
    requires '/' !in a && a != "" && b != "" && Trimmed(a) && Trimmed(b)
    ensures SplitFirstTrimmed(a + "/" + b, expected, emptyMsg) == Ok((a, b))
  {
    var p := a + "/" + b;
    assert p[|a|] == '/' && p[..|a|] == a;
    IndexOfAt(p, '/', |a|);
    assert p[|a| + 1..] == b;
    TrimSpaceNoop(a);
    TrimSpaceNoop(b);
  }

  /** Whatever sits on either side of the first "/" only matters after trimming. */
  lemma SplitFirstTrimmedSpaces(a: string, b: string, expected: string, emptyMsg: string)
    requires '/' !in a
    ensures SplitFirstTrimmed(a + "/" + b, expected, emptyMsg)
            == if TrimSpace(a) == "" || TrimSpace(b) == "" then Err(emptyMsg)
               else Ok((TrimSpace(a), TrimSpace(b)))
  {
    var p := a + "/" + b;
    assert p[|a|] == '/' && p[..|a|] == a;
    IndexOfAt(p, '/', |a|);
    assert p[|a| + 1..] == b;
  }

  /** parseEC2Path: "region/instance-id". */
  function ParseEC2Path(path: string): (r: Result<(string, string)>)
    ensures r == SplitFirstTrimmed(path, "region/instance-id", "region and instance-id cannot be empty")
  {
    SplitFirstTrimmed(path, "region/instance-id", "region and instance-id cannot be empty")
  }

  /** Because only the first "/" splits, an instance id may itself contain "/". */
  lemma EC2IdMayContainSlash()
    ensures ParseEC2Path("us-east-1/i-1/x") == Ok(("us-east-1", "i-1/x"))
  {
    assert "us-east-1/i-1/x" == "us-east-1" + "/" + "i-1/x";
    SplitFirstTrimmedRoundTrip("us-east-1", "i-1/x", "region/instance-id", "region and instance-id cannot be empty");
  }

  /** parseClusterPath: "region/cluster-name". */
  function ParseClusterPath(path: string): (r: Result<(string, string)>)
    ensures r == SplitFirstTrimmed(path, "region/cluster-name", "region and cluster-name cannot be empty")
  {
    SplitFirstTrimmed(path, "region/cluster-name", "region and cluster-name cannot be empty")
  }

  /** parseObjectPath: "bucket/key". */
  function ParseObjectPath(path: string): (r: Result<(string, string)>)
    ensures r == SplitFirstTrimmed(path, "bucket/key", "bucket and key cannot be empty")
  {
    SplitFirstTrimmed(path, "bucket/key", "bucket and key cannot be empty")
  }

  /** parseListPath: the whole path trimmed; "" is no bucket; otherwise the bucket is
      before the first "/" and the prefix (possibly "") after it. */
  function ParseListPath(path: string): (r: (string, string))
    ensures TrimSpace(path) == "" ==> r == ("", "")
    ensures '/' !in r.0
    ensures '/' in TrimSpace(path) ==> TrimSpace(path) == r.0 + "/" + r.1
    ensures '/' !in TrimSpace(path) ==> r == (TrimSpace(path), "")
  {
    var p := TrimSpace(path);
    if p == "" then ("", "")
    else
      var parts := SplitN2(p, '/');
      if |parts| == 2 then (parts[0], parts[1]) else (parts[0], "")
  }

  /** A trimmed bucket and prefix joined with "/" parse back to themselves. */
  lemma ListPathRoundTrip(bucket: string, prefix: string)
    requires Piece(bucket) && Trimmed(bucket + "/" + prefix)
    ensures ParseListPath(bucket + "/" + prefix) == (bucket, prefix)
  {
    var p := bucket + "/" + prefix;
    TrimSpaceNoop(p);
    assert p[|bucket|] == '/' && p[..|bucket|] == bucket;
    IndexOfAt(p, '/', |bucket|);
    assert p[|bucket| + 1..] == prefix;
  }

  function ExtractBucketFromPath(path: string): (b: string)
    ensures b == ParseListPath(path).0
  {
    ParseListPath(path).0
  }

  // ---------------------------------------------------------------------------
  // Exactly so many "/"-separated parts, verbatim
  // ---------------------------------------------------------------------------

  /** parseVolumePath: exactly two parts, both non-empty. */
  function ParseVolumePath(path: string): (r: Result<(string, string)>)
    ensures r.Ok? <==> |Split(path, '/')| == 2 && Split(path, '/')[0] != "" && Split(path, '/')[1] != ""
    ensures r.Ok? ==> Piece(r.value.0) && Piece(r.value.1) && path == r.value.0 + "/" + r.value.1
  {
    var parts := Split(path, '/');
    if |parts| != 2 then Err("invalid volume path format, expected 'region/volume-id', got: " + path)
    else if parts[0] == "" || parts[1] == "" then
      Err("invalid volume path, region and volume-id cannot be empty: " + path)
    else
      JoinSplit(path, '/');
      Ok((parts[0], parts[1]))
  }

  /** The shared shape of parseVPCPath and parseSubnetPath: two parts, a region, and an
      id that carries the resource's prefix ("vpc-", "subnet-"); each failure has its
      own message. */
  function ParsePrefixedIdPath(path: string, kind: string, idPrefix: string): (r: Result<(string, string)>)
    ensures r.Ok? ==> Piece(r.value.0) && Piece(r.value.1) && HasPrefix(r.value.1, idPrefix)
    ensures r.Ok? ==> path == r.value.0 + "/" + r.value.1
    ensures |Split(path, '/')| != 2 ==>
              r == Err("invalid " + kind + " path format: expected 'region/" + idPrefix + "id', got '" + path + "'")
    ensures |Split(path, '/')| == 2 && Split(path, '/')[0] == "" ==>
              r == Err("region cannot be empty in path: " + path)
  {
    var parts := Split(path, '/');
    if |parts| != 2 then Err("invalid " + kind + " path format: expected 'region/" + idPrefix + "id', got '" + path + "'")
    else if parts[0] == "" then Err("region cannot be empty in path: " + path)
    else if parts[1] == "" then Err(kind + " ID cannot be empty in path: " + path)
    else if !HasPrefix(parts[1], idPrefix) then
      Err("invalid " + kind + " ID format: " + parts[1] + " (expected " + idPrefix + "*)")
    else
      JoinSplit(path, '/');
      Ok((parts[0], parts[1]))
  }

  /** Valid pairs and valid paths correspond one to one: joining a non-empty region and
      a prefixed id with "/" parses back to them, and every parsed path is that join. */
  lemma PrefixedIdRoundTrip(region: string, id: string, kind: string, idPrefix: string)
    requires Piece(region) && Piece(id)
    ensures ParsePrefixedIdPath(region + "/" + id, kind, idPrefix).Ok? <==> HasPrefix(id, idPrefix)
    ensures HasPrefix(id, idPrefix) ==> ParsePrefixedIdPath(region + "/" + id, kind, idPrefix) == Ok((region, id))
  {
    SplitTwo(region, id, '/');
  }

  function ParseVPCPath(path: string): (r: Result<(string, string)>)
    ensures r == ParsePrefixedIdPath(path, "VPC", "vpc-")
  {
    ParsePrefixedIdPath(path, "VPC", "vpc-")
  }

  function ParseSubnetPath(path: string): (r: Result<(string, string)>)
    ensures r == ParsePrefixedIdPath(path, "subnet", "subnet-")
  {
    ParsePrefixedIdPath(path, "subnet", "subnet-")
  }

  /** A VPC id without its prefix is refused even when the path is well formed. */
  lemma VPCIdNeedsPrefix()
    ensures ParseVPCPath("us-east-1/abc").Err?
  {
    assert "us-east-1/abc" == "us-east-1" + "/" + "abc";
    assert !HasPrefix("abc", "vpc-");
    PrefixedIdRoundTrip("us-east-1", "abc", "VPC", "vpc-");
  }

  lemma SubnetPathExample()
    ensures ParseSubnetPath("eu-west-1/subnet-9") == Ok(("eu-west-1", "subnet-9"))
  {
    assert "eu-west-1/subnet-9" == "eu-west-1" + "/" + "subnet-9";
    assert HasPrefix("subnet-9", "subnet-");
    PrefixedIdRoundTrip("eu-west-1", "subnet-9", "subnet", "subnet-");
  }

  /** parseSGPath: exactly two parts, returned as they are, empty ones included. */
  function ParseSGPath(path: string): (r: Result<(string, string)>)
    ensures r.Ok? <==> Count(path, '/') == 1
    ensures r.Ok? ==> path == r.value.0 + "/" + r.value.1 && '/' !in r.value.0 && '/' !in r.value.1
  {
    var parts := Split(path, '/');
    if |parts| != 2 then Err("invalid security group path format: " + path + " (expected: region/sg-id)")
    else
      JoinSplit(path, '/');
      Ok((parts[0], parts[1]))
  }

  /** Empty parts pass the security-group parser. */
  lemma SGPathAllowsEmpty()
    ensures ParseSGPath("/") == Ok(("", ""))
  {
    SplitTwo("", "", '/');
    assert "" + "/" + "" == "/";
  }

  /** parseNodegroupPath: exactly three parts, each non-empty, checked in order. */
  function ParseNodegroupPath(path: string): (r: Result<(string, string, string)>)
    ensures r.Ok? <==> |Split(path, '/')| == 3 && forall k :: 0 <= k < 3 ==> Split(path, '/')[k] != ""
    ensures r.Ok? ==> path == r.value.0 + "/" + r.value.1 + "/" + r.value.2
    ensures |Split(path, '/')| != 3 ==>
              r == Err("invalid node group path format: expected 'region/cluster-name/nodegroup-name', got '" + path + "'")
  {
    var parts := Split(path, '/');
    if |parts| != 3 then
      Err("invalid node group path format: expected 'region/cluster-name/nodegroup-name', got '" + path + "'")
    else if parts[0] == "" then Err("region cannot be empty in path: " + path)
    else if parts[1] == "" then Err("cluster name cannot be empty in path: " + path)
    else if parts[2] == "" then Err("node group name cannot be empty in path: " + path)
    else
      JoinSplit(path, '/');
      assert parts[1..][1..] == [parts[2]];
      assert Join(parts[1..], "/") == parts[1] + "/" + parts[2];
      assert path == parts[0] + "/" + (parts[1] + "/" + parts[2]);
      Ok((parts[0], parts[1], parts[2]))
  }

  /** Three pieces joined with "/" parse back; an empty middle piece is reported as the
      cluster name. */
  lemma NodegroupRoundTrip(region: string, cluster: string, ng: string)
    requires Piece(region) && Piece(cluster) && Piece(ng)
    ensures ParseNodegroupPath(region + "/" + cluster + "/" + ng) == Ok((region, cluster, ng))
    ensures ParseNodegroupPath(region + "//" + ng)
            == Err("cluster name cannot be empty in path: " + region + "//" + ng)
  {
    SplitThree(region, cluster, ng, '/');
    SplitThree(region, "", ng, '/');
    assert region + "/" + "" + "/" + ng == region + "//" + ng;
  }
}

=== FILE: editor.dfy ===
/** The error header of the resource editor (internal/view/editor.go): when a save
    fails, the JSON is rewritten to the temporary file under a block of "//" comment
    lines carrying the error, and that block is stripped again from what the user
    saves. Running the editor, JSON encoding and patch generation are left out; the
    file content is a string whose lines are separated by '\n'. */
module Editor {
  import opened Strs

  const ErrorPrefix := "// ERROR: "
  const FixLine := "// Fix the issue " + "below and save, " + "or save without " + "changes to cancel."
  const RuleLine := "// ---"

  /** The block after the message line: two more comment lines and a blank one. */
  const HeaderTail := FixLine + "\n" + RuleLine + "\n\n"

  /** The comment block written above the JSON when there is an error message. */
  function ErrorHeader(msg: string): (h: string)
    ensures msg == "" <==> h == ""
  {
    if msg == "" then "" else ErrorPrefix + msg + "\n" + HeaderTail
  }

  /** writeJSONWithError: the header, then the pretty-printed JSON and a closing newline. */
  function WriteContent(msg: string, json: string): (content: string)
    ensures HasSuffix(content, json + "\n") && content[|content| - 1] == '\n'
    ensures msg == "" ==> content == json + "\n"
    ensures msg != "" ==> HasPrefix(content, ErrorPrefix + msg + "\n")
  {
    ErrorHeader(msg) + json + "\n"
  }

  predicate Blank(line: string) {
    TrimSpace(line) == ""
  }

  predicate Comment(line: string) {
    HasPrefix(TrimSpace(line), "//")
  }

  /** Where the scan of stripErrorComment leaves its start index: one past the last
      comment line of the leading run of blank and comment lines, or 0 when that run
      holds no comment. */
  function CommentEnd(lines: seq<string>): (n: nat)
    ensures n <= |lines|
    decreases |lines|
  {
    if |lines| == 0 then 0
    else if Blank(lines[0]) then
      var k := CommentEnd(lines[1..]);
      if k == 0 then 0 else k + 1
    else if Comment(lines[0]) then 1 + CommentEnd(lines[1..])
    else 0
  }

  /** What the scan passes over is blank or comment lines, the last one a comment. */
  lemma {:induction false} CommentEndSkipsComments(lines: seq<string>)
    ensures CommentEnd(lines) > 0 ==> Comment(lines[CommentEnd(lines) - 1])
    ensures forall i :: 0 <= i < CommentEnd(lines) ==> Blank(lines[i]) || Comment(lines[i])
    decreases |lines|
  {
    if |lines| > 0 {
      CommentEndSkipsComments(lines[1..]);
    }
  }

  /** The scan stops at the last comment: the lines after it start no further comment run. */
  lemma {:induction false} CommentEndMaximal(lines: seq<string>)
    ensures CommentEnd(lines[CommentEnd(lines)..]) == 0
    decreases |lines|
  {
    if |lines| > 0 {
      var k := CommentEnd(lines[1..]);
      CommentEndMaximal(lines[1..]);
      if Blank(lines[0]) || Comment(lines[0]) {
        if k > 0 || Comment(lines[0]) {
          assert lines[CommentEnd(lines)..] == lines[1..][k..];
        }
      }
    }
  }

  /** stripErrorComment: drop the leading comment block when something follows it;
      otherwise hand the content back. What is dropped is whole lines, all blank or
      comments, the last one a comment. */
  function StripErrorComment(content: string): (r: string)
    ensures HasSuffix(content, r)
    ensures r != content ==>
              var lines := Split(content, '\n');
              0 < CommentEnd(lines) < |lines| &&
              content == Join(lines[..CommentEnd(lines)], "\n") + "\n" + r
    ensures var lines := Split(content, '\n');
            0 < CommentEnd(lines) < |lines| ==> r != content
    ensures var lines := Split(content, '\n');
            !(0 < CommentEnd(lines) < |lines|) ==> r == content
  {
    var lines := Split(content, '\n');
    var n := CommentEnd(lines);
    if 0 < n < |lines| then
      JoinSplit(content, '\n');
      assert lines == lines[..n] + lines[n..];
      JoinConcat(lines[..n], lines[n..], "\n");
      Join(lines[n..], "\n")
    else content
  }

  /** Stripping twice removes nothing more. */
  lemma StripIdempotent(content: string)
    ensures StripErrorComment(StripErrorComment(content)) == StripErrorComment(content)
  {
    var lines := Split(content, '\n');
    var n := CommentEnd(lines);
    if 0 < n < |lines| {
      var rest := lines[n..];
      assert forall k :: 0 <= k < |rest| ==> '\n' !in rest[k];
      SplitJoin(rest, '\n');
      CommentEndMaximal(lines);
    }
  }

  /** A line starting with "//" is a comment, whatever trails it. */
  lemma SlashLineIsComment(s: string)
    requires |s| >= 2 && s[0] == '/' && s[1] == '/'
    ensures Comment(s) && !Blank(s)
  {
    assert TrimLeft(s) == s;
    var r := TrimRight(s);
    assert |r| >= 2 by {
      assert !IsSpace(s[1]);
    }
    assert r[..2] == s[..2];
  }

  /** A line starting with a character that is neither blank nor '/' is content. */
  lemma ContentLine(s: string)
    requires |s| > 0 && !IsSpace(s[0]) && s[0] != '/'
    ensures !Comment(s) && !Blank(s)
  {
    assert TrimLeft(s) == s;
    var r := TrimRight(s);
    assert |r| >= 1 by {
      assert !IsSpace(s[0]);
    }
    assert r[0] == s[0];
  }

  /** A text starting with such a character splits into a first line that is content. */
  lemma ContentFirstLine(json: string)
    requires |json| > 0 && !IsSpace(json[0]) && json[0] != '/' && json[0] != '\n'
    ensures CommentEnd(Split(json, '\n')) == 0
  {
    var lines := Split(json, '\n');
    SplitHeadPrefix(json, '\n');
    assert IndexOf(json, '\n') != 0;
    assert |lines[0]| > 0;
    assert lines[0][0] == json[0];
    ContentLine(lines[0]);
  }

  lemma NoNewlineInHeaderLines()
    ensures '\n' !in ErrorPrefix && '\n' !in FixLine && '\n' !in RuleLine
  {
    assert '\n' !in "// Fix the issue ";
    assert '\n' !in "below and save, ";
    assert '\n' !in "or save without ";
    assert '\n' !in "changes to cancel.";
  }

  /** A newline-free line in front of a text splits off as one part. */
  lemma SplitFront(a: string, rest: string)
    requires '\n' !in a
    ensures Split(a + "\n" + rest, '\n') == [a] + Split(rest, '\n')
  {
    assert a + "\n" + rest == a + ['\n'] + rest;
    SplitNoSep(a, '\n');
    SplitAround(a, rest, '\n');
  }

  /** Two newline-free lines in front of a text split off as two parts. */
  lemma SplitTwoLines(b: string, c: string, rest: string)
    requires '\n' !in b && '\n' !in c
    ensures Split(b + "\n" + c + "\n" + rest, '\n') == [b] + ([c] + Split(rest, '\n'))
  {
    assert b + "\n" + c + "\n" + rest == b + "\n" + (c + "\n" + rest);
    SplitFront(c, rest);
    SplitFront(b, c + "\n" + rest);
  }

  lemma Regroup2(p: string, m: string, h: string, j: string)
    ensures p + m + "\n" + h + j == (p + m) + "\n" + (h + j)
  {
  }

  lemma TailRegroup(f: string, r: string, j: string)
    ensures f + "\n" + r + "\n\n" + j == f + "\n" + r + "\n" + ("\n" + j)
  {
  }

  lemma Regroup3<T>(a: T, b: T, c: T, t: seq<T>)
    ensures [a] + ([b] + ([c] + t)) == [a, b, c] + t
  {
  }

  lemma Regroup(p: string, f: string, s: string, h: string, j: string)
    ensures p + (f + "\n" + s) + "\n" + h + j == (p + f) + "\n" + (s + "\n" + h + j)
  {
  }

  /** Three comment lines before content-first lines end the scan after the third. */
  lemma CommentEndThree(a: string, b: string, c: string, tail: seq<string>)
    requires Comment(a) && Comment(b) && Comment(c) && !Blank(a) && !Blank(b) && !Blank(c)
    requires CommentEnd(tail) == 0
    ensures CommentEnd([a, b, c] + tail) == 3
  {
    assert ([c] + tail)[1..] == tail;
    assert CommentEnd([c] + tail) == 1;
    assert ([b, c] + tail)[1..] == [c] + tail;
    assert CommentEnd([b, c] + tail) == 2;
    assert ([a, b, c] + tail)[1..] == [b, c] + tail;
  }

  /** The line after the block: blank, then the JSON whose first line is content. */
  lemma BlankThenContent(json: string)
    requires |json| > 0 && json[0] == '{'
    ensures CommentEnd(Split("\n" + json, '\n')) == 0
  {
    assert "\n" + json == [] + ['\n'] + json;
    SplitAround([], json, '\n');
    SplitNoSep([], '\n');
    ContentFirstLine(json);
    var lines := Split("\n" + json, '\n');
    assert lines == [""] + Split(json, '\n');
    assert Blank("");
    assert lines[1..] == Split(json, '\n');
  }

  /** The three lines of the error block read as comments. */
  lemma HeaderLinesAreComments(msg: string)
    ensures Comment(ErrorPrefix + msg) && !Blank(ErrorPrefix + msg)
    ensures Comment(FixLine) && !Blank(FixLine)
    ensures Comment(RuleLine) && !Blank(RuleLine)
  {
    var l0 := ErrorPrefix + msg;
    assert Comment(l0) && !Blank(l0) by {
      assert l0[0] == '/' && l0[1] == '/';
      SlashLineIsComment(l0);
    }
    assert Comment(FixLine) && !Blank(FixLine) by {
      SlashLineIsComment(FixLine);
    }
    assert Comment(RuleLine) && !Blank(RuleLine) by {
      SlashLineIsComment(RuleLine);
    }
  }

  /** Saving the file as written strips exactly the error block: what is left is the
      blank line that closed the block, then the JSON (whose first character, the
      opening brace of the pretty-printed object, is content) with its closing newline. */
  lemma StripsErrorHeader(msg: string, json: string)
    requires msg != "" && '\n' !in msg
    requires |json| > 0 && json[0] == '{'
    ensures StripErrorComment(WriteContent(msg, json)) == "\n" + json + "\n"
  {
    var j := json + "\n";
    assert WriteContent(msg, json) == ErrorHeader(msg) + j;
    var l0 := ErrorPrefix + msg;
    var rest := "\n" + j;
    assert rest == "\n" + json + "\n";
    var tail := Split(rest, '\n');
    var lines := Split(WriteContent(msg, json), '\n');
    assert lines == [l0, FixLine, RuleLine] + tail by {
      Regroup2(ErrorPrefix, msg, HeaderTail, j);
      TailRegroup(FixLine, RuleLine, j);
      NoNewlineInHeaderLines();
      SplitTwoLines(FixLine, RuleLine, rest);
      SplitFront(l0, HeaderTail + j);
      Regroup3(l0, FixLine, RuleLine, tail);
    }
    assert CommentEnd(lines) == 3 by {
      HeaderLinesAreComments(msg);
      BlankThenContent(j);
      CommentEndThree(l0, FixLine, RuleLine, tail);
    }
    assert lines[3..] == tail;
    JoinSplit(rest, '\n');
  }

  /** An error message spanning several lines breaks the stripping: only its first line
      is taken for a comment, so the rest of the message and the remaining header lines
      stay in front of the JSON. */
  lemma MultiLineMessageLeaks(first: string, second: string, json: string)
    requires '\n' !in first && '\n' !in second
    requires |second| > 0 && !IsSpace(second[0]) && second[0] != '/'
    ensures StripErrorComment(WriteContent(first + "\n" + second, json)) == second + "\n" + HeaderTail + json + "\n"
  {
    var j := json + "\n";
    var rest := second + "\n" + HeaderTail + j;
    assert rest == second + "\n" + HeaderTail + json + "\n";
    assert WriteContent(first + "\n" + second, json) == ErrorHeader(first + "\n" + second) + j;
    MultiLineSplit(first, second, j);
    MultiLineCommentEnd(first, second, j);
    JoinSplit(rest, '\n');
  }

  lemma MultiLineSplit(first: string, second: string, json: string)
    requires '\n' !in first
    ensures Split(ErrorHeader(first + "\n" + second) + json, '\n')
            == [ErrorPrefix + first] + Split(second + "\n" + HeaderTail + json, '\n')
  {
    Regroup(ErrorPrefix, first, second, HeaderTail, json);
    SplitFront(ErrorPrefix + first, second + "\n" + HeaderTail + json);
  }

  lemma MultiLineCommentEnd(first: string, second: string, json: string)
    requires '\n' !in second
    requires |second| > 0 && !IsSpace(second[0]) && second[0] != '/'
    ensures CommentEnd([ErrorPrefix + first] + Split(second + "\n" + HeaderTail + json, '\n')) == 1
  {
    var tail := Split(second + "\n" + HeaderTail + json, '\n');
    assert second + "\n" + HeaderTail + json == second + "\n" + (HeaderTail + json);
    SecondLineContent(second, HeaderTail + json);
    HeaderLinesAreComments(first);
    assert ([ErrorPrefix + first] + tail)[1..] == tail;
  }

  lemma SecondLineContent(second: string, more: string)
    requires '\n' !in second
    requires |second| > 0 && !IsSpace(second[0]) && second[0] != '/'
    ensures CommentEnd(Split(second + "\n" + more, '\n')) == 0
  {
    assert second + "\n" + more == second + ['\n'] + more;
    SplitNoSep(second, '\n');
    SplitAround(second, more, '\n');
    ContentLine(second);
  }

  /** Content whose first line is not a comment comes back untouched. */
  lemma NoHeaderUnchanged(json: string)
    requires |json| > 0 && !IsSpace(json[0]) && json[0] != '/' && json[0] != '\n'
    ensures StripErrorComment(WriteContent("", json)) == json + "\n"
  {
    ContentFirstLine(json + "\n");
  }
}

=== FILE: engine.dfy ===
/** The refresh engine behind every resource table (internal/model/table_data.go): it lists
    objects through an accessor, renders them into rows with a renderer, publishes a new
    snapshot and notifies its listeners.

    The accessor's List call is I/O: its outcome is a parameter of Refresh. A renderer is
    a pair of pure functions. The ticker loop and the cancel function are reduced to two
    flags. */
module Engine {
  import opened Wrappers
  import opened Rows
  import opened Events
  import TableSnapshot

  /** The default watch period: five seconds, in nanoseconds. */
  const DefaultRefreshRate: int := 5 * 1000000000

  /** A renderer: the header for a region, and the rendering of one object into a row
      that starts with one empty cell per column (an error skips the object). */
  datatype Renderer<!O> = Renderer(header: string -> Header, render: (O, string, Row) -> Result<Row>)

  /** What listeners are told. */
  datatype Notice = TableNoData(data: TableSnapshot.TableData)
                  | TableDataChanged(data: TableSnapshot.TableData)
                  | TableLoadFailed(err: string)

  /** One call of a listener; listeners are compared by identity. */
  datatype Delivery = Delivery(listener: nat, notice: Notice)

  datatype Engine<!O> = Engine(
    hasAccessor: bool,
    renderer: Option<Renderer<O>>,
    region: string,
    data: TableSnapshot.TableData,
    refreshRate: int,
    listeners: seq<nat>,
    cancelSet: bool,
    looping: bool)

  /** NewTableData: an empty snapshot, no accessor, renderer or listeners. */
  function NewEngine<O>(refreshRate: int): (e: Engine<O>)
    ensures !e.hasAccessor && e.renderer.None? && |e.listeners| == 0
    ensures TableSnapshot.Empty(e.data) && !e.cancelSet && !e.looping
    ensures e.refreshRate == refreshRate
  {
    Engine(false, None, "", TableSnapshot.NewTableData(), refreshRate, [], false, false)
  }

  function SetAccessor<O>(e: Engine<O>): (e': Engine<O>)
    ensures e'.hasAccessor && e' == e.(hasAccessor := true)
  {
    e.(hasAccessor := true)
  }

  function SetRenderer<O>(e: Engine<O>, r: Renderer<O>): (e': Engine<O>)
    ensures e'.renderer == Some(r) && e' == e.(renderer := Some(r))
  {
    e.(renderer := Some(r))
  }

  function SetRegion<O>(e: Engine<O>, region: string): (e': Engine<O>)
    ensures e'.region == region && e' == e.(region := region)
  {
    e.(region := region)
  }

  /** Peek: a copy of the current snapshot. */
  function Peek<O>(e: Engine<O>): (t: TableSnapshot.TableData)
    ensures t.header == e.data.header && t.rows == e.data.rows
    ensures t.namespace == e.data.namespace && t.errMsg == e.data.errMsg
  {
    TableSnapshot.Clone(e.data)
  }

  // ---------------------------------------------------------------------------
  // Listeners
  // ---------------------------------------------------------------------------

  function AddListener<O>(e: Engine<O>, l: nat): (e': Engine<O>)
    ensures e'.listeners == e.listeners + [l]
    ensures e' == e.(listeners := e'.listeners)
  {
    e.(listeners := e.listeners + [l])
  }

  /** The listeners without the first occurrence of `l`. */
  function RemoveFirst(ls: seq<nat>, l: nat): (r: seq<nat>)
    ensures l !in ls ==> r == ls
    ensures l in ls ==> |r| == |ls| - 1 && multiset(r) == multiset(ls) - multiset{l}
  {
    if |ls| == 0 then []
    else if ls[0] == l then
      assert ls == [ls[0]] + ls[1..];
      ls[1..]
    else
      assert ls == [ls[0]] + ls[1..];
      [ls[0]] + RemoveFirst(ls[1..], l)
  }

  /** The position of the first `l`. */
  function FirstPos(ls: seq<nat>, l: nat): (p: nat)
    requires l in ls
    ensures p < |ls| && ls[p] == l && l !in ls[..p]
  {
    if ls[0] == l then 0
    else
      var p := FirstPos(ls[1..], l);
      assert ls[..p + 1] == [ls[0]] + ls[1..][..p];
      p + 1
  }

  /** Precisely: the entries before the first `l` and those after it, in order. */
  lemma {:induction false} RemoveFirstSplits(ls: seq<nat>, l: nat)
    requires l in ls
    ensures RemoveFirst(ls, l) == ls[..FirstPos(ls, l)] + ls[FirstPos(ls, l) + 1..]
  {
    if ls[0] == l {
      assert ls[..0] + ls[1..] == ls[1..];
    } else {
      RemoveFirstSplits(ls[1..], l);
      RemoveFirstCons(ls, l);
      SpliceCons(ls, FirstPos(ls[1..], l));
    }
  }

  lemma RemoveFirstCons(ls: seq<nat>, l: nat)
    requires l in ls && ls[0] != l
    ensures RemoveFirst(ls, l) == [ls[0]] + RemoveFirst(ls[1..], l)
    ensures FirstPos(ls, l) == FirstPos(ls[1..], l) + 1
  {
  }

  lemma SpliceCons(ls: seq<nat>, i: nat)
    requires i + 1 < |ls|
    ensures ls[..i + 1] + ls[i + 2..] == [ls[0]] + (ls[1..][..i] + ls[1..][i + 1..])
  {
    assert ls[..i + 1] == [ls[0]] + ls[1..][..i];
    assert ls[i + 2..] == ls[1..][i + 1..];
  }

  /** RemoveListener: only the first reference to `l` goes; an unknown listener is a
      no-op. */
  function RemoveListener<O>(e: Engine<O>, l: nat): (e': Engine<O>)
    ensures e'.listeners == RemoveFirst(e.listeners, l)
    ensures e' == e.(listeners := e'.listeners)
    ensures l !in e.listeners ==> e' == e
  {
    e.(listeners := RemoveFirst(e.listeners, l))
  }

  /** Registering then removing a new listener gives the original list back. */
  lemma {:induction false} AddThenRemove(ls: seq<nat>, l: nat)
    requires l !in ls
    ensures RemoveFirst(ls + [l], l) == ls
  {
    if |ls| > 0 {
      assert (ls + [l])[1..] == ls[1..] + [l];
      AddThenRemove(ls[1..], l);
      assert ls == [ls[0]] + ls[1..];
    }
  }

  /** Every listener of the snapshot taken at notification time gets the notice, in
      registration order. */
  function Deliver(ls: seq<nat>, n: Notice): (ds: seq<Delivery>)
    ensures |ds| == |ls|
    ensures forall i :: 0 <= i < |ls| ==> ds[i] == Delivery(ls[i], n)
  {
    seq(|ls|, i requires 0 <= i < |ls| => Delivery(ls[i], n))
  }

  // ---------------------------------------------------------------------------
  // Refresh
  // ---------------------------------------------------------------------------

  /** The rows built from the listed objects: each object is rendered into a row of
      `|header|` empty cells; an object whose rendering fails is skipped. */
  function BuildRows<O>(r: Renderer<O>, objects: seq<O>, region: string, header: Header): (re: RowEvents)
    ensures Consistent(re)
    ensures |re.events| <= |objects|
    ensures forall i :: 0 <= i < |re.events| ==> re.events[i].kind == EventAdd && re.events[i].deltas.Nil?
  {
    if |objects| == 0 then NewRowEvents()
    else
      var init := objects[..|objects| - 1];
      var last := objects[|objects| - 1];
      var prev := BuildRows(r, init, region, header);
      assert objects == init + [last];
      match r.render(last, region, NewRow(|header|))
      case Err(_) => prev
      case Ok(row) => Add(prev, NewRowEvent(EventAdd, row))
  }

  /** No row is built exactly when every object fails to render. */
  lemma {:induction false} BuildRowsEmpty<O>(r: Renderer<O>, objects: seq<O>, region: string, header: Header)
    ensures |BuildRows(r, objects, region, header).events| == 0
        <==> forall o :: o in objects ==> r.render(o, region, NewRow(|header|)).Err?
  {
    if |objects| > 0 {
      var init := objects[..|objects| - 1];
      BuildRowsEmpty(r, init, region, header);
      assert objects == init + [objects[|objects| - 1]];
    }
  }

  /** The rendered rows keep the order of the objects that rendered. */
  lemma {:induction false} BuildRowsContent<O>(r: Renderer<O>, objects: seq<O>, region: string, header: Header)
    ensures BuildRows(r, objects, region, header).events
         == RenderedEvents(r, objects, region, header)
  {
    if |objects| > 0 {
      BuildRowsContent(r, objects[..|objects| - 1], region, header);
    }
  }

  /** The independent description: one add event per successfully rendered object. */
  function RenderedEvents<O>(r: Renderer<O>, objects: seq<O>, region: string, header: Header): seq<RowEvent>
  {
    if |objects| == 0 then []
    else
      var last := objects[|objects| - 1];
      var prev := RenderedEvents(r, objects[..|objects| - 1], region, header);
      match r.render(last, region, NewRow(|header|))
      case Err(_) => prev
      case Ok(row) => prev + [NewRowEvent(EventAdd, row)]
  }

  /** Rendering failures never stop the objects after them from being rendered. */
  lemma RenderErrorSkipped<O>(r: Renderer<O>, objects: seq<O>, bad: O, region: string, header: Header)
    requires r.render(bad, region, NewRow(|header|)).Err?
    ensures RenderedEvents(r, objects + [bad], region, header) == RenderedEvents(r, objects, region, header)
  {
    assert (objects + [bad])[..|objects|] == objects;
  }

  /** What Refresh hands back: the new engine state, the error if any, and the listener
      calls it made. */
  datatype RefreshOutcome<!O> = RefreshOutcome(engine: Engine<O>, err: Option<string>, deliveries: seq<Delivery>)

  const NoAccessorError: string := "no accessor configured"
  const NoRendererError: string := "no renderer configured"

  function ListError(cause: string): string {
    "failed to list resources: " + cause
  }

  /** Refresh. Configuration errors and a failed listing leave everything unchanged and
      notify nobody. Otherwise the rows are built, but the snapshot that is published and
      handed to listeners is a fresh one carrying only the renderer's header: the built
      rows go nowhere. Listeners hear "no data" when no row was built and the previous
      snapshot had rows, and "data changed" otherwise. */
  function Refresh<O>(e: Engine<O>, listed: Result<seq<O>>): (out: RefreshOutcome<O>)
    ensures !e.hasAccessor ==> out == RefreshOutcome(e, Some(NoAccessorError), [])
    ensures e.hasAccessor && e.renderer.None? ==> out == RefreshOutcome(e, Some(NoRendererError), [])
    ensures e.hasAccessor && e.renderer.Some? && listed.Err? ==>
              out == RefreshOutcome(e, Some(ListError(listed.msg)), [])
    ensures e.hasAccessor && e.renderer.Some? && listed.Ok? ==>
              && out.err.None?
              && out.engine == e.(data := out.engine.data)
              && out.engine.data.header == e.renderer.value.header(e.region)
              && TableSnapshot.Empty(out.engine.data)
              && !TableSnapshot.HasError(out.engine.data)
              && |out.deliveries| == |e.listeners|
              && forall i :: 0 <= i < |e.listeners| ==>
                   out.deliveries[i] == Delivery(e.listeners[i], out.deliveries[0].notice)
  {
    if !e.hasAccessor then RefreshOutcome(e, Some(NoAccessorError), [])
    else if e.renderer.None? then RefreshOutcome(e, Some(NoRendererError), [])
    else if listed.Err? then RefreshOutcome(e, Some(ListError(listed.msg)), [])
    else
      var r := e.renderer.value;
      var header := r.header(e.region);
      var newData := TableSnapshot.SetHeader(TableSnapshot.NewTableData(), header);
      var rowEvents := BuildRows(r, listed.value, e.region, header);
      var oldEmpty := TableSnapshot.Empty(e.data);
      var notice := if Events.Empty(rowEvents) && !oldEmpty then TableNoData(newData)
                    else TableDataChanged(newData);
      RefreshOutcome(e.(data := newData), None, Deliver(e.listeners, notice))
  }

  /** The notification choice: "no data" exactly when nothing rendered and the previous
      snapshot had rows. */
  lemma RefreshNotice<O>(e: Engine<O>, objects: seq<O>)
    requires e.hasAccessor && e.renderer.Some? && |e.listeners| > 0
    ensures var out := Refresh(e, Ok(objects));
            var r := e.renderer.value;
            var built := BuildRows(r, objects, e.region, r.header(e.region));
            (out.deliveries[0].notice.TableNoData? <==>
               |built.events| == 0 && !TableSnapshot.Empty(e.data))
            && out.deliveries[0].notice.data == out.engine.data
  {
  }

  // ---------------------------------------------------------------------------
  // Reachable states
  // ---------------------------------------------------------------------------

  /** Every state the engine can reach holds a row-less snapshot: it starts empty and only
      Refresh replaces the snapshot, always with a row-less one. */
  predicate Reachable<O>(e: Engine<O>) {
    TableSnapshot.Empty(e.data)
  }

  /** From any reachable state, "no data" is never sent: the previous snapshot is always
      empty, so every successful refresh reports "data changed". */
  lemma NoDataNeverSent<O>(e: Engine<O>, listed: Result<seq<O>>)
    requires Reachable(e)
    ensures Reachable(Refresh(e, listed).engine)
    ensures forall d :: d in Refresh(e, listed).deliveries ==> d.notice.TableDataChanged?
  {
  }

  lemma ReachableInitially<O>(rate: int, r: Renderer<O>, region: string, l: nat)
    ensures Reachable(NewEngine<O>(rate))
    ensures Reachable(SetRenderer(SetAccessor(SetRegion(AddListener(NewEngine<O>(rate), l), region)), r))
  {
  }

  // ---------------------------------------------------------------------------
  // Watching
  // ---------------------------------------------------------------------------

  /** The watch period: a non-positive rate falls back to five seconds. */
  function EffectiveRate(rate: int): (p: int)
    ensures p > 0
    ensures rate > 0 ==> p == rate
  {
    if rate <= 0 then DefaultRefreshRate else rate
  }

  /** Watch: any running watch is cancelled, a new cancel function is installed and the
      first refresh runs. If it fails, listeners hear "load failed", the error is returned,
      the loop is not started and the cancel function stays installed. */
  function Watch<O>(e: Engine<O>, listed: Result<seq<O>>): (out: RefreshOutcome<O>)
    ensures out.engine.cancelSet
    ensures out.err == Refresh(e, listed).err
    ensures out.err.Some? ==> out.deliveries == Deliver(e.listeners, TableLoadFailed(out.err.value))
                              && !out.engine.looping
    ensures out.err.Some? ==> out.engine == e.(cancelSet := true, looping := false)
    ensures out.err.None? ==> out.engine.looping
    ensures out.err.None? ==> out.engine == Refresh(e, listed).engine.(cancelSet := true, looping := true)
                              && out.deliveries == Refresh(e, listed).deliveries
  {
    var started := e.(cancelSet := true, looping := false);
    var first := Refresh(started, listed);
    if first.err.Some? then
      RefreshOutcome(first.engine, first.err, Deliver(first.engine.listeners, TableLoadFailed(first.err.value)))
    else
      RefreshOutcome(first.engine.(looping := true), None, first.deliveries)
  }

  /** One tick of the watch loop: refresh, and on failure tell listeners and keep going. */
  function Tick<O>(e: Engine<O>, listed: Result<seq<O>>): (out: RefreshOutcome<O>)
    ensures out.engine.looping == e.looping
    ensures out.err.Some? ==> out.deliveries == Deliver(e.listeners, TableLoadFailed(out.err.value))
    ensures out.err.Some? ==> out.engine == e
    ensures out.err == Refresh(e, listed).err
    ensures out.err.None? ==> out == Refresh(e, listed)
  {
    var r := Refresh(e, listed);
    if r.err.Some? then RefreshOutcome(r.engine, r.err, Deliver(r.engine.listeners, TableLoadFailed(r.err.value)))
    else r
  }

  /** Watching and ticking keep the engine reachable, and every tick after a watch sends
      either "data changed" or "load failed", never "no data". */
  lemma WatchTickReachable<O>(e: Engine<O>, first: Result<seq<O>>, next: Result<seq<O>>)
    requires Reachable(e)
    ensures Reachable(Watch(e, first).engine)
    ensures var t := Tick(Watch(e, first).engine, next);
            Reachable(t.engine) && forall d :: d in t.deliveries ==> !d.notice.TableNoData?
  {
  }

  /** Stop: an installed cancel function is cleared (the call itself has no modelled effect
      beyond ending the loop); nothing else changes. */
  function Stop<O>(e: Engine<O>): (e': Engine<O>)
    ensures !e'.cancelSet && !e'.looping
    ensures e' == e.(cancelSet := false, looping := false)
  {
    e.(cancelSet := false, looping := false)
  }

  lemma StopIdempotent<O>(e: Engine<O>)
    ensures Stop(Stop(e)) == Stop(e)
  {
  }

  // ---------------------------------------------------------------------------
  // Renderer lookup
  // ---------------------------------------------------------------------------

  datatype RendererKind =
    | EC2Instance | EC2Volume | SecurityGroup | VPC | Subnet | S3Bucket | S3Object
    | IAMUser | IAMRole | IAMPolicy | EKSCluster | EKSNodeGroup

  /** ResourceID.String: "service/resource". */
  function ResourceIDString(service: string, resource: string): string {
    service + "/" + resource
  }

  /** The resource ids that have a renderer. */
  const KnownRendererIds: set<string> := {
    "ec2/instance", "ec2/volume", "ec2/securitygroup", "vpc/vpc", "vpc/subnet",
    "s3/bucket", "s3/object", "iam/user", "iam/role", "iam/policy",
    "eks/cluster", "eks/nodegroup"}

  /** RendererFor: a renderer for each of twelve resource ids; any other id is an error
      naming it. */
  function RendererFor(rid: string): (r: Result<RendererKind>)
    ensures r.Ok? <==> rid in KnownRendererIds
    ensures r.Err? ==> r.msg == "no renderer for resource: " + rid
  {
    match rid
    case "ec2/instance" => Ok(EC2Instance)
    case "ec2/volume" => Ok(EC2Volume)
    case "ec2/securitygroup" => Ok(SecurityGroup)
    case "vpc/vpc" => Ok(VPC)
    case "vpc/subnet" => Ok(Subnet)
    case "s3/bucket" => Ok(S3Bucket)
    case "s3/object" => Ok(S3Object)
    case "iam/user" => Ok(IAMUser)
    case "iam/role" => Ok(IAMRole)
    case "iam/policy" => Ok(IAMPolicy)
    case "eks/cluster" => Ok(EKSCluster)
    case "eks/nodegroup" => Ok(EKSNodeGroup)
    case _ => Err("no renderer for resource: " + rid)
  }

  /** Distinct ids get distinct renderers. */
  lemma RendererForInjective(a: string, b: string)
    requires RendererFor(a).Ok? && RendererFor(b).Ok? && a != b
    ensures RendererFor(a).value != RendererFor(b).value
  {
  }
}

=== FILE: ordering.dfy ===
/** Column comparators and the row validity check (internal/model1/helpers.go). */
module Ordering {
  import opened Strs
  import opened Wrappers
  import opened Rows

  /** The placeholder for a value that does not apply. */
  const NAValue: string := "n/a"

  /** The name of the column that marks a row valid or not. */
  const ValidColName: string := "VALID"

  // ---------------------------------------------------------------------------
  // runesToNum
  // ---------------------------------------------------------------------------

  /** The value of one rune as a digit: its distance from '0' (negative or larger than 9
      for runes that are not digits, as in the source). */
  function DigitValue(c: char): int {
    c as int - '0' as int
  }

  /** runesToNum: the positional decimal value of the runes, most significant first. */
  function RunesToNum(rr: seq<char>): int
  {
    if |rr| == 0 then 0 else RunesToNum(rr[..|rr| - 1]) * 10 + DigitValue(rr[|rr| - 1])
  }

  function Pow10(k: nat): (p: nat)
    ensures p >= 1
  {
    if k == 0 then 1 else 10 * Pow10(k - 1)
  }

  /** A digit string denotes a number below 10 to the power of its length. */
  lemma {:induction false} RunesToNumRange(rr: seq<char>)
    requires forall i :: 0 <= i < |rr| ==> IsDigit(rr[i])
    ensures 0 <= RunesToNum(rr) < Pow10(|rr|)
  {
    if |rr| > 0 {
      RunesToNumRange(rr[..|rr| - 1]);
    }
  }

  /** runesToNum reads back what `strconv.Itoa` writes. */
  lemma {:induction false} RunesToNumOfNatToString(n: nat)
    ensures RunesToNum(NatToString(n)) == n
  {
    if n >= 10 {
      RunesToNumOfNatToString(n / 10);
      var s := NatToString(n);
      assert s[..|s| - 1] == NatToString(n / 10);
    }
  }

  /** One step of the loop's invariant, as plain arithmetic. */
  lemma LoopStep(a: int, d: int, m: int, r: int)
    ensures (a * 10 + d) * m + r == a * (m * 10) + (r + d * m)
  {
  }

  /** The source's loop: digits from the end, with a growing power of ten. */
  method RunesToNumLoop(rr: seq<char>) returns (r: int)
    ensures r == RunesToNum(rr)
  {
    r := 0;
    var m := 1;
    var i := |rr| - 1;
    assert rr[..i + 1] == rr;
    while i >= 0
      invariant -1 <= i < |rr|
      invariant m == Pow10(|rr| - 1 - i)
      invariant RunesToNum(rr) == RunesToNum(rr[..i + 1]) * m + r
    {
      assert rr[..i + 1][..i] == rr[..i];
      LoopStep(RunesToNum(rr[..i]), DigitValue(rr[i]), m, r);
      r := r + DigitValue(rr[i]) * m;
      m := m * 10;
      i := i - 1;
    }
    assert rr[..0] == [];
  }

  // ---------------------------------------------------------------------------
  // durationToSeconds
  // ---------------------------------------------------------------------------

  /** The seconds a unit letter stands for; other runes are part of a number. */
  function UnitSeconds(c: char): Option<int> {
    match c
    case 'y' => Some(365 * 24 * 60 * 60)
    case 'd' => Some(24 * 60 * 60)
    case 'h' => Some(60 * 60)
    case 'm' => Some(60)
    case 's' => Some(1)
    case _ => None
  }

  predicate NoUnit(s: string) {
    forall i :: 0 <= i < |s| ==> UnitSeconds(s[i]).None?
  }

  /** The source's scan: runes that are not unit letters accumulate in `num`; a unit letter
      adds `num`'s value times the unit to the total and empties `num`. Trailing runes
      with no unit after them are dropped. */
  function Scan(s: string, num: seq<char>, total: int): int
  {
    if |s| == 0 then total
    else
      match UnitSeconds(s[0])
      case Some(m) => Scan(s[1..], [], total + RunesToNum(num) * m)
      case None => Scan(s[1..], num + [s[0]], total)
  }

  /** durationToSeconds. */
  function DurationToSeconds(d: string): (n: int)
    ensures d == "" || d == NAValue ==> n == 0
  {
    if d == "" || d == NAValue then 0 else Scan(d, [], 0)
  }

  /** A run of non-unit runes only grows the pending number. */
  lemma {:induction false} ScanDigits(digits: string, rest: string, num: seq<char>, total: int)
    requires NoUnit(digits)
    ensures Scan(digits + rest, num, total) == Scan(rest, num + digits, total)
    decreases |digits|
  {
    if |digits| > 0 {
      var s := digits + rest;
      assert s[0] == digits[0];
      assert UnitSeconds(s[0]).None?;
      assert s[1..] == digits[1..] + rest;
      assert Scan(s, num, total) == Scan(s[1..], num + [s[0]], total);
      assert num + [digits[0]] + digits[1..] == num + digits;
      ScanDigits(digits[1..], rest, num + [digits[0]], total);
    } else {
      assert digits + rest == rest;
      assert num + digits == num;
    }
  }

  /** A number followed by a unit letter adds number × unit and starts afresh. */
  lemma ScanTerm(digits: string, u: char, rest: string, total: int)
    requires NoUnit(digits) && UnitSeconds(u).Some?
    ensures Scan(digits + [u] + rest, [], total)
         == Scan(rest, [], total + RunesToNum(digits) * UnitSeconds(u).value)
  {
    ScanDigits(digits, [u] + rest, [], total);
    assert digits + [u] + rest == digits + ([u] + rest);
    assert ([u] + rest)[1..] == rest;
    assert [] + digits == digits;
  }

  /** Trailing runes with no unit letter after them do not count. */
  lemma ScanTrailing(digits: string, num: seq<char>, total: int)
    requires NoUnit(digits)
    ensures Scan(digits, num, total) == total
  {
    ScanDigits(digits, [], num, total);
    assert digits + [] == digits;
  }

  /** A non-empty run of digits is neither of the strings that mean zero. */
  lemma DigitsNotSpecial(s: string)
    requires |s| > 0 && IsDigit(s[0])
    ensures s != "" && s != NAValue
  {
    assert NAValue[0] == 'n';
  }

  /** A duration written as one term `<n><unit>` is n times the unit's seconds. */
  lemma DurationOfTerm(n: nat, u: char)
    requires UnitSeconds(u).Some?
    ensures DurationToSeconds(NatToString(n) + [u]) == n * UnitSeconds(u).value
  {
    var digits := NatToString(n);
    var s := digits + [u];
    assert s[0] == digits[0];
    DigitsNotSpecial(s);
    assert s + [] == s;
    ScanTerm(digits, u, [], 0);
    RunesToNumOfNatToString(n);
  }

  lemma ScanTwoTerms(da: string, u: char, db: string, v: char)
    requires NoUnit(da) && NoUnit(db) && UnitSeconds(u).Some? && UnitSeconds(v).Some?
    ensures Scan(da + [u] + db + [v], [], 0)
         == RunesToNum(da) * UnitSeconds(u).value + RunesToNum(db) * UnitSeconds(v).value
  {
    var tail := db + [v];
    assert da + [u] + db + [v] == da + [u] + tail;
    ScanTerm(da, u, tail, 0);
    assert tail == db + [v] + [];
    ScanTerm(db, v, [], RunesToNum(da) * UnitSeconds(u).value);
  }

  /** A two-term duration is the sum of its terms, e.g. "1h30m" is 5400 seconds. */
  lemma DurationOfTwoTerms(a: nat, u: char, b: nat, v: char)
    requires UnitSeconds(u).Some? && UnitSeconds(v).Some?
    ensures DurationToSeconds(NatToString(a) + [u] + NatToString(b) + [v])
         == a * UnitSeconds(u).value + b * UnitSeconds(v).value
  {
    var da, db := NatToString(a), NatToString(b);
    var s := da + [u] + db + [v];
    assert DurationToSeconds(s) == Scan(s, [], 0) by {
      assert s[0] == da[0];
      DigitsNotSpecial(s);
    }
    ScanTwoTerms(da, u, db, v);
    RunesToNumOfNatToString(a);
    RunesToNumOfNatToString(b);
  }

  // ---------------------------------------------------------------------------
  // Less
  // ---------------------------------------------------------------------------

  /** Which comparator a column uses; the source's three flags are checked in this order. */
  datatype ColumnKind = Number | Duration | Capacity | Natural

  function KindOf(isNumber: bool, isDuration: bool, isCapacity: bool): ColumnKind {
    if isNumber then Number
    else if isDuration then Duration
    else if isCapacity then Capacity
    else Natural
  }

  /** lessDuration: total seconds compared with `<=`. */
  predicate LessDuration(s1: string, s2: string) {
    DurationToSeconds(s1) <= DurationToSeconds(s2)
  }

  /** lessNumber: thousands separators are dropped before the natural comparison. */
  predicate LessNumber(s1: string, s2: string, natLess: (string, string) -> bool) {
    natLess(RemoveChar(s1, ','), RemoveChar(s2, ','))
  }

  /** Less: equal values are ordered by row id; otherwise the column's comparator decides.
      `natLess` is the natural-order comparison of an external library. */
  function Less(isNumber: bool, isDuration: bool, isCapacity: bool,
                id1: string, id2: string, v1: string, v2: string,
                natLess: (string, string) -> bool): (less: bool)
    ensures v1 == v2 ==> less == natLess(id1, id2)
    ensures v1 != v2 ==> less == match KindOf(isNumber, isDuration, isCapacity)
                                 case Number => LessNumber(v1, v2, natLess)
                                 case Duration => LessDuration(v1, v2)
                                 case Capacity => natLess(v1, v2)
                                 case Natural => natLess(v1, v2)
  {
    var less :=
      if isNumber then LessNumber(v1, v2, natLess)
      else if isDuration then LessDuration(v1, v2)
      else if isCapacity then natLess(v1, v2)
      else natLess(v1, v2);
    if v1 == v2 then natLess(id1, id2) else less
  }

  /** In duration mode two distinct values are always comparable one way or the other,
      and values of equal length in seconds compare as less in both directions. */
  lemma DurationLessTotal(v1: string, v2: string, id1: string, id2: string,
                          natLess: (string, string) -> bool)
    requires v1 != v2
    ensures Less(false, true, false, id1, id2, v1, v2, natLess)
         || Less(false, true, false, id2, id1, v2, v1, natLess)
    ensures DurationToSeconds(v1) == DurationToSeconds(v2) ==>
              Less(false, true, false, id1, id2, v1, v2, natLess)
              && Less(false, true, false, id2, id1, v2, v1, natLess)
  {
  }

  /** "90m" sorts before "5h", which sorts before "2d"; "60s" and "1m" each sort before
      the other. */
  lemma DurationExamples(natLess: (string, string) -> bool)
    ensures DurationToSeconds("90m") == 5400
    ensures DurationToSeconds("5h") == 18000
    ensures DurationToSeconds("2d") == 172800
    ensures Less(false, true, false, "a", "b", "90m", "5h", natLess)
    ensures !Less(false, true, false, "a", "b", "5h", "90m", natLess)
    ensures Less(false, true, false, "a", "b", "5h", "2d", natLess)
    ensures !Less(false, true, false, "a", "b", "2d", "5h", natLess)
    ensures Less(false, true, false, "a", "b", "60s", "1m", natLess)
    ensures Less(false, true, false, "b", "a", "1m", "60s", natLess)
  {
    DurationOfTerm(90, 'm');
    DurationOfTerm(5, 'h');
    DurationOfTerm(2, 'd');
    DurationOfTerm(60, 's');
    DurationOfTerm(1, 'm');
    assert NatToString(90) == "90";
    assert NatToString(60) == "60";
    assert NatToString(5) == "5";
    assert NatToString(2) == "2";
    assert NatToString(1) == "1";
    assert "90" + ['m'] == "90m";
    assert "60" + ['s'] == "60s";
  }

  /** Commas do not count in number mode: "1,000" and "1000" compare as the library
      compares "1000" with itself. */
  lemma NumberIgnoresCommas(natLess: (string, string) -> bool)
    ensures Less(true, false, false, "a", "b", "1,000", "1000", natLess) == natLess("1000", "1000")
  {
    assert RemoveChar("1,000", ',') == "1000";
    assert RemoveChar("1000", ',') == "1000";
  }

  // ---------------------------------------------------------------------------
  // IsValid
  // ---------------------------------------------------------------------------

  /** A VALID cell that accepts the row: blank after trimming, or "true" in any case. */
  predicate AcceptsRow(cell: string) {
    var val := TrimSpace(cell);
    val == "" || ToLower(val) == "true"
  }

  /** Column `i` is the first one called VALID. */
  predicate FirstValidColumn(h: Header, i: int) {
    0 <= i < |h| && h[i].name == ValidColName
    && forall j :: 0 <= j < i ==> h[j].name != ValidColName
  }

  /** IsValid: a row is valid unless its VALID cell holds something other than blanks or
      "true" in any letter case. */
  function IsValid(h: Header, r: Row): (ok: bool)
    ensures |r.fields| == 0 ==> ok
    ensures Rows.IndexOf(h, ValidColName, true).None? ==> ok
  {
    if |r.fields| == 0 then true
    else
      match Rows.IndexOf(h, ValidColName, true)
      case None => true
      case Some(idx) =>
        if idx >= |r.fields| then true
        else AcceptsRow(r.fields[idx])
  }

  /** A row is invalid exactly when the first VALID column exists within the row and its
      cell does not accept the row. */
  lemma IsValidMeaning(h: Header, r: Row)
    ensures !IsValid(h, r) <==>
      exists i :: FirstValidColumn(h, i) && i < |r.fields| && !AcceptsRow(r.fields[i])
  {
    var o := Rows.IndexOf(h, ValidColName, true);
    if o.Some? {
      assert FirstValidColumn(h, o.value);
    }
  }

  /** " TRUE " counts as valid: the padding is trimmed and the case ignored. */
  lemma PaddedTrueAccepted()
    ensures AcceptsRow(" TRUE ")
  {
    var t := " TRUE ";
    TrimLeftSpace(t);
    assert t[1..] == "TRUE ";
    TrimSpaceNoop("TRUE");
    TrimRightSpace("TRUE ");
    assert "TRUE "[..4] == "TRUE";
    assert TrimSpace(t) == "TRUE";
    var l := ToLower("TRUE");
    assert l[0] == 't' && l[1] == 'r' && l[2] == 'u' && l[3] == 'e';
    assert l == "true";
  }

  /** "false" does not count as valid. */
  lemma FalseRejected()
    ensures !AcceptsRow("false")
  {
    TrimSpaceNoop("false");
    assert |ToLower("false")| == 5;
  }
}

=== FILE: presentation.dfy ===
/** The table views (internal/ui/resource_table.go and internal/ui/table.go): the
    stored full snapshot, case-insensitive filtering, sort-column cycling, the
    filter-input keys and the mark set. Widget drawing is reduced to a `Screen` value
    saying what the table shows. */
module Presentation {
  import opened Wrappers
  import opened Strs
  import opened Rows
  import Events
  import TS = TableSnapshot
  import Engine

  const NoMatchingMsg := "No matching resources"
  const NoResourcesMsg := "No resources found"
  const LoadingMsg := "Loading..."

  /** What the table widget shows. */
  datatype Screen =
    | NoData(msg: string)
    | ErrorShown(msg: string)
    | LoadFailed(err: string)
    | Showing(header: Header, rows: seq<Row>)

  /** The state both table views keep. `sortCol` and `filterActive` belong to the
      generic table only; the resource table never touches them. */
  datatype View = View(
    header: Header,
    sortColName: string,
    sortCol: Option<HeaderColumn>,
    filterText: string,
    filterActive: bool,
    fullData: Option<TS.TableData>,
    isUpdating: bool,
    marks: set<string>,
    screen: Screen)

  /** A freshly initialised table: nothing stored, showing the loading message. */
  function NewView(): (v: View)
    ensures v.fullData.None? && !v.isUpdating && v.marks == {} && v.filterText == ""
    ensures !v.filterActive && v.screen == NoData(LoadingMsg)
  {
    View([], "", None, "", false, None, false, {}, NoData(LoadingMsg))
  }

  // ---------------------------------------------------------------------------
  // Filtering
  // ---------------------------------------------------------------------------

  /** The inner loop over a row's fields: does any of them, lower-cased, contain the
      (lower-cased) filter? */
  predicate AnyFieldContains(fields: seq<string>, filter: string) {
    |fields| > 0 && (Contains(ToLower(fields[0]), filter) || AnyFieldContains(fields[1..], filter))
  }

  /** A row event passes a filter when one of its fields does. */
  predicate Matches(e: Events.RowEvent, filter: string) {
    AnyFieldContains(e.row.fields, filter)
  }

  /** The loop finds a field exactly when there is one. */
  lemma {:induction false} AnyFieldContainsMeaning(fields: seq<string>, filter: string)
    ensures AnyFieldContains(fields, filter) <==>
            exists i :: 0 <= i < |fields| && Contains(ToLower(fields[i]), filter)
  {
    if |fields| > 0 {
      AnyFieldContainsMeaning(fields[1..], filter);
      if AnyFieldContains(fields[1..], filter) {
        var i :| 0 <= i < |fields[1..]| && Contains(ToLower(fields[1..][i]), filter);
        assert fields[i + 1] == fields[1..][i];
      }
      if exists i :: 0 <= i < |fields| && Contains(ToLower(fields[i]), filter) {
        var i :| 0 <= i < |fields| && Contains(ToLower(fields[i]), filter);
        if i > 0 {
          assert fields[1..][i - 1] == fields[i];
        }
      }
    }
  }

  /** The events that pass, in their original order: the reference definition. */
  function FilterEvents(es: seq<Events.RowEvent>, filter: string): (kept: seq<Events.RowEvent>)
    ensures |kept| <= |es|
    ensures forall e :: e in kept <==> e in es && Matches(e, filter)
  {
    if |es| == 0 then []
    else
      var init := FilterEvents(es[..|es| - 1], filter);
      assert es == es[..|es| - 1] + [es[|es| - 1]];
      if Matches(es[|es| - 1], filter) then init + [es[|es| - 1]] else init
  }

  /** Filtering distributes over concatenation, so the relative order of the kept
      events is the order they had. */
  lemma {:induction false} FilterEventsAppend(a: seq<Events.RowEvent>, b: seq<Events.RowEvent>, filter: string)
    ensures FilterEvents(a + b, filter) == FilterEvents(a, filter) + FilterEvents(b, filter)
    decreases |b|
  {
    if |b| == 0 {
      assert a + b == a;
    } else {
      var bi := b[..|b| - 1];
      assert (a + b)[..|a + b| - 1] == a + bi;
      assert (a + b)[|a + b| - 1] == b[|b| - 1];
      FilterEventsAppend(a, bi, filter);
    }
  }

  /** When every event passes, nothing is dropped. */
  lemma {:induction false} FilterEventsAllPass(es: seq<Events.RowEvent>, filter: string)
    requires forall i :: 0 <= i < |es| ==> Matches(es[i], filter)
    ensures FilterEvents(es, filter) == es
  {
    if |es| > 0 {
      FilterEventsAllPass(es[..|es| - 1], filter);
      assert es == es[..|es| - 1] + [es[|es| - 1]];
    }
  }

  /** The source's range loop: each passing event is added to the collection in turn. */
  function FilterInto(r: Events.RowEvents, es: seq<Events.RowEvent>, filter: string): (r': Events.RowEvents)
    ensures r'.events == r.events + FilterEvents(es, filter)
    decreases |es|
  {
    if |es| == 0 then r
    else
      var passed := if Matches(es[0], filter) then [es[0]] else [];
      var rest := FilterInto(AddIfMatches(r, es[0], filter), es[1..], filter);
      FilterEventsCons(es, filter);
      AppendAssoc(r.events, passed, FilterEvents(es[1..], filter));
      rest
  }

  /** One turn of the loop: the event is added when it passes. */
  function AddIfMatches(r: Events.RowEvents, e: Events.RowEvent, filter: string): (r': Events.RowEvents)
    ensures r'.events == r.events + (if Matches(e, filter) then [e] else [])
    ensures Events.Consistent(r) ==> Events.Consistent(r')
  {
    if Matches(e, filter) then Events.Add(r, e) else r
  }

  /** Filtering looked at from the front: the first event, then the rest. */
  lemma FilterEventsCons(es: seq<Events.RowEvent>, filter: string)
    requires |es| > 0
    ensures FilterEvents(es, filter) == (if Matches(es[0], filter) then [es[0]] else []) + FilterEvents(es[1..], filter)
  {
    assert es == [es[0]] + es[1..];
    FilterEventsAppend([es[0]], es[1..], filter);
    FilterEventsOne(es[0], filter);
  }

  /** The loop keeps the collection's index in step with its events. */
  lemma {:induction false} FilterIntoConsistent(r: Events.RowEvents, es: seq<Events.RowEvent>, filter: string)
    requires Events.Consistent(r)
    ensures Events.Consistent(FilterInto(r, es, filter))
    decreases |es|
  {
    if |es| > 0 {
      FilterIntoConsistent(AddIfMatches(r, es[0], filter), es[1..], filter);
    }
  }

  lemma FilterEventsOne(e: Events.RowEvent, filter: string)
    ensures FilterEvents([e], filter) == if Matches(e, filter) then [e] else []
  {
    assert [e][..0] == [];
  }

  /** The filtered snapshot: a new table with the full data's header and namespace,
      holding the passing rows. */
  function Filtered(data: TS.TableData, filter: string): (f: TS.TableData)
    ensures f.header == data.header && f.namespace == data.namespace && !TS.HasError(f)
    ensures f.rows.events == FilterEvents(data.rows.events, filter)
    ensures Events.Consistent(f.rows)
  {
    var base := TS.SetNamespace(TS.SetHeader(TS.NewTableData(), data.header), data.namespace);
    FilterIntoConsistent(base.rows, data.rows.events, filter);
    base.(rows := FilterInto(base.rows, data.rows.events, filter))
  }

  /** The rows of a sequence of events, in order. */
  function RowsOf(es: seq<Events.RowEvent>): (rs: seq<Row>)
    ensures |rs| == |es|
    ensures forall i :: 0 <= i < |es| ==> rs[i] == es[i].row
  {
    seq(|es|, i requires 0 <= i < |es| => es[i].row)
  }

  /** renderData: an empty snapshot shows the no-match message and keeps the old header;
      otherwise the header is taken over and every row is shown in order. */
  function RenderData(v: View, data: TS.TableData): (r: View)
    ensures TS.Empty(data) ==> r == v.(screen := NoData(NoMatchingMsg))
    ensures !TS.Empty(data) ==>
              r == v.(header := data.header, screen := Showing(data.header, RowsOf(data.rows.events)))
  {
    if TS.Empty(data) then v.(screen := NoData(NoMatchingMsg))
    else v.(header := data.header, screen := Showing(data.header, RowsOf(data.rows.events)))
  }

  /** applyFilter: nothing happens without stored data; the stored data itself is never
      changed, nor is the filter text, the sort column or the marks. */
  function ApplyFilter(v: View): (r: View)
    ensures v.fullData.None? ==> r == v
    ensures r.fullData == v.fullData && r.filterText == v.filterText
    ensures r.filterActive == v.filterActive && r.isUpdating == v.isUpdating
    ensures r.marks == v.marks && r.sortColName == v.sortColName && r.sortCol == v.sortCol
  {
    if v.fullData.None? then v
    else
      var filter := ToLower(v.filterText);
      if filter == "" then RenderData(v, v.fullData.value)
      else RenderData(v, Filtered(v.fullData.value, filter))
  }

  /** What an applied filter shows: with an empty filter every stored row; otherwise
      exactly the rows with a field containing the lower-cased filter, in order, under
      the stored header, or the no-match message when none passes. */
  lemma ApplyFilterScreen(v: View)
    requires v.fullData.Some?
    ensures var d := v.fullData.value;
            var kept := if v.filterText == "" then d.rows.events
                        else FilterEvents(d.rows.events, ToLower(v.filterText));
            ApplyFilter(v).screen
              == if |kept| == 0 then NoData(NoMatchingMsg) else Showing(d.header, RowsOf(kept))
  {
  }

  /** A row is shown under a non-empty filter iff some field contains the filter,
      ignoring ASCII case on both sides. */
  lemma FilterShowsIff(v: View, e: Events.RowEvent)
    requires v.fullData.Some? && v.filterText != ""
    ensures var kept := FilterEvents(v.fullData.value.rows.events, ToLower(v.filterText));
            e in kept <==> e in v.fullData.value.rows.events
                           && exists i :: 0 <= i < |e.row.fields|
                                && Contains(ToLower(e.row.fields[i]), ToLower(v.filterText))
  {
    AnyFieldContainsMeaning(e.row.fields, ToLower(v.filterText));
  }

  lemma LowerUpperChar(c: char)
    ensures LowerChar(UpperChar(c)) == LowerChar(c)
  {
  }

  /** Typing the filter in upper case shows the same thing. */
  lemma FilterCaseInsensitive(v: View, f: string)
    ensures ApplyFilter(v.(filterText := ToUpper(f))).screen == ApplyFilter(v.(filterText := f)).screen
  {
    forall i | 0 <= i < |f|
      ensures ToLower(ToUpper(f))[i] == ToLower(f)[i]
    {
      LowerUpperChar(f[i]);
    }
    assert ToLower(ToUpper(f)) == ToLower(f);
  }

  /** SetFilter: store the text and re-apply. */
  function SetFilter(v: View, filter: string): (r: View)
    ensures r.filterText == filter && r.fullData == v.fullData && r.marks == v.marks
    ensures v.fullData.None? ==> r == v.(filterText := filter)
  {
    ApplyFilter(v.(filterText := filter))
  }

  /** ClearFilter: with stored data, every stored row is shown again. */
  function ClearFilter(v: View): (r: View)
    ensures r.filterText == "" && r.fullData == v.fullData
    ensures v.fullData.Some? ==> r == RenderData(v.(filterText := ""), v.fullData.value)
  {
    SetFilter(v, "")
  }

  // ---------------------------------------------------------------------------
  // Sort-column cycling
  // ---------------------------------------------------------------------------

  /** The position of the first column named `name`, or -1. */
  function CurrentSortIndex(h: Header, name: string): (i: int)
    ensures -1 <= i < |h|
    ensures i >= 0 ==> h[i].name == name && forall j :: 0 <= j < i ==> h[j].name != name
    ensures i == -1 ==> forall j :: 0 <= j < |h| ==> h[j].name != name
  {
    if |h| == 0 then -1
    else if h[0].name == name then 0
    else
      var k := CurrentSortIndex(h[1..], name);
      if k == -1 then -1 else k + 1
  }

  /** The column after the current one, wrapping round; the first column when none is
      current. */
  function NextSortIndex(h: Header, name: string): (n: nat)
    requires |h| > 0
    ensures n < |h|
    ensures n == (CurrentSortIndex(h, name) + 1) % |h|
    ensures CurrentSortIndex(h, name) == -1 ==> n == 0
  {
    (CurrentSortIndex(h, name) + 1) % |h|
  }

  /** The resource table's sort key: an empty header leaves the view unchanged. */
  function SortResourceTable(v: View): (r: View)
    ensures |v.header| == 0 ==> r == v
    ensures |v.header| > 0 ==> r == v.(sortColName := v.header[NextSortIndex(v.header, v.sortColName)].name)
  {
    if |v.header| == 0 then v
    else v.(sortColName := v.header[NextSortIndex(v.header, v.sortColName)].name)
  }

  /** The generic table's sort key: name and column are set to the same next column. */
  function SortTable(v: View): (r: View)
    ensures |v.header| == 0 ==> r == v
    ensures |v.header| > 0 ==> r.sortCol.Some? && r.sortCol.value.name == r.sortColName
    ensures |v.header| > 0 ==> r.sortCol == Some(v.header[NextSortIndex(v.header, v.sortColName)])
    ensures r.header == v.header && r.screen == v.screen && r.fullData == v.fullData
  {
    if |v.header| == 0 then v
    else
      var n := NextSortIndex(v.header, v.sortColName);
      v.(sortColName := v.header[n].name, sortCol := Some(v.header[n]))
  }

  predicate UniqueNames(h: Header) {
    forall i, j :: 0 <= i < j < |h| ==> h[i].name != h[j].name
  }

  /** With distinct column names the sort key steps to the next column, wrapping from
      the last to the first. */
  lemma SortStep(v: View, i: nat)
    requires UniqueNames(v.header) && i < |v.header| && v.sortColName == v.header[i].name
    ensures SortResourceTable(v).sortColName
            == v.header[if i + 1 < |v.header| then i + 1 else 0].name
  {
    var h := v.header;
    var cur := CurrentSortIndex(h, v.sortColName);
    assert h[i].name == v.sortColName;
    assert cur == i;
    ModNext(i, |h|);
  }

  lemma ModNext(i: nat, n: nat)
    requires i < n
    ensures (i + 1) % n == if i + 1 < n then i + 1 else 0
  {
  }

  /** Pressing the sort key `k` times. */
  function SortTimes(v: View, k: nat): (r: View)
    ensures r.header == v.header
  {
    if k == 0 then v else SortResourceTable(SortTimes(v, k - 1))
  }

  lemma {:induction false} SortTimesPosition(v: View, i: nat, k: nat)
    requires UniqueNames(v.header) && i < |v.header| && v.sortColName == v.header[i].name
    requires k <= |v.header|
    ensures SortTimes(v, k).sortColName
            == v.header[if i + k < |v.header| then i + k else i + k - |v.header|].name
  {
    if k > 0 {
      SortTimesPosition(v, i, k - 1);
      var p := if i + k - 1 < |v.header| then i + k - 1 else i + k - 1 - |v.header|;
      SortStep(SortTimes(v, k - 1), p);
    }
  }

  /** With distinct names, pressing the sort key once per column comes back to the
      starting column. */
  lemma SortFullCycle(v: View, i: nat)
    requires UniqueNames(v.header) && i < |v.header| && v.sortColName == v.header[i].name
    ensures SortTimes(v, |v.header|).sortColName == v.sortColName
  {
    var n := |v.header|;
    SortTimesPosition(v, i, n);
    var j := if i + n < n then i + n else i + n - n;
    assert j == i;
    assert SortTimes(v, n).sortColName == v.header[j].name;
  }

  // ---------------------------------------------------------------------------
  // Updates from the model
  // ---------------------------------------------------------------------------

  /** The resource table's UpdateUI: ignored while an update is in progress; otherwise
      the data is stored, and an error, an absent or empty snapshot, an active filter or
      the plain rows are shown, in that order of precedence. */
  function UpdateResourceTable(v: View, data: Option<TS.TableData>): (r: View)
    ensures v.isUpdating ==> r == v
    ensures !v.isUpdating ==> r.fullData == data && !r.isUpdating && r.marks == v.marks
    ensures !v.isUpdating && data.Some? && TS.HasError(data.value) ==> r.screen == ErrorShown(data.value.errMsg)
    ensures !v.isUpdating && (data.None? || (!TS.HasError(data.value) && TS.Empty(data.value)))
            ==> r.screen == NoData(NoResourcesMsg)
  {
    if v.isUpdating then v
    else
      var s := v.(fullData := data);
      if data.Some? && TS.HasError(data.value) then s.(screen := ErrorShown(data.value.errMsg))
      else if data.None? || TS.Empty(data.value) then s.(screen := NoData(NoResourcesMsg))
      else if v.filterText != "" then ApplyFilter(s)
      else RenderData(s, data.value)
  }

  /** The generic table's UpdateUI: the same without the error check. */
  function UpdateTable(v: View, data: Option<TS.TableData>): (r: View)
    ensures v.isUpdating ==> r == v
    ensures !v.isUpdating ==> r.fullData == data && !r.isUpdating && r.marks == v.marks
    ensures !v.isUpdating && (data.None? || TS.Empty(data.value)) ==> r.screen == NoData(NoResourcesMsg)
  {
    if v.isUpdating then v
    else
      var s := v.(fullData := data);
      if data.None? || TS.Empty(data.value) then s.(screen := NoData(NoResourcesMsg))
      else if v.filterText != "" then ApplyFilter(s)
      else RenderData(s, data.value)
  }

  /** A non-empty, error-free update shows what re-applying the current filter to it
      shows, so a later filter change works from that same stored snapshot. */
  lemma UpdateThenFilter(v: View, d: TS.TableData)
    requires !v.isUpdating && !TS.HasError(d) && !TS.Empty(d)
    ensures UpdateResourceTable(v, Some(d)) == ApplyFilter(v.(fullData := Some(d)))
  {
  }

  /** The resource table as a listener of the refresh engine. */
  function OnNotice(v: View, n: Engine.Notice): (r: View)
    ensures n.TableDataChanged? ==> r == UpdateResourceTable(v, Some(n.data))
    ensures n.TableNoData? ==> r == v.(screen := NoData(NoResourcesMsg))
    ensures n.TableLoadFailed? ==> r.screen == LoadFailed(n.err) && r.fullData == v.fullData
  {
    match n
    case TableDataChanged(d) => UpdateResourceTable(v, Some(d))
    case TableNoData(_) => v.(screen := NoData(NoResourcesMsg))
    case TableLoadFailed(err) => v.(screen := LoadFailed(err))
  }

  // ---------------------------------------------------------------------------
  // Marks
  // ---------------------------------------------------------------------------

  /** ToggleMark on the selected item: an empty selection does nothing; otherwise the
      item's membership flips and no other item changes. */
  function ToggleMark(v: View, item: string): (r: View)
    ensures item == "" ==> r == v
    ensures item != "" ==> (IsMarked(r, item) <==> !IsMarked(v, item))
    ensures forall x :: x != item ==> (IsMarked(r, x) <==> IsMarked(v, x))
    ensures r.fullData == v.fullData && r.screen == v.screen && r.filterText == v.filterText
  {
    if item == "" then v
    else if item in v.marks then v.(marks := v.marks - {item})
    else v.(marks := v.marks + {item})
  }

  predicate IsMarked(v: View, item: string) {
    item in v.marks
  }

  /** Toggling the same item twice restores the marks. */
  lemma ToggleTwice(v: View, item: string)
    ensures ToggleMark(ToggleMark(v, item), item) == v
  {
    if item != "" {
      if item in v.marks {
        assert v.marks - {item} + {item} == v.marks;
      } else {
        assert v.marks + {item} - {item} == v.marks;
      }
    }
  }

  function ClearMarks(v: View): (r: View)
    ensures forall x :: !IsMarked(r, x)
    ensures r.fullData == v.fullData && r.screen == v.screen
  {
    v.(marks := {})
  }

  // ---------------------------------------------------------------------------
  // Cell colours
  // ---------------------------------------------------------------------------

  datatype Color = Green | Red | Yellow | Orange | Aqua | SteelBlue | White

  const RunningValues: set<string> := {"running", "active", "available", "attached", "enabled", "in-use", "completed"}
  const StoppedValues: set<string> := {"stopped", "terminated", "failed", "error", "deleted", "detached"}
  const TransitionValues: set<string> := {"pending", "starting", "stopping", "updating", "creating", "deleting", "modifying"}

  predicate IsStateColumn(col: string) {
    ToUpper(col) == "STATE" || ToUpper(col) == "STATUS"
  }

  /** cellColor: state columns colour their value by class (case-insensitively), a
      non-blank NAME is aqua, ID is steel blue, and everything else white. */
  function CellColor(col: string, value: string): (c: Color)
    ensures c == Green <==> IsStateColumn(col) && ToLower(value) in RunningValues
    ensures c == Red <==> IsStateColumn(col) && ToLower(value) in StoppedValues
    ensures c == Yellow <==> IsStateColumn(col) && ToLower(value) in TransitionValues
    ensures c == Orange <==> IsStateColumn(col) && ToLower(value) == "shutting-down"
    ensures c == Aqua <==> ToUpper(col) == "NAME" && value != "" && value != "-"
    ensures c == SteelBlue <==> ToUpper(col) == "ID"
  {
    var colUpper := ToUpper(col);
    var valLower := ToLower(value);
    if IsStateColumn(col) && valLower in RunningValues then Green
    else if IsStateColumn(col) && valLower in StoppedValues then Red
    else if IsStateColumn(col) && valLower in TransitionValues then Yellow
    else if IsStateColumn(col) && valLower == "shutting-down" then Orange
    else if colUpper == "NAME" && value != "" && value != "-" then Aqua
    else if colUpper == "ID" then SteelBlue
    else White
  }

  /** The colour classes do not overlap, and the column name is matched case-blind. */
  lemma CellColorExamples()
    ensures CellColor("State", "Running") == Green
    ensures CellColor("status", "STOPPED") == Red
    ensures CellColor("STATE", "pending") == Yellow
    ensures CellColor("state", "shutting-down") == Orange
    ensures CellColor("Name", "-") == White && CellColor("Name", "web") == Aqua
    ensures CellColor("id", "i-1") == SteelBlue && CellColor("TYPE", "running") == White
  {
    assert ToUpper("State") == "STATE";
    assert ToLower("Running") == "running";
    assert ToUpper("status") == "STATUS";
    assert ToLower("STOPPED") == "stopped";
    assert ToUpper("STATE") == "STATE";
    assert ToLower("pending") == "pending";
    assert ToUpper("state") == "STATE";
    assert ToLower("shutting-down") == "shutting-down";
    assert ToUpper("Name") == "NAME";
    assert ToUpper("id") == "ID";
    assert ToUpper("TYPE") == "TYPE";
  }

  // ---------------------------------------------------------------------------
  // Filter input on the generic table
  // ---------------------------------------------------------------------------

  /** The keys the filter prompt distinguishes; one character stands for one byte of
      the filter text. Enter, Esc and the two Backspace keys have their own constructors;
      `OtherKey` stands for every other tcell key code, and a value such as `OtherKey(13)`
      or `OtherKey(27)` does not describe a key tcell reports. */
  datatype Key = Esc | Enter | Backspace | Backspace2 | Rune(c: char) | OtherKey(code: int)

  /** handleFilterInput: returns the new view and whether the key was consumed. */
  function HandleFilterInput(v: View, k: Key): (r: (View, bool))
    ensures k.Esc? ==> r.0 == ApplyFilter(v.(filterActive := false, filterText := "")) && r.1
    ensures k.Enter? ==> r.0 == v.(filterActive := false) && r.1
    ensures (k.Backspace? || k.Backspace2?) ==>
              r.1 && !r.0.filterActive == !v.filterActive
              && r.0.filterText == (if |v.filterText| > 0 then v.filterText[..|v.filterText| - 1] else "")
    ensures k.Rune? ==> r.1 && r.0.filterText == v.filterText + [k.c] && r.0.filterActive == v.filterActive
    ensures k.OtherKey? ==> r == (v, false)
    ensures r.0.fullData == v.fullData && r.0.marks == v.marks
  {
    match k
    case Esc => (ApplyFilter(v.(filterActive := false, filterText := "")), true)
    case Enter => (v.(filterActive := false), true)
    case Backspace => (ApplyFilter(v.(filterText := DropLast(v.filterText))), true)
    case Backspace2 => (ApplyFilter(v.(filterText := DropLast(v.filterText))), true)
    case Rune(c) => (ApplyFilter(v.(filterText := v.filterText + [c])), true)
    case OtherKey(_) => (v, false)
  }

  function DropLast(s: string): (r: string)
    ensures |s| > 0 ==> r == s[..|s| - 1]
    ensures |s| == 0 ==> r == ""
  {
    if |s| > 0 then s[..|s| - 1] else s
  }

  /** A typed character followed by a backspace restores the filter text. */
  lemma RuneThenBackspace(v: View, c: char)
    ensures HandleFilterInput(HandleFilterInput(v, Rune(c)).0, Backspace).0.filterText == v.filterText
  {
    assert (v.filterText + [c])[..|v.filterText|] == v.filterText;
  }

  // tcell's codes for the keys the tables look at.
  const KeyBackspace := 8
  const KeyEnter := 13
  const KeyCtrlS := 19
  const KeyEsc := 27
  const KeySlash := 47
  const KeyBackspace2 := 127
  const KeyUp := 257
  const KeyDown := 258
  const KeyHome := 268
  const KeyEnd := 269

  /** The vim-style letters and the arrow keys: they move the selection (not modelled)
      and are always consumed. */
  predicate Navigation(k: Key) {
    (k.Rune? && k.c in "jkgG") || (k.OtherKey? && k.code in {KeyUp, KeyDown, KeyHome, KeyEnd})
  }

  /** The code an action is looked up under: a rune's own code point, otherwise the
      key's code. */
  function ActionKey(k: Key): int {
    match k
    case Esc => KeyEsc
    case Enter => KeyEnter
    case Backspace => KeyBackspace
    case Backspace2 => KeyBackspace2
    case Rune(c) => c as int
    case OtherKey(code) => code
  }

  /** The generic table's action map: sort, select, filter and clear filter. */
  const TableBindings: set<int> := {KeyCtrlS, KeyEnter, KeySlash, KeyEsc}

  /** The generic table's action for a bound key; every handler returns nil. */
  function TableAction(v: View, key: int): (r: View)
    requires key in TableBindings
  {
    if key == KeyCtrlS then SortTable(v)
    else if key == KeySlash then OpenFilter(v)
    else if key == KeyEsc then ClearFilterKey(v)
    else v
  }

  /** The generic table's keyboard: with the prompt open every key goes to the prompt;
      otherwise navigation is consumed, a bound key runs its action, and any other key
      is passed on untouched. */
  function Keyboard(v: View, k: Key): (r: (View, bool))
    ensures v.filterActive ==> r == HandleFilterInput(v, k)
    ensures !v.filterActive ==> (r.1 <==> Navigation(k) || ActionKey(k) in TableBindings)
    ensures !v.filterActive && !r.1 ==> r.0 == v
    ensures !v.filterActive && !Navigation(k) && ActionKey(k) == KeySlash ==> r.0 == OpenFilter(v)
    ensures !v.filterActive && !Navigation(k) && ActionKey(k) == KeyEsc ==> r.0 == ClearFilterKey(v)
    ensures !v.filterActive && !Navigation(k) && ActionKey(k) == KeyCtrlS ==> r.0 == SortTable(v)
    ensures r.0.fullData == v.fullData && r.0.marks == v.marks
    ensures r.0.filterActive <==>
              (v.filterActive && !k.Esc? && !k.Enter?) || (!v.filterActive && !Navigation(k) && ActionKey(k) == KeySlash)
  {
    if v.filterActive then HandleFilterInput(v, k)
    else if Navigation(k) then (v, true)
    else if ActionKey(k) in TableBindings then (TableAction(v, ActionKey(k)), true)
    else (v, false)
  }

  /** The resource table's keyboard: no filter prompt; navigation is consumed, Ctrl-S
      steps the sort column, Enter selects, and any other key is passed on. */
  function ResourceKeyboard(v: View, k: Key): (r: (View, bool))
    ensures r.1 <==> Navigation(k) || ActionKey(k) in {KeyCtrlS, KeyEnter}
    ensures r.0 == (if !Navigation(k) && ActionKey(k) == KeyCtrlS then SortResourceTable(v) else v)
  {
    if Navigation(k) then (v, true)
    else if ActionKey(k) == KeyCtrlS then (SortResourceTable(v), true)
    else if ActionKey(k) == KeyEnter then (v, true)
    else (v, false)
  }

  /** '/' on the closed table opens the prompt, and Esc there shows every stored row
      again. */
  lemma SlashThenEscShowsAll(v: View)
    requires !v.filterActive && v.fullData.Some?
    ensures Keyboard(v, Rune('/')).0.filterActive && Keyboard(v, Rune('/')).1
    ensures Keyboard(Keyboard(v, Rune('/')).0, Esc).0.screen == RenderData(v, v.fullData.value).screen
  {
    assert !Navigation(Rune('/'));
    OpenThenEscShowsAll(v);
  }

  /** Pressing Ctrl-S on the resource table once per column comes back to the starting
      sort column. */
  lemma {:induction false} SortKeyTimes(v: View, k: nat)
    ensures ResourceKeyTimes(v, k) == SortTimes(v, k)
  {
    if k > 0 {
      SortKeyTimes(v, k - 1);
      assert !Navigation(OtherKey(KeyCtrlS));
    }
  }

  /** Pressing Ctrl-S `k` times on the resource table. */
  function ResourceKeyTimes(v: View, k: nat): View {
    if k == 0 then v else ResourceKeyboard(ResourceKeyTimes(v, k - 1), OtherKey(KeyCtrlS)).0
  }

  /** filterHandler: open the prompt with empty text, without re-applying. */
  function OpenFilter(v: View): (r: View)
    ensures r.filterActive && r.filterText == ""
    ensures r.screen == v.screen && r.fullData == v.fullData
  {
    v.(filterActive := true, filterText := "")
  }

  /** clearFilterHandler: always leaves the prompt closed and empty, re-applying only
      when a filter was open or set. */
  function ClearFilterKey(v: View): (r: View)
    ensures !r.filterActive && r.filterText == "" && r.fullData == v.fullData
    ensures !v.filterActive && v.filterText == "" ==> r == v
    ensures v.filterActive || v.filterText != "" ==> r == ApplyFilter(v.(filterActive := false, filterText := ""))
  {
    var wasActive := v.filterActive || v.filterText != "";
    var s := v.(filterActive := false, filterText := "");
    if wasActive then ApplyFilter(s) else s
  }

  /** Opening the prompt and pressing Esc shows every stored row. */
  lemma OpenThenEscShowsAll(v: View)
    requires v.fullData.Some?
    ensures HandleFilterInput(OpenFilter(v), Esc).0.screen
            == RenderData(v, v.fullData.value).screen
  {
  }
}

=== FILE: profile_dir.dfy ===
/** Where per-profile configuration lives (internal/config/data/helpers.go and dir.go):
    one directory per profile and region, named "{profile}-{region}" after both names
    are made safe for the file system, and the inverse parse used when listing them. */
module ProfileDir {
  import opened Wrappers
  import opened Strs

  /** The characters the sanitiser's pattern `[:/]+` matches. */
  predicate Invalid(c: char) {
    c == ':' || c == '/'
  }

  predicate Clean(s: string) {
    forall i :: 0 <= i < |s| ==> !Invalid(s[i])
  }

  /** The text after a leading run of invalid characters. */
  function DropInvalid(s: string): (r: string)
    ensures |r| <= |s|
  {
    if |s| > 0 && Invalid(s[0]) then DropInvalid(s[1..]) else s
  }

  /** SanitizeFileName: every maximal run of ':' and '/' becomes one "-". */
  function SanitizeFileName(s: string): (r: string)
    ensures Clean(r)
    ensures Clean(s) ==> r == s
    ensures |r| <= |s|
    decreases |s|
  {
    if |s| == 0 then ""
    else if Invalid(s[0]) then "-" + SanitizeFileName(DropInvalid(s[1..]))
    else [s[0]] + SanitizeFileName(s[1..])
  }

  /** Sanitising twice is sanitising once. */
  lemma SanitizeIdempotent(s: string)
    ensures SanitizeFileName(SanitizeFileName(s)) == SanitizeFileName(s)
  {
  }

  /** Skipping a leading run only looks as far as the first valid character. */
  lemma {:induction false} DropInvalidAppend(x: string, y: string)
    requires |x| > 0 && !Invalid(x[|x| - 1])
    ensures DropInvalid(x + y) == DropInvalid(x) + y
  {
    if Invalid(x[0]) {
      assert |x| > 1;
      assert x[1..][|x| - 2] == x[|x| - 1];
      assert (x + y)[1..] == x[1..] + y;
      DropInvalidAppend(x[1..], y);
    }
  }

  lemma DropInvalidRun(run: string, b: string)
    requires forall i :: 0 <= i < |run| ==> Invalid(run[i])
    requires b == [] || !Invalid(b[0])
    ensures DropInvalid(run + b) == b
    decreases |run|
  {
    if |run| > 0 {
      assert (run + b)[1..] == run[1..] + b;
      DropInvalidRun(run[1..], b);
    } else {
      assert run + b == b;
    }
  }

  /** A run of invalid characters between two valid neighbours becomes exactly one
      "-", and the text on either side is sanitised independently. */
  lemma {:induction false} SanitizeRun(a: string, run: string, b: string)
    requires a == [] || !Invalid(a[|a| - 1])
    requires |run| > 0 && forall i :: 0 <= i < |run| ==> Invalid(run[i])
    requires b == [] || !Invalid(b[0])
    ensures SanitizeFileName(a + run + b) == SanitizeFileName(a) + "-" + SanitizeFileName(b)
    decreases |a|, 1
  {
    if |a| == 0 {
      SanitizeRunAlone(run, b);
      assert a + run + b == run + b;
    } else if !Invalid(a[0]) {
      SanitizeRunValidHead(a, run, b);
    } else {
      SanitizeRunInvalidHead(a, run, b);
    }
  }

  lemma {:induction false} SanitizeRunValidHead(a: string, run: string, b: string)
    requires |a| > 0 && !Invalid(a[0]) && !Invalid(a[|a| - 1])
    requires |run| > 0 && forall i :: 0 <= i < |run| ==> Invalid(run[i])
    requires b == [] || !Invalid(b[0])
    ensures SanitizeFileName(a + run + b) == SanitizeFileName(a) + "-" + SanitizeFileName(b)
    decreases |a|, 0
  {
    var s := a + run + b;
    var t := a[1..];
    assert s[1..] == t + run + b;
    assert t == [] || t[|t| - 1] == a[|a| - 1];
    SanitizeRun(t, run, b);
    assert SanitizeFileName(s) == [a[0]] + SanitizeFileName(t + run + b);
    assert SanitizeFileName(a) == [a[0]] + SanitizeFileName(t);
    var x, y := SanitizeFileName(t), SanitizeFileName(b);
    AppendAssoc([a[0]], x + "-", y);
    AppendAssoc([a[0]], x, "-");
  }

  lemma {:induction false} SanitizeRunInvalidHead(a: string, run: string, b: string)
    requires |a| > 0 && Invalid(a[0]) && !Invalid(a[|a| - 1])
    requires |run| > 0 && forall i :: 0 <= i < |run| ==> Invalid(run[i])
    requires b == [] || !Invalid(b[0])
    ensures SanitizeFileName(a + run + b) == SanitizeFileName(a) + "-" + SanitizeFileName(b)
    decreases |a|, 0
  {
    var t := a[1..];
    var d := DropInvalid(t);
    DropAfterInvalidHead(a, run + b);
    assert a + (run + b) == a + run + b;
    assert d + (run + b) == d + run + b;
    SanitizeRun(d, run, b);
    SanitizeInvalidHead(a + run + b);
    SanitizeInvalidHead(a);
    var x, y := SanitizeFileName(d), SanitizeFileName(b);
    AppendAssoc("-", x + "-", y);
    AppendAssoc("-", x, "-");
  }

  lemma SanitizeInvalidHead(x: string)
    requires |x| > 0 && Invalid(x[0])
    ensures SanitizeFileName(x) == "-" + SanitizeFileName(DropInvalid(x[1..]))
  {
  }

  /** After an invalid first character of `a`, the skipped run ends inside `a` when
      `a` ends with a valid character. */
  lemma DropAfterInvalidHead(a: string, rest: string)
    requires |a| > 1 && !Invalid(a[|a| - 1])
    ensures DropInvalid((a + rest)[1..]) == DropInvalid(a[1..]) + rest
    ensures |DropInvalid(a[1..])| > 0 && !Invalid(DropInvalid(a[1..])[|DropInvalid(a[1..])| - 1])
  {
    var t := a[1..];
    assert t[|t| - 1] == a[|a| - 1];
    DropInvalidKeepsLast(t);
    DropInvalidAppend(t, rest);
    assert (a + rest)[1..] == t + rest;
  }

  lemma {:induction false} DropInvalidKeepsLast(t: string)
    requires |t| > 0 && !Invalid(t[|t| - 1])
    ensures |DropInvalid(t)| > 0 && DropInvalid(t)[|DropInvalid(t)| - 1] == t[|t| - 1]
  {
    if Invalid(t[0]) {
      assert |t| > 1;
      assert t[1..][|t| - 2] == t[|t| - 1];
      DropInvalidKeepsLast(t[1..]);
    }
  }

  lemma SanitizeRunAlone(run: string, b: string)
    requires |run| > 0 && forall i :: 0 <= i < |run| ==> Invalid(run[i])
    requires b == [] || !Invalid(b[0])
    ensures SanitizeFileName(run + b) == "-" + SanitizeFileName(b)
  {
    assert (run + b)[0] == run[0];
    assert (run + b)[1..] == run[1..] + b;
    DropInvalidRun(run[1..], b);
    SanitizeInvalidHead(run + b);
  }

  /** SanitizeProfileSubpath: the directory name for a profile and region. */
  function SanitizeProfileSubpath(profile: string, region: string): (sub: string)
    ensures Clean(sub) && '-' in sub
    ensures |sub| <= |profile| + 1 + |region|
  {
    var p := SanitizeFileName(profile);
    var joined := p + "-" + SanitizeFileName(region);
    assert joined[|p|] == '-';
    joined
  }

  /** parseProfileSubpath: the profile is everything before the LAST "-", the region
      everything after it; both must be non-empty, else ("", ""). */
  function ParseProfileSubpath(sub: string): (r: (string, string))
    ensures r == ("", "") || (r.0 != "" && r.1 != "" && '-' !in r.1 && sub == r.0 + "-" + r.1)
    ensures '-' !in sub ==> r == ("", "")
  {
    var i := LastIndexOf(sub, '-');
    if i <= 0 then ("", "")
    else
      var profile := sub[..i];
      var region := sub[i + 1..];
      if profile == "" || region == "" then ("", "")
      else
        assert sub == profile + "-" + region;
        (profile, region)
  }

  /** A directory name with a "-" after a non-empty profile and before a "-"-free,
      non-empty region parses back to its two halves. */
  lemma ParseJoined(profile: string, region: string)
    requires profile != "" && region != "" && '-' !in region
    ensures ParseProfileSubpath(profile + "-" + region) == (profile, region)
  {
    LastIndexOfAt(profile, region, '-');
    var s := profile + "-" + region;
    assert s[..|profile|] == profile && s[|profile| + 1..] == region;
  }

  /** Round trip: for a profile that sanitises to something non-empty and a region
      that is non-empty, clean and free of "-", listing finds the sanitised profile and
      the region itself. */
  lemma SubpathRoundTrip(profile: string, region: string)
    requires SanitizeFileName(profile) != ""
    requires region != "" && Clean(region) && '-' !in region
    ensures ParseProfileSubpath(SanitizeProfileSubpath(profile, region)) == (SanitizeFileName(profile), region)
  {
    ParseJoined(SanitizeFileName(profile), region);
  }

  /** Real region names contain "-" ("us-east-1"), so they do not survive the round
      trip: the last "-" of the region is taken as the separator, and the rest of the
      region is glued onto the profile. */
  lemma RegionWithDashSplitsWrong(profile: string, head: string, tail: string)
    requires profile != "" && Clean(profile) && Clean(head) && Clean(tail)
    requires tail != "" && '-' !in tail
    ensures ParseProfileSubpath(SanitizeProfileSubpath(profile, head + "-" + tail)) == (profile + "-" + head, tail)
  {
    var region := head + "-" + tail;
    assert Clean(region) by {
      forall i | 0 <= i < |region|
        ensures !Invalid(region[i])
      {
        if i < |head| {
          assert region[i] == head[i];
        } else if i > |head| {
          assert region[i] == tail[i - |head| - 1];
        }
      }
    }
    assert SanitizeProfileSubpath(profile, region) == (profile + "-" + head) + "-" + tail;
    ParseJoined(profile + "-" + head, tail);
  }

  /** `filepath.Join(root, sub)` for a one-element `sub`; the root is taken as already
      clean. */
  function JoinPath(root: string, sub: string): (p: string)
    requires sub != "" && '/' !in sub
    ensures AfterLast(p, '/') == sub
    ensures root == "" ==> p == sub
    ensures root != "" ==> p == (if HasSuffix(root, "/") then root else root + "/") + sub
  {
    if root == "" then sub
    else if HasSuffix(root, "/") then
      assert root == root[..|root| - 1] + ['/'];
      AfterLastAt(root[..|root| - 1], sub, '/');
      root + sub
    else
      AfterLastAt(root, sub, '/');
      root + "/" + sub
  }

  /** ProfilePath: the profile's directory under the root. */
  function ProfilePath(root: string, profile: string, region: string): (p: string)
    ensures AfterLast(p, '/') == SanitizeProfileSubpath(profile, region)
    ensures root == "" ==> p == SanitizeProfileSubpath(profile, region)
    ensures root != "" ==> HasPrefix(p, root)
    ensures root != "" && !HasSuffix(root, "/") ==> p == root + "/" + SanitizeProfileSubpath(profile, region)
    ensures root != "" && HasSuffix(root, "/") ==> p == root + SanitizeProfileSubpath(profile, region)
  {
    JoinPath(root, SanitizeProfileSubpath(profile, region))
  }

  /** ConfigPath, HotkeysPath and AliasesPath: a named file inside that directory. */
  function ProfileFile(root: string, profile: string, region: string, file: string): (p: string)
    requires file != "" && '/' !in file
    ensures AfterLast(p, '/') == file
    ensures p == ProfilePath(root, profile, region) + "/" + file
  {
    var dir := ProfilePath(root, profile, region);
    assert !HasSuffix(dir, "/") by {
      assert HasSuffix(dir, SanitizeProfileSubpath(profile, region));
      var sub := SanitizeProfileSubpath(profile, region);
      assert dir[|dir| - 1] == sub[|sub| - 1];
    }
    JoinPath(dir, file)
  }

  // ---------------------------------------------------------------------------
  // Listing saved profiles
  // ---------------------------------------------------------------------------

  /** What `os.Stat` said about a directory's config.yaml. */
  datatype ConfigStat = Present | Absent | StatFailed(msg: string)

  datatype Entry = Entry(name: string, isDir: bool, config: ConfigStat)

  /** The directory entry a listed profile came from. */
  ghost predicate Listed(entries: seq<Entry>, pr: (string, string)) {
    exists j :: 0 <= j < |entries| && Qualifies(entries[j]) && ParseProfileSubpath(entries[j].name) == pr
  }

  /** A directory holding a config.yaml. */
  predicate Qualifies(e: Entry) {
    e.isDir && e.config == Present
  }

  /** A directory whose config.yaml could not be examined. */
  predicate Unreadable(e: Entry) {
    e.isDir && e.config.StatFailed?
  }

  /** What one directory entry contributes: the parsed pair of a qualifying directory
      whose name splits into two non-empty halves. */
  function Candidate(e: Entry): (c: Option<(string, string)>)
    ensures c.Some? ==> Qualifies(e) && c.value == ParseProfileSubpath(e.name)
    ensures c.Some? ==> c.value.0 != "" && c.value.1 != ""
  {
    var pr := ParseProfileSubpath(e.name);
    if Qualifies(e) && pr.0 != "" && pr.1 != "" then Some(pr) else None
  }

  /** The loop's successful result: the parsable names of the qualifying directories,
      in directory order. */
  function Profiles(entries: seq<Entry>): (ps: seq<(string, string)>)
    ensures |ps| <= |entries|
    ensures forall k :: 0 <= k < |ps| ==> ps[k].0 != "" && ps[k].1 != ""
  {
    if |entries| == 0 then []
    else
      var c := Candidate(entries[0]);
      var rest := Profiles(entries[1..]);
      if c.Some? then [c.value] + rest else rest
  }

  /** A pair listed from the tail is listed from the whole. */
  lemma ListedShift(entries: seq<Entry>, pr: (string, string))
    requires |entries| > 0 && Listed(entries[1..], pr)
    ensures Listed(entries, pr)
  {
    var j :| 0 <= j < |entries[1..]| && Qualifies(entries[1..][j]) && ParseProfileSubpath(entries[1..][j].name) == pr;
    assert entries[j + 1] == entries[1..][j];
  }

  /** Every listed pair comes from a qualifying directory whose name parses to it. */
  lemma {:induction false} ProfilesListed(entries: seq<Entry>)
    ensures forall k :: 0 <= k < |Profiles(entries)| ==> Listed(entries, Profiles(entries)[k])
  {
    if |entries| > 0 {
      var tail := entries[1..];
      ProfilesListed(tail);
      forall k | 0 <= k < |Profiles(tail)|
        ensures Listed(entries, Profiles(tail)[k])
      {
        ListedShift(entries, Profiles(tail)[k]);
      }
      var c := Candidate(entries[0]);
      if c.Some? {
        assert Profiles(entries) == [c.value] + Profiles(tail);
        assert Listed(entries, c.value);
      } else {
        assert Profiles(entries) == Profiles(tail);
      }
    }
  }

  /** Every qualifying directory whose name parses is listed. */
  lemma {:induction false} ProfilesComplete(entries: seq<Entry>, j: int)
    requires 0 <= j < |entries| && Qualifies(entries[j])
    requires ParseProfileSubpath(entries[j].name).0 != "" && ParseProfileSubpath(entries[j].name).1 != ""
    ensures ParseProfileSubpath(entries[j].name) in Profiles(entries)
  {
    if j > 0 {
      assert entries[1..][j - 1] == entries[j];
      ProfilesComplete(entries[1..], j - 1);
    }
  }

  /** The message of the first directory whose config.yaml could not be examined. */
  function FirstStatFailure(entries: seq<Entry>): (m: Option<string>)
    ensures m.None? <==> forall j :: 0 <= j < |entries| ==> !Unreadable(entries[j])
    ensures m.Some? ==> exists j :: 0 <= j < |entries| && Unreadable(entries[j]) && m.value == entries[j].config.msg
                                    && forall i :: 0 <= i < j ==> !Unreadable(entries[i])
  {
    if |entries| == 0 then None
    else if Unreadable(entries[0]) then Some(entries[0].config.msg)
    else
      var m := FirstStatFailure(entries[1..]);
      assert forall j :: 1 <= j < |entries| ==> entries[j] == entries[1..][j - 1];
      if m.Some? then
        ghost var j :| 0 <= j < |entries[1..]| && Unreadable(entries[1..][j]) && m.value == entries[1..][j].config.msg
                       && forall i :: 0 <= i < j ==> !Unreadable(entries[1..][i]);
        assert Unreadable(entries[j + 1]) && forall i :: 0 <= i < j + 1 ==> !Unreadable(entries[i]);
        m
      else m
  }

  /** ListProfiles: a failed read of the root is reported; the first directory whose
      config.yaml cannot be examined aborts the listing; otherwise the pairs of the
      qualifying directories, in directory order. */
  function ListProfiles(read: Result<seq<Entry>>): (r: Result<seq<(string, string)>>)
    ensures read.Err? ==> r == Err("failed to read profiles directory: " + read.msg)
    ensures read.Ok? && FirstStatFailure(read.value).Some? ==>
              r == Err("failed to stat config file: " + FirstStatFailure(read.value).value)
    ensures read.Ok? ==> (r.Ok? <==> forall j :: 0 <= j < |read.value| ==> !Unreadable(read.value[j]))
    ensures r.Ok? ==> read.Ok? && r.value == Profiles(read.value)
  {
    if read.Err? then Err("failed to read profiles directory: " + read.msg)
    else
      match FirstStatFailure(read.value)
      case Some(msg) => Err("failed to stat config file: " + msg)
      case None => Ok(Profiles(read.value))
  }
}

=== FILE: region.dfy ===
/** The region registry (internal/aws/region.go): a name-to-info map plus the
    ordered list of names, seeded with a fixed fallback list and rebuilt from a
    DescribeRegions response. The lock and the refresh timestamp are left out;
    the EC2 client is reduced to whether one is present and what it answered. */
module Region {
  import opened Wrappers

  const RegionAll := "all"
  const DefaultRegion := "us-east-1"
  const GlobalRegion := "global"
  const NotOptedIn := "not-opted-in"

  /** Services whose API lives in one place whatever region is asked for. */
  const GlobalServices: set<string> := {"iam", "s3", "route53"}

  /** The hard-coded regions a fresh manager knows, in listing order. */
  const FallbackRegions: seq<string> := [
    "us-east-1", "us-east-2", "us-west-1", "us-west-2", "eu-west-1", "eu-west-2",
    "eu-central-1", "ap-northeast-1", "ap-northeast-2", "ap-southeast-1", "ap-southeast-2",
    "ap-south-1", "ca-central-1", "sa-east-1", "af-south-1", "eu-north-1", "me-south-1",
    "ap-east-1"]

  datatype RegionInfo = RegionInfo(name: string, description: string, optInStatus: string, enabled: bool)

  datatype RegionManager = RegionManager(regions: map<string, RegionInfo>, regionList: seq<string>)

  /** One entry of a DescribeRegions answer; either field may be nil. */
  datatype Described = Described(regionName: Option<string>, optInStatus: Option<string>)

  /** Go's %q for the names this registry sees (no characters needing escapes). */
  function Quote(s: string): string {
    "\"" + s + "\""
  }

  /** Every listed name is in the map and every mapped info is filed under its own name. */
  ghost predicate Consistent(m: RegionManager) {
    (forall k :: k in m.regions <==> k in m.regionList) &&
    (forall k :: k in m.regions ==> m.regions[k].name == k)
  }

  /** NewRegionManager's loop over a list of names: each becomes an enabled entry. */
  function Seed(names: seq<string>): (m: RegionManager)
    ensures m.regionList == names
    ensures Consistent(m)
    ensures forall k :: k in m.regions ==> m.regions[k] == RegionInfo(k, "", "", true)
    decreases |names|
  {
    if |names| == 0 then RegionManager(map[], [])
    else
      var init := names[..|names| - 1];
      var n := names[|names| - 1];
      var m := Seed(init);
      var m' := RegionManager(m.regions[n := RegionInfo(n, "", "", true)], m.regionList + [n]);
      assert names == init + [n];
      assert forall k :: k in m'.regionList <==> k in m.regionList || k == n;
      assert forall k :: k in m'.regions <==> k in m.regions || k == n;
      m'
  }

  function NewRegionManager(): (m: RegionManager)
    ensures m.regionList == FallbackRegions
    ensures Consistent(m)
    ensures forall k :: k in m.regions ==> m.regions[k].enabled
  {
    Seed(FallbackRegions)
  }

  /** A fresh manager lists eighteen regions, the default one first. */
  lemma FreshManagerShape()
    ensures |ListRegions(NewRegionManager())| == 18
    ensures ListRegions(NewRegionManager())[0] == DefaultRegion
    ensures DefaultRegion in NewRegionManager().regions
  {
  }

  /** ListRegions hands out a copy of the list; values are immutable here, so the copy is the list. */
  function ListRegions(m: RegionManager): seq<string> {
    m.regionList
  }

  /** GetRegion: the stored info, or a "not found" error naming the region. */
  function GetRegion(m: RegionManager, name: string): (r: Result<RegionInfo>)
    ensures r.Ok? <==> name in m.regions
    ensures r.Ok? ==> r.value == m.regions[name]
    ensures r.Err? ==> r.msg == "region " + Quote(name) + " not found"
  {
    if name in m.regions then Ok(m.regions[name]) else Err("region " + Quote(name) + " not found")
  }

  /** ValidateRegion: "all" and "global" always pass, anything else must be known. */
  function ValidateRegion(m: RegionManager, region: string): (r: Outcome)
    ensures r.Pass? <==> region == RegionAll || region == GlobalRegion || region in m.regions
    ensures r.Fail? ==> r.msg == "invalid region: " + Quote(region)
  {
    if region == RegionAll || region == GlobalRegion then Pass
    else if region !in m.regions then Fail("invalid region: " + Quote(region))
    else Pass
  }

  function IsGlobalService(service: string): (b: bool)
    ensures b <==> service == "iam" || service == "s3" || service == "route53"
  {
    service in GlobalServices
  }

  /** ResolveRegion: global services go to the default region; otherwise the request
      stands ("all" included), and an empty request falls back to the caller's default. */
  function ResolveRegion(service: string, requested: string, defaultRegion: string): (r: string)
    ensures IsGlobalService(service) ==> r == DefaultRegion
    ensures !IsGlobalService(service) && requested == "" ==> r == defaultRegion
    ensures !IsGlobalService(service) && requested != "" ==> r == requested
  {
    if IsGlobalService(service) then DefaultRegion
    else if requested == RegionAll then requested
    else if requested == "" then defaultRegion
    else requested
  }

  /** Resolving never produces a region the manager would reject, provided the
      request and the caller's default are themselves acceptable. */
  lemma ResolvedValidates(m: RegionManager, service: string, requested: string, defaultRegion: string)
    requires DefaultRegion in m.regions
    requires ValidateRegion(m, defaultRegion).Pass?
    requires requested == "" || ValidateRegion(m, requested).Pass?
    ensures ValidateRegion(m, ResolveRegion(service, requested, defaultRegion)).Pass?
  {
  }

  /** The info DiscoverRegions files for a named entry: the description repeats the name,
      a nil opt-in status reads as "", and only "not-opted-in" disables the region. */
  function InfoOf(d: Described, name: string): (info: RegionInfo)
    ensures info.name == name && info.description == name
    ensures !info.enabled <==> d.optInStatus == Some(NotOptedIn)
  {
    RegionInfo(name, name, d.optInStatus.GetOr(""),
               d.optInStatus.None? || d.optInStatus.value != NotOptedIn)
  }

  const NilNameMsg := "region name must not be nil in DescribeRegions response"

  /** The rebuild loop of DiscoverRegions, starting from an empty registry: entries are
      added in order (a repeated name is listed again at each occurrence, and its info is
      the last one), and a nil name stops the loop with an error, keeping what was added
      before it. */
  function Rebuild(ds: seq<Described>): (r: (RegionManager, Outcome))
    ensures |r.0.regionList| <= |ds|
    ensures forall i :: 0 <= i < |r.0.regionList| ==> ds[i].regionName == Some(r.0.regionList[i])
    ensures r.1.Pass? <==> forall i :: 0 <= i < |ds| ==> ds[i].regionName.Some?
    ensures r.1.Pass? ==> |r.0.regionList| == |ds|
    ensures r.1.Fail? ==> r.1.msg == NilNameMsg && ds[|r.0.regionList|].regionName.None?
    ensures forall k :: k in r.0.regions <==> k in r.0.regionList
    decreases |ds|
  {
    if |ds| == 0 then (RegionManager(map[], []), Pass)
    else
      var prev := Rebuild(ds[..|ds| - 1]);
      var d := ds[|ds| - 1];
      if prev.1.Fail? then prev
      else if d.regionName.None? then (prev.0, Fail(NilNameMsg))
      else
        var n := d.regionName.value;
        (RegionManager(prev.0.regions[n := InfoOf(d, n)], prev.0.regionList + [n]), Pass)
  }

  /** DiscoverRegions: no client or a failed call leaves the registry alone; otherwise it
      is replaced by the rebuilt one, even when the rebuild stops at a nil name. */
  function DiscoverRegions(m: RegionManager, hasClient: bool, response: Result<seq<Described>>): (r: (RegionManager, Outcome))
    ensures !hasClient ==> r == (m, Fail("ec2Client cannot be nil"))
    ensures hasClient && response.Err? ==> r == (m, Fail("failed to describe regions: " + response.msg))
    ensures hasClient && response.Ok? ==> r == Rebuild(response.value)
  {
    if !hasClient then (m, Fail("ec2Client cannot be nil"))
    else if response.Err? then (m, Fail("failed to describe regions: " + response.msg))
    else Rebuild(response.value)
  }

  /** The info a successful discovery files under a name is the one built from the last
      response entry with that name. */
  lemma {:induction false} DiscoveredInfoIsLast(ds: seq<Described>, i: int)
    requires forall j :: 0 <= j < |ds| ==> ds[j].regionName.Some?
    requires 0 <= i < |ds|
    requires forall j :: i < j < |ds| ==> ds[j].regionName != ds[i].regionName
    ensures ds[i].regionName.value in Rebuild(ds).0.regions
    ensures Rebuild(ds).0.regions[ds[i].regionName.value] == InfoOf(ds[i], ds[i].regionName.value)
    decreases |ds|
  {
    var init := ds[..|ds| - 1];
    if i < |ds| - 1 {
      DiscoveredInfoIsLast(init, i);
    }
  }

  /** Hence a region whose last entry says "not-opted-in" is known but disabled, and
      every other named region is enabled. */
  lemma DiscoveredEnabled(ds: seq<Described>, i: int)
    requires forall j :: 0 <= j < |ds| ==> ds[j].regionName.Some?
    requires 0 <= i < |ds|
    requires forall j :: i < j < |ds| ==> ds[j].regionName != ds[i].regionName
    ensures ValidateRegion(Rebuild(ds).0, ds[i].regionName.value).Pass?
    ensures GetRegion(Rebuild(ds).0, ds[i].regionName.value).Ok?
    ensures !GetRegion(Rebuild(ds).0, ds[i].regionName.value).value.enabled
            <==> ds[i].optInStatus == Some(NotOptedIn)
  {
    DiscoveredInfoIsLast(ds, i);
  }

  /** A response whose first entry has no name wipes the fallback regions: afterwards
      even the default region fails validation. */
  lemma NilNameForgetsDefault(rest: seq<Described>)
    ensures DiscoverRegions(NewRegionManager(), true, Ok([Described(None, None)] + rest)).1.Fail?
    ensures ValidateRegion(DiscoverRegions(NewRegionManager(), true, Ok([Described(None, None)] + rest)).0,
                           DefaultRegion).Fail?
  {
    var ds := [Described(None, None)] + rest;
    assert ds[0].regionName.None?;
    var r := Rebuild(ds);
    assert |r.0.regionList| == 0;
  }
}

=== FILE: render_helpers.dfy ===
/** Formatting helpers shared by the resource renderers (internal/render/aws_helpers.go
    and the placeholder constants of internal/render/types.go). Durations and times are
    nanosecond counts; optional AWS fields are `Option` values, `None` for nil. */
module RenderHelpers {
  import opened Wrappers
  import opened Strs
  import Ordering

  const MissingValue := "<none>"
  const NAValue := "n/a"
  const UnknownValue := "<unknown>"

  const Second: int := 1000000000

  // ---------------------------------------------------------------------------
  // Durations
  // ---------------------------------------------------------------------------

  /** HumanDuration: below one second "0s"; more than 365 whole days the whole years;
      otherwise the largest non-zero of whole days, the hour of the day, the minute of
      the hour, and finally the second of the minute. */
  function HumanDuration(d: int): (s: string)
    ensures d < Second ==> s == "0s"
    ensures d >= Second && d / Second / 86400 > 365 ==> s == NatToString(d / Second / 86400 / 365) + "y"
    ensures d >= Second && 0 < d / Second / 86400 <= 365 ==> s == NatToString(d / Second / 86400) + "d"
    ensures d >= Second && d / Second / 86400 == 0 && d / Second / 3600 > 0 ==> s == NatToString(d / Second / 3600) + "h"
    ensures d >= Second && d / Second / 3600 == 0 && d / Second / 60 > 0 ==> s == NatToString(d / Second / 60) + "m"
    ensures d >= Second && d / Second / 60 == 0 ==> s == NatToString(d / Second) + "s"
  {
    if d < Second then "0s"
    else
      var secs := d / Second;
      var days := secs / 86400;
      var hours := (secs / 3600) % 24;
      var minutes := (secs / 60) % 60;
      var seconds := secs % 60;
      if days > 365 then NatToString(days / 365) + "y"
      else if days > 0 then NatToString(days) + "d"
      else if hours > 0 then NatToString(hours) + "h"
      else if minutes > 0 then NatToString(minutes) + "m"
      else NatToString(seconds) + "s"
  }

  /** The unit letter a formatted duration ends with. */
  function UnitOf(s: string): (u: char)
    requires |s| > 0
  {
    s[|s| - 1]
  }

  lemma YearsBound(secs: nat)
    requires secs / 86400 > 365
    ensures var y := secs / 86400 / 365;
            y * 31536000 <= secs < y * 31536000 + 31536000
  {
    var days := secs / 86400;
    var y := days / 365;
    assert days * 86400 <= secs < days * 86400 + 86400;
    assert y * 365 <= days < y * 365 + 365;
    assert y * 365 * 86400 <= days * 86400;
    assert days * 86400 + 86400 <= y * 365 * 86400 + 365 * 86400 by {
      assert days + 1 <= y * 365 + 365;
    }
  }

  /** Reading a formatted age back with the AGE comparator's parser gives the elapsed
      whole seconds rounded down to the printed unit: never more, and less by under one
      unit. */
  lemma HumanDurationReadBack(d: int)
    requires d >= Second
    ensures var s := HumanDuration(d);
            var back := Ordering.DurationToSeconds(s);
            var unit := Ordering.UnitSeconds(UnitOf(s));
            unit.Some? && back <= d / Second < back + unit.value
  {
    var secs := d / Second;
    var days := secs / 86400;
    var s := HumanDuration(d);
    if days > 365 {
      var y := days / 365;
      assert s == NatToString(y) + ['y'];
      Ordering.DurationOfTerm(y, 'y');
      YearsBound(secs);
    } else if days > 0 {
      assert s == NatToString(days) + ['d'];
      Ordering.DurationOfTerm(days, 'd');
    } else {
      assert secs < 86400;
      var hours := secs / 3600;
      assert (secs / 3600) % 24 == hours;
      if hours > 0 {
        assert s == NatToString(hours) + ['h'];
        Ordering.DurationOfTerm(hours, 'h');
      } else {
        var minutes := secs / 60;
        assert (secs / 60) % 60 == minutes;
        if minutes > 0 {
          assert s == NatToString(minutes) + ['m'];
          Ordering.DurationOfTerm(minutes, 'm');
        } else {
          assert secs % 60 == secs;
          assert s == NatToString(secs) + ['s'];
          Ordering.DurationOfTerm(secs, 's');
        }
      }
    }
  }

  /** ToAge: an absent or zero time is unknown; otherwise the age at `now`. */
  function ToAge(t: Option<int>, now: int): (s: string)
    ensures t.None? || t == Some(0) ==> s == UnknownValue
    ensures t.Some? && t.value != 0 ==> s == HumanDuration(now - t.value)
  {
    if t.None? || t.value == 0 then UnknownValue else HumanDuration(now - t.value)
  }

  // ---------------------------------------------------------------------------
  // Placeholders and optional values
  // ---------------------------------------------------------------------------

  /** Missing: the placeholder for "", the text itself otherwise. */
  function Missing(s: string): (r: string)
    ensures r != ""
    ensures s != "" ==> r == s
    ensures s == "" ==> r == MissingValue
  {
    if s == "" then MissingValue else s
  }

  /** NA: "n/a" for "", the text itself otherwise. */
  function NA(s: string): (r: string)
    ensures r != ""
    ensures s != "" ==> r == s
    ensures s == "" ==> r == NAValue
  {
    if s == "" then NAValue else s
  }

  /** Substituting a placeholder twice is the same as once. */
  lemma PlaceholdersIdempotent(s: string)
    ensures Missing(Missing(s)) == Missing(s) && NA(NA(s)) == NA(s)
  {
  }

  function BoolToYesNo(b: bool): (s: string)
    ensures s == "Yes" <==> b
    ensures s == "No" <==> !b
  {
    if b then "Yes" else "No"
  }

  /** BoolPtrToYesNo: "n/a" exactly for nil. */
  function BoolPtrToYesNo(b: Option<bool>): (s: string)
    ensures s == NAValue <==> b.None?
    ensures b.Some? ==> s == BoolToYesNo(b.value)
  {
    if b.None? then NAValue else BoolToYesNo(b.value)
  }

  function StrPtrToStr(s: Option<string>): (r: string)
    ensures s.None? ==> r == ""
    ensures s.Some? ==> r == s.value
  {
    if s.None? then "" else s.value
  }

  /** A decimal rendering is never the "n/a" placeholder. */
  lemma DecimalIsNotNA(i: int)
    ensures IntToString(i) != NAValue
  {
    var s := IntToString(i);
    if i >= 0 {
      assert IsDigit(s[0]);
    } else {
      assert s[0] == '-';
    }
  }

  /** Int32PtrToStr: "n/a" exactly for nil, the decimal value otherwise. */
  function Int32PtrToStr(i: Option<int>): (s: string)
    ensures s == NAValue <==> i.None?
    ensures i.Some? ==> s == IntToString(i.value)
  {
    if i.None? then NAValue
    else
      DecimalIsNotNA(i.value);
      IntToString(i.value)
  }

  /** Int64PtrToStr: the same for 64-bit values. */
  function Int64PtrToStr(i: Option<int>): (s: string)
    ensures s == NAValue <==> i.None?
    ensures i.Some? ==> s == IntToString(i.value)
  {
    Int32PtrToStr(i)
  }

  /** FormatSizeGB: "<n> GiB". */
  function FormatSizeGB(n: int): (s: string)
    ensures HasSuffix(s, " GiB") && s[..|s| - 4] == IntToString(n)
  {
    IntToString(n) + " GiB"
  }

  /** GetTag: the tag's value, or "" when the key is absent. */
  function GetTag(tags: map<string, string>, key: string): (v: string)
    ensures key in tags ==> v == tags[key]
    ensures key !in tags ==> v == ""
  {
    if key in tags then tags[key] else ""
  }

  /** ExtractNameTag: the "Name" tag. */
  function ExtractNameTag(tags: map<string, string>): (v: string)
    ensures "Name" in tags ==> v == tags["Name"]
    ensures "Name" !in tags ==> v == ""
  {
    GetTag(tags, "Name")
  }

  // ---------------------------------------------------------------------------
  // Truncate and JoinStrings
  // ---------------------------------------------------------------------------

  /** Truncate on bytes: the text itself when it fits; the first `max` bytes when
      `max` is at most 3; otherwise the first `max - 3` bytes and "...". A negative
      `max` makes the source's slice expression panic, so it is excluded. */
  function Truncate(s: string, max: int): (r: string)
    requires max >= 0
    ensures |s| <= max ==> r == s
    ensures |s| > max && max <= 3 ==> r == s[..max]
    ensures |s| > max && max > 3 ==> r == s[..max - 3] + "..."
  {
    if |s| <= max then s
    else if max <= 3 then s[..max]
    else s[..max - 3] + "..."
  }

  /** The result never exceeds `max` bytes, a long text is cut to exactly `max`, and a
      second truncation to the same width changes nothing. */
  lemma TruncateBound(s: string, max: int)
    requires max >= 0
    ensures |Truncate(s, max)| == if |s| <= max then |s| else max
    ensures |s| <= max || max <= 3 ==> Truncate(s, max) == s[..|Truncate(s, max)|]
    ensures |s| > max > 3 ==> Truncate(s, max)[..max - 3] == s[..max - 3] && HasSuffix(Truncate(s, max), "...")
    ensures Truncate(Truncate(s, max), max) == Truncate(s, max)
  {
  }

  /** JoinStrings: the non-empty parts joined with `sep`. */
  function JoinStrings(sep: string, ss: seq<string>): (r: string)
    ensures (forall i :: 0 <= i < |ss| ==> ss[i] == "") ==> r == ""
  {
    var ps := NonEmpty(ss);
    if |ps| == 0 then ""
    else
      assert ps[0] in ps;
      Join(ps, sep)
  }

  /** Splitting the result at a one-character separator that no part contains gives
      back exactly the non-empty parts, in order: empty parts leave no trace. */
  lemma JoinStringsSplit(c: char, ss: seq<string>)
    requires forall i :: 0 <= i < |ss| ==> c !in ss[i]
    requires exists i :: 0 <= i < |ss| && ss[i] != ""
    ensures Split(JoinStrings([c], ss), c) == NonEmpty(ss)
  {
    var ps := NonEmpty(ss);
    var i :| 0 <= i < |ss| && ss[i] != "";
    assert ss[i] in ps;
    forall k | 0 <= k < |ps|
      ensures c !in ps[k]
    {
      assert ps[k] in ss;
    }
    SplitJoin(ps, c);
  }
}

=== FILE: row_events.dfy ===
/** Row events and the insertion-ordered row-event collection with its id → position
    index (internal/model1/row_event.go, types.go). */
module Events {
  import opened Wrappers
  import opened Rows

  /** ResEvent: the kind of change a row went through. */
  datatype ResEvent = EventUnchanged | EventAdd | EventUpdate | EventDelete | EventClear

  /** The kinds in declaration order. */
  const Kinds: seq<ResEvent> := [EventUnchanged, EventAdd, EventUpdate, EventDelete, EventClear]

  /** `1 << n`. */
  function Shl1(n: nat): (p: nat)
    ensures p >= 1
  {
    if n == 0 then 1 else 2 * Shl1(n - 1)
  }

  /** The source's bit-flag value of each kind: `1 << iota` over the declaration order,
      so 1, 2, 4, 8 and 16. */
  function Code(e: ResEvent): (c: int)
    ensures c in {1, 2, 4, 8, 16}
    ensures forall i :: 0 <= i < |Kinds| && Kinds[i] == e ==> c == Shl1(i)
  {
    assert Shl1(1) == 2 && Shl1(2) == 4 && Shl1(3) == 8 && Shl1(4) == 16;
    match e
    case EventUnchanged => 1
    case EventAdd => 2
    case EventUpdate => 4
    case EventDelete => 8
    case EventClear => 16
  }

  /** The flag values tell the kinds apart. */
  lemma CodeInjective(a: ResEvent, b: ResEvent)
    ensures Code(a) == Code(b) <==> a == b
  {
  }

  // ---------------------------------------------------------------------------
  // RowEvent
  // ---------------------------------------------------------------------------

  datatype RowEvent = RowEvent(kind: ResEvent, row: Row, deltas: Delta)

  /** NewRowEvent: an event without deltas (a nil delta row). */
  function NewRowEvent(kind: ResEvent, row: Row): (e: RowEvent)
    ensures e.kind == kind && e.row == row && e.deltas.Nil?
  {
    RowEvent(kind, row, Nil)
  }

  /** NewRowEventWithDeltas: an update event carrying the given deltas. */
  function NewRowEventWithDeltas(row: Row, delta: Delta): (e: RowEvent)
    ensures e.kind == EventUpdate && e.row == row && e.deltas == delta
  {
    RowEvent(EventUpdate, row, delta)
  }

  /** RowEvent.Clone: the same kind, row and cells; the deltas become a non-nil copy. */
  function CloneEvent(e: RowEvent): (c: RowEvent)
    ensures c.kind == e.kind && c.row == e.row
    ensures c.deltas.Cells? && c.deltas.Len() == e.deltas.Len()
    ensures e.deltas.Cells? ==> c == e
  {
    RowEvent(e.kind, RowClone(e.row), DeltaClone(e.deltas))
  }

  /** RowEvent.Customize: the row is projected onto `cols`; blank deltas are kept as they
      are, others are projected into a fresh row of `|cols|` cells. */
  function CustomizeEvent(e: RowEvent, cols: seq<int>): (c: RowEvent)
    ensures c.kind == e.kind
    ensures c.row == RowCustomize(e.row, cols)
    ensures IsBlank(e.deltas) ==> c.deltas == e.deltas
    ensures !IsBlank(e.deltas) ==> c.deltas.Cells? && |c.deltas.cells| == |cols|
    ensures !IsBlank(e.deltas) ==> forall i :: 0 <= i < |cols| ==>
              c.deltas.cells[i] == (if 0 <= cols[i] < |e.deltas.cells| then e.deltas.cells[cols[i]] else "")
  {
    var delta :=
      if !IsBlank(e.deltas) then Cells(DeltaCustomize(e.deltas, cols, seq(|cols|, _ => "")))
      else e.deltas;
    RowEvent(e.kind, RowCustomize(e.row, cols), delta)
  }

  /** RowEvent.Diff: kinds first, then deltas, then rows. */
  function EventDiff(e: RowEvent, o: RowEvent, ageCol: int): (d: bool)
    ensures e.kind != o.kind ==> d
    ensures d <==> e.kind != o.kind || DeltaDiff(e.deltas, o.deltas, ageCol)
                   || RowDiff(e.row, o.row, ageCol)
  {
    if e.kind != o.kind then true
    else if DeltaDiff(e.deltas, o.deltas, ageCol) then true
    else RowDiff(e.row, o.row, ageCol)
  }

  /** No event differs from itself. */
  lemma EventDiffIrreflexive(e: RowEvent, ageCol: int)
    ensures !EventDiff(e, e, ageCol)
  {
  }

  // ---------------------------------------------------------------------------
  // RowEvents
  // ---------------------------------------------------------------------------

  /** The collection: events in insertion order and an index from row id to position. */
  datatype RowEvents = RowEvents(events: seq<RowEvent>, index: map<string, int>)

  /** NewRowEvents: empty; the capacity hint does not matter. */
  function NewRowEvents(): (r: RowEvents)
    ensures |r.events| == 0 && |r.index| == 0
  {
    RowEvents([], map[])
  }

  /** The source's reindex loop: every event in turn records its position under its id,
      so later positions overwrite earlier ones; entries for ids no longer present stay. */
  function Reindex(es: seq<RowEvent>, m: map<string, int>): map<string, int>
  {
    if |es| == 0 then m else Reindex(es[..|es| - 1], m)[es[|es| - 1].row.id := |es| - 1]
  }

  /** The index an event sequence should have: each id maps to its last position. */
  function IndexOfEvents(es: seq<RowEvent>): map<string, int> {
    Reindex(es, map[])
  }

  /** The ids of the events, in order. */
  function Ids(es: seq<RowEvent>): (ids: seq<string>)
    ensures |ids| == |es|
    ensures forall i :: 0 <= i < |es| ==> ids[i] == es[i].row.id
  {
    seq(|es|, i requires 0 <= i < |es| => es[i].row.id)
  }

  /** `IndexOfEvents` is the last-position map: an id is a key iff some event carries it,
      and its value is the last such position. */
  lemma {:induction false} IndexOfEventsMeaning(es: seq<RowEvent>)
    ensures forall id :: id in IndexOfEvents(es) <==> id in Ids(es)
    ensures forall id :: id in IndexOfEvents(es) ==>
              var p := IndexOfEvents(es)[id];
              0 <= p < |es| && es[p].row.id == id
              && forall j :: p < j < |es| ==> es[j].row.id != id
  {
    if |es| > 0 {
      var init := es[..|es| - 1];
      IndexOfEventsMeaning(init);
      assert Ids(es) == Ids(init) + [es[|es| - 1].row.id];
    }
  }

  /** The index depends only on the ids of the events. */
  lemma {:induction false} ReindexIdsOnly(es: seq<RowEvent>, fs: seq<RowEvent>, m: map<string, int>)
    requires Ids(es) == Ids(fs)
    ensures Reindex(es, m) == Reindex(fs, m)
  {
    if |es| > 0 {
      assert Ids(es[..|es| - 1]) == Ids(fs[..|fs| - 1]);
      assert es[|es| - 1].row.id == Ids(es)[|es| - 1];
      ReindexIdsOnly(es[..|es| - 1], fs[..|fs| - 1], m);
    }
  }

  /** Reindexing over a base map overrides the base with the events' own index. */
  lemma {:induction false} ReindexOverrides(es: seq<RowEvent>, m: map<string, int>)
    ensures Reindex(es, m) == m + IndexOfEvents(es)
  {
    if |es| > 0 {
      ReindexOverrides(es[..|es| - 1], m);
      ReindexOverrides(es[..|es| - 1], map[]);
      assert map[] + IndexOfEvents(es[..|es| - 1]) == IndexOfEvents(es[..|es| - 1]);
    } else {
      assert m + map[] == m;
    }
  }

  /** The collection's index is exactly the last-position map of its events. */
  predicate Consistent(r: RowEvents) {
    r.index == IndexOfEvents(r.events)
  }

  /** Every indexed position is inside the events (what the source's slice writes need). */
  predicate InRange(r: RowEvents) {
    forall id :: id in r.index ==> 0 <= r.index[id] < |r.events|
  }

  lemma ConsistentInRange(r: RowEvents)
    requires Consistent(r)
    ensures InRange(r)
  {
    IndexOfEventsMeaning(r.events);
  }

  /** No two events share an id. */
  predicate UniqueIds(r: RowEvents) {
    forall i, j :: 0 <= i < j < |r.events| ==> r.events[i].row.id != r.events[j].row.id
  }

  /** With unique ids, the index maps every id to the one position holding it. */
  lemma UniqueIndexExact(r: RowEvents, i: int)
    requires Consistent(r) && UniqueIds(r) && 0 <= i < |r.events|
    ensures r.events[i].row.id in r.index && r.index[r.events[i].row.id] == i
  {
    IndexOfEventsMeaning(r.events);
    assert r.events[i].row.id in Ids(r.events);
  }

  /** Len, Count. */
  function Len(r: RowEvents): (n: nat)
    ensures n == |r.events|
  {
    |r.events|
  }

  predicate Empty(r: RowEvents) {
    |r.events| == 0
  }

  /** At: the event at `i`, or `None` for any index outside the collection. */
  function At(r: RowEvents, i: int): (e: Option<RowEvent>)
    ensures e.None? <==> i < 0 || i >= |r.events|
    ensures e.Some? ==> e.value == r.events[i]
  {
    if i < 0 || i >= |r.events| then None else Some(r.events[i])
  }

  /** Add: append at the end and index the new id at the last position. */
  function Add(r: RowEvents, e: RowEvent): (r': RowEvents)
    ensures r'.events == r.events + [e]
    ensures r'.index == r.index[e.row.id := |r.events|]
    ensures Consistent(r) ==> Consistent(r')
  {
    assert (r.events + [e])[..|r.events|] == r.events;
    RowEvents(r.events + [e], r.index[e.row.id := |r.events|])
  }

  /** Adding an event whose id is new keeps ids unique. */
  lemma AddKeepsUnique(r: RowEvents, e: RowEvent)
    requires Consistent(r) && UniqueIds(r) && e.row.id !in r.index
    ensures UniqueIds(Add(r, e))
  {
    IndexOfEventsMeaning(r.events);
    assert e.row.id !in Ids(r.events);
    forall i | 0 <= i < |r.events|
      ensures r.events[i].row.id != e.row.id
    {
      assert Ids(r.events)[i] == r.events[i].row.id;
    }
  }

  /** FindIndex: the indexed position of an id. */
  function FindIndex(r: RowEvents, id: string): (p: Option<int>)
    ensures p.Some? <==> id in r.index
    ensures p.Some? ==> p.value == r.index[id]
  {
    if id in r.index then Some(r.index[id]) else None
  }

  /** FindIndex finds an id exactly when some event carries it, at its last position. */
  lemma FindIndexMeaning(r: RowEvents, id: string)
    requires Consistent(r)
    ensures FindIndex(r, id).Some? <==> exists i :: 0 <= i < |r.events| && r.events[i].row.id == id
    ensures FindIndex(r, id).Some? ==>
              var p := FindIndex(r, id).value;
              0 <= p < |r.events| && r.events[p].row.id == id
              && forall j :: p < j < |r.events| ==> r.events[j].row.id != id
  {
    IndexOfEventsMeaning(r.events);
    if exists i :: 0 <= i < |r.events| && r.events[i].row.id == id {
      var i :| 0 <= i < |r.events| && r.events[i].row.id == id;
      assert Ids(r.events)[i] == id;
    }
  }

  /** Get: the event stored under an id, if the index has one that is in range. */
  function Get(r: RowEvents, id: string): (e: Option<RowEvent>)
    ensures e.Some? ==> id in r.index && 0 <= r.index[id] < |r.events| && e.value == r.events[r.index[id]]
    ensures Consistent(r) ==> (e.Some? <==> id in Ids(r.events))
    ensures Consistent(r) && e.Some? ==> e.value.row.id == id
  {
    IndexOfEventsMeaning(r.events);
    if id !in r.index then None else At(r, r.index[id])
  }

  /** Set: overwrite position `i` and index the new id there; the source panics for an
      index outside the events. */
  function Set(r: RowEvents, i: int, e: RowEvent): (r': RowEvents)
    requires 0 <= i < |r.events|
    ensures r'.events == r.events[i := e]
    ensures r'.index == r.index[e.row.id := i]
  {
    RowEvents(r.events[i := e], r.index[e.row.id := i])
  }

  /** Overwriting with an event of the same id keeps a consistent, unique-id collection
      consistent. */
  lemma SetSameIdConsistent(r: RowEvents, i: int, e: RowEvent)
    requires Consistent(r) && UniqueIds(r) && 0 <= i < |r.events|
    requires e.row.id == r.events[i].row.id
    ensures Consistent(Set(r, i, e)) && UniqueIds(Set(r, i, e))
  {
    UniqueIndexExact(r, i);
    assert Ids(r.events[i := e]) == Ids(r.events);
    ReindexIdsOnly(r.events[i := e], r.events, map[]);
    assert r.index[e.row.id := i] == r.index;
  }

  /** Overwriting with an event of another id leaves the old id indexed at a position that
      now holds a different row. */
  lemma SetOtherIdLeavesStaleEntry()
    ensures var r := Add(NewRowEvents(), NewRowEvent(EventAdd, Row("a", [])));
            var r' := Set(r, 0, NewRowEvent(EventAdd, Row("b", [])));
            Consistent(r) && "a" in r'.index && r'.index["a"] == 0
            && r'.events[0].row.id == "b" && !Consistent(r')
  {
    var r := Add(NewRowEvents(), NewRowEvent(EventAdd, Row("a", [])));
    var r' := Set(r, 0, NewRowEvent(EventAdd, Row("b", [])));
    IndexOfEventsMeaning(r'.events);
    assert "a" !in Ids(r'.events);
  }

  /** Upsert: replace in place when the id is indexed, otherwise append. */
  function Upsert(r: RowEvents, e: RowEvent): (r': RowEvents)
    requires InRange(r)
    ensures e.row.id in r.index ==> r'.events == r.events[r.index[e.row.id] := e] && r'.index == r.index
    ensures e.row.id !in r.index ==> r' == Add(r, e)
    ensures |r.events| <= |r'.events| <= |r.events| + 1
  {
    match FindIndex(r, e.row.id)
    case Some(idx) => RowEvents(r.events[idx := e], r.index)
    case None => Add(r, e)
  }

  /** Upsert keeps a consistent collection consistent and unique ids unique, so upserting
      never creates a second event with the same id. */
  lemma UpsertPreserves(r: RowEvents, e: RowEvent)
    requires Consistent(r)
    ensures InRange(r)
    ensures Consistent(Upsert(r, e))
    ensures UniqueIds(r) ==> UniqueIds(Upsert(r, e))
    ensures e.row.id in Ids(Upsert(r, e).events)
  {
    ConsistentInRange(r);
    IndexOfEventsMeaning(r.events);
    var r' := Upsert(r, e);
    if e.row.id in r.index {
      var p := r.index[e.row.id];
      assert Ids(r'.events) == Ids(r.events);
      ReindexIdsOnly(r'.events, r.events, map[]);
      assert Ids(r'.events)[p] == e.row.id;
    } else {
      if UniqueIds(r) {
        AddKeepsUnique(r, e);
      }
      assert Ids(r'.events)[|r.events|] == e.row.id;
    }
  }

  /** The error Delete reports for an unknown id (`%q` quoting, without Go's escaping). */
  function DeleteError(id: string): string {
    "unable to delete row with id: \"" + id + "\""
  }

  /** Delete: remove the event the index points at, drop its index entry, then reindex the
      survivors; an unknown id is an error. */
  function Delete(r: RowEvents, id: string): (res: Result<RowEvents>)
    requires InRange(r)
    ensures res.Err? <==> id !in r.index
    ensures res.Err? ==> res.msg == DeleteError(id)
    ensures res.Ok? ==> var v := r.index[id];
              res.value.events == Without(r.events, v)
              && res.value.index == Reindex(res.value.events, r.index - {id})
  {
    match FindIndex(r, id)
    case None => Err(DeleteError(id))
    case Some(victim) =>
      var events := Without(r.events, victim);
      Ok(RowEvents(events, Reindex(events, r.index - {id})))
  }

  /** The events left once position `v` is removed. */
  function Without(es: seq<RowEvent>, v: int): (rest: seq<RowEvent>)
    requires 0 <= v < |es|
    ensures |rest| == |es| - 1
    ensures forall j :: 0 <= j < |rest| ==> rest[j] == es[if j < v then j else j + 1]
  {
    es[..v] + es[v + 1..]
  }

  /** Every id other than the removed event's is still carried by a survivor. */
  lemma WithoutKeepsOtherIds(es: seq<RowEvent>, v: int, k: string)
    requires 0 <= v < |es| && k in Ids(es) && k != es[v].row.id
    ensures k in Ids(Without(es, v))
  {
    var j :| 0 <= j < |es| && Ids(es)[j] == k;
    var rest := Without(es, v);
    if j < v {
      assert Ids(rest)[j] == k;
    } else {
      assert Ids(rest)[j - 1] == k;
    }
  }

  /** Reindexing the survivors over the index minus the victim's id rebuilds exactly the
      survivors' own index. */
  lemma DeleteIndexExact(r: RowEvents, id: string)
    requires Consistent(r) && id in r.index
    ensures 0 <= r.index[id] < |r.events| && r.events[r.index[id]].row.id == id
    ensures Reindex(Without(r.events, r.index[id]), r.index - {id})
         == IndexOfEvents(Without(r.events, r.index[id]))
  {
    IndexOfEventsMeaning(r.events);
    var v := r.index[id];
    var es := Without(r.events, v);
    var base := r.index - {id};
    ReindexOverrides(es, base);
    IndexOfEventsMeaning(es);
    forall k | k in base
      ensures k in IndexOfEvents(es)
    {
      WithoutKeepsOtherIds(r.events, v, k);
    }
    assert base + IndexOfEvents(es) == IndexOfEvents(es);
  }

  /** Removing an event keeps ids unique and, since the id was unique, gets rid of it. */
  lemma WithoutUnique(r: RowEvents, v: int)
    requires UniqueIds(r) && 0 <= v < |r.events|
    ensures UniqueIds(RowEvents(Without(r.events, v), map[]))
    ensures r.events[v].row.id !in Ids(Without(r.events, v))
  {
    var es := Without(r.events, v);
    forall i, j | 0 <= i < j < |es|
      ensures es[i].row.id != es[j].row.id
    {
      assert es[i] == r.events[if i < v then i else i + 1];
    }
    forall j | 0 <= j < |es|
      ensures Ids(es)[j] != r.events[v].row.id
    {
      assert es[j] == r.events[if j < v then j else j + 1];
    }
  }

  /** Delete keeps the collection consistent, removes exactly the one event the index
      points at, which carries the id, and with unique ids leaves no event with that id. */
  lemma DeletePreserves(r: RowEvents, id: string)
    requires Consistent(r) && id in r.index
    ensures InRange(r)
    ensures Delete(r, id).Ok?
    ensures Consistent(Delete(r, id).value)
    ensures |Delete(r, id).value.events| == |r.events| - 1
    ensures r.events[r.index[id]].row.id == id
    ensures UniqueIds(r) ==> UniqueIds(Delete(r, id).value)
                             && id !in Ids(Delete(r, id).value.events)
  {
    ConsistentInRange(r);
    DeleteIndexExact(r, id);
    if UniqueIds(r) {
      WithoutUnique(r, r.index[id]);
    }
  }

  /** Deleting an unknown id changes nothing: the collection is handed back as it was. */
  lemma DeleteUnknownUnchanged(r: RowEvents, id: string)
    requires InRange(r) && id !in r.index
    ensures Delete(r, id) == Err(DeleteError(id))
  {
  }

  /** Clear: no events and an empty index. */
  function Clear(r: RowEvents): (r': RowEvents)
    ensures |r'.events| == 0 && |r'.index| == 0
    ensures Consistent(r')
  {
    RowEvents([], map[])
  }

  /** Clone: every event cloned, then added in order to a fresh collection. */
  method Clone(r: RowEvents) returns (out: RowEvents)
    ensures |out.events| == |r.events|
    ensures Ids(out.events) == Ids(r.events)
    ensures forall i :: 0 <= i < |r.events| ==> out.events[i] == CloneEvent(r.events[i])
    ensures Consistent(out)
    ensures Consistent(r) ==> out.index == r.index
  {
    var re: seq<RowEvent> := [];
    for i := 0 to |r.events|
      invariant |re| == i
      invariant forall k :: 0 <= k < i ==> re[k] == CloneEvent(r.events[k])
    {
      re := re + [CloneEvent(r.events[i])];
    }
    out := NewRowEvents();
    for i := 0 to |re|
      invariant out.events == re[..i]
      invariant Consistent(out)
    {
      out := Add(out, re[i]);
      assert re[..i + 1] == re[..i] + [re[i]];
    }
    assert re[..|re|] == re;
    assert Ids(out.events) == Ids(r.events);
    ReindexIdsOnly(out.events, r.events, map[]);
  }

  /** Range: how many events the callback is shown, from the first on; iteration stops
      right after the first callback that answers false. */
  function Range(es: seq<RowEvent>, f: (int, RowEvent) -> bool): (n: nat)
    ensures n <= |es|
    ensures forall j :: 0 <= j < n - 1 ==> f(j, es[j])
    ensures n < |es| ==> n > 0 && !f(n - 1, es[n - 1])
  {
    RangeFrom(es, f, 0)
  }

  function RangeFrom(es: seq<RowEvent>, f: (int, RowEvent) -> bool, i: nat): (n: nat)
    requires i <= |es|
    ensures n <= |es| - i
    ensures forall j :: i <= j < i + n - 1 ==> f(j, es[j])
    ensures i + n < |es| ==> n > 0 && !f(i + n - 1, es[i + n - 1])
    decreases |es| - i
  {
    if i == |es| then 0
    else if !f(i, es[i]) then 1
    else 1 + RangeFrom(es, f, i + 1)
  }

  /** A callback that always answers true is shown every event. */
  lemma RangeVisitsAll(es: seq<RowEvent>, f: (int, RowEvent) -> bool)
    requires forall j :: 0 <= j < |es| ==> f(j, es[j])
    ensures Range(es, f) == |es|
  {
  }
}

=== FILE: rows.dfy ===
/** Headers, rows and per-cell deltas of the live resource table
    (internal/model1/header.go, row.go, delta.go). */
module Rows {
  import opened Wrappers

  /** The name of the age column. */
  const AgeColName: string := "AGE"

  // ---------------------------------------------------------------------------
  // Header
  // ---------------------------------------------------------------------------

  /** Column attributes. A decorator is a Go function value; the model keeps only an
      identity tag for it, `None` standing for a nil function. */
  datatype Attrs = Attrs(
    align: int,
    wide: bool,
    time: bool,
    capacity: bool,
    hide: bool,
    decorator: Option<nat>)

  const NoAttrs := Attrs(0, false, false, false, false, None)

  /** `a` keeps every attribute it has set; unset ones (zero, false, nil) come from `b`. */
  function Merge(a: Attrs, b: Attrs): (r: Attrs)
    ensures r.align == (if a.align != 0 then a.align else b.align)
    ensures r.hide == (a.hide || b.hide)
    ensures r.wide == (a.wide || b.wide)
    ensures r.time == (a.time || b.time)
    ensures r.capacity == (a.capacity || b.capacity)
    ensures r.decorator == (if a.decorator.Some? then a.decorator else b.decorator)
  {
    Attrs(
      if a.align == 0 then b.align else a.align,
      if !a.wide then b.wide else a.wide,
      if !a.time then b.time else a.time,
      if !a.capacity then b.capacity else a.capacity,
      if !a.hide then b.hide else a.hide,
      if a.decorator.None? then b.decorator else a.decorator)
  }

  /** Merging with nothing set on either side changes nothing, and merging is idempotent. */
  lemma MergeIdentities(a: Attrs)
    ensures Merge(a, NoAttrs) == a
    ensures Merge(NoAttrs, a) == a
    ensures Merge(a, a) == a
  {
  }

  datatype HeaderColumn = HeaderColumn(name: string, attrs: Attrs)

  type Header = seq<HeaderColumn>

  /** Header.Clone: a column-by-column copy. */
  function CloneHeader(h: Header): (r: Header)
    ensures |r| == |h|
    ensures forall i :: 0 <= i < |h| ==> r[i] == h[i]
  {
    if |h| == 0 then [] else [h[0]] + CloneHeader(h[1..])
  }

  /** Column equality as reflect.DeepEqual sees it: a func value is deeply equal only
      to another nil func, so a column with a decorator never equals any column. */
  predicate ColumnDeepEqual(a: HeaderColumn, b: HeaderColumn) {
    a == b && a.attrs.decorator.None?
  }

  /** Header.Diff on two separately allocated headers: they differ when their lengths
      differ or some pair of columns is not deeply equal. */
  function HeaderDiff(h: Header, g: Header): (d: bool)
    ensures |h| != |g| ==> d
    ensures |h| == |g| ==> (d <==> exists i :: 0 <= i < |h| && !ColumnDeepEqual(h[i], g[i]))
    decreases |h|
  {
    if |h| != |g| then true
    else if |h| == 0 then false
    else if !ColumnDeepEqual(h[0], g[0]) then true
    else
      var d := HeaderDiff(h[1..], g[1..]);
      assert d ==> exists i :: 0 <= i < |h| && !ColumnDeepEqual(h[i], g[i]) by {
        if d {
          var j :| 0 <= j < |h| - 1 && !ColumnDeepEqual(h[1..][j], g[1..][j]);
          assert !ColumnDeepEqual(h[j + 1], g[j + 1]);
        }
      }
      assert (exists i :: 0 <= i < |h| && !ColumnDeepEqual(h[i], g[i])) ==> d by {
        if i :| 0 <= i < |h| && !ColumnDeepEqual(h[i], g[i]) {
          assert i > 0;
          assert !ColumnDeepEqual(h[1..][i - 1], g[1..][i - 1]);
        }
      }
      d
  }

  /** A header without decorators never differs from its clone; one with a decorator
      always does, because the func values cannot be deeply equal. */
  lemma CloneDiff(h: Header)
    ensures HeaderDiff(h, CloneHeader(h)) <==> exists i :: 0 <= i < |h| && h[i].attrs.decorator.Some?
  {
    var c := CloneHeader(h);
    if i :| 0 <= i < |h| && h[i].attrs.decorator.Some? {
      assert !ColumnDeepEqual(h[i], c[i]);
    }
  }

  /** The position of the first column called `name`, skipping wide columns unless
      `includeWide`; `None` stands for the source's `(-1, false)`. */
  function IndexOf(h: Header, name: string, includeWide: bool): (r: Option<nat>)
    ensures r.Some? ==> r.value < |h| && h[r.value].name == name
                        && (includeWide || !h[r.value].attrs.wide)
    ensures r.Some? ==> forall j :: 0 <= j < r.value ==>
                          h[j].name != name || (h[j].attrs.wide && !includeWide)
    ensures r.None? <==> forall j :: 0 <= j < |h| ==>
                          h[j].name != name || (h[j].attrs.wide && !includeWide)
  {
    if |h| == 0 then None
    else if (!h[0].attrs.wide || includeWide) && h[0].name == name then Some(0)
    else
      match IndexOf(h[1..], name, includeWide)
      case None => None
      case Some(j) => Some(j + 1)
  }

  /** HasAge: some column, wide or not, is named AGE. */
  predicate HasAge(h: Header) {
    IndexOf(h, AgeColName, true).Some?
  }

  lemma HasAgeMeaning(h: Header)
    ensures HasAge(h) <==> exists i :: 0 <= i < |h| && h[i].name == AgeColName
  {
    if !HasAge(h) {
      assert forall j :: 0 <= j < |h| ==> h[j].name != AgeColName;
    }
  }

  function IsTimeCol(h: Header, col: int): (b: bool)
    ensures b <==> 0 <= col < |h| && h[col].attrs.time
  {
    if col < 0 || col >= |h| then false else h[col].attrs.time
  }

  function IsCapacityCol(h: Header, col: int): (b: bool)
    ensures b <==> 0 <= col < |h| && h[col].attrs.capacity
  {
    if col < 0 || col >= |h| then false else h[col].attrs.capacity
  }

  /** The visible column names in order (`wide` includes wide columns); `None` stands for
      the nil slice the source returns for an empty header. */
  function ColumnNames(h: Header, wide: bool): (r: Option<seq<string>>)
    ensures r.None? <==> |h| == 0
    ensures r.Some? ==> |r.value| <= |h|
    ensures r.Some? ==> forall n :: n in r.value ==>
                          exists i :: 0 <= i < |h| && h[i].name == n && (wide || !h[i].attrs.wide)
  {
    if |h| == 0 then None else Some(Names(h, wide))
  }

  function Names(h: Header, wide: bool): (r: seq<string>)
    ensures |r| <= |h|
    ensures forall n :: n in r ==>
              exists i :: 0 <= i < |h| && h[i].name == n && (wide || !h[i].attrs.wide)
  {
    if |h| == 0 then []
    else
      var rest := Names(h[1..], wide);
      assert forall n :: n in rest ==>
        exists i :: 0 <= i < |h| && h[i].name == n && (wide || !h[i].attrs.wide) by {
        forall n | n in rest
          ensures exists i :: 0 <= i < |h| && h[i].name == n && (wide || !h[i].attrs.wide)
        {
          var i :| 0 <= i < |h[1..]| && h[1..][i].name == n && (wide || !h[1..][i].attrs.wide);
          assert h[i + 1] == h[1..][i];
        }
      }
      if !wide && h[0].attrs.wide then rest else [h[0].name] + rest
  }

  /** Names distributes over concatenation, so the listed names keep header order and
      repeats. */
  lemma {:induction false} NamesAppend(a: Header, b: Header, wide: bool)
    ensures Names(a + b, wide) == Names(a, wide) + Names(b, wide)
  {
    if |a| > 0 {
      assert (a + b)[1..] == a[1..] + b;
      assert (a + b)[0] == a[0];
      NamesAppend(a[1..], b, wide);
      var head := if !wide && a[0].attrs.wide then [] else [a[0].name];
      assert Names(a + b, wide) == head + Names(a[1..] + b, wide);
      assert Names(a, wide) == head + Names(a[1..], wide);
      assert (head + Names(a[1..], wide)) + Names(b, wide) == head + (Names(a[1..], wide) + Names(b, wide));
    } else {
      assert a + b == b;
    }
  }

  /** One column is listed by name unless it is wide and `wide` is off. */
  lemma NamesOne(c: HeaderColumn, wide: bool)
    ensures Names([c], wide) == if !wide && c.attrs.wide then [] else [c.name]
  {
    assert [c][1..] == [];
  }

  /** With `wide`, every column's name is listed, in order. */
  lemma {:induction false} NamesWideAll(h: Header)
    ensures Names(h, true) == seq(|h|, i requires 0 <= i < |h| => h[i].name)
  {
    if |h| > 0 {
      NamesWideAll(h[1..]);
    }
  }

  /** Every column that is shown gets its name listed. */
  lemma {:induction false} NamesComplete(h: Header, wide: bool)
    ensures forall i :: 0 <= i < |h| && (wide || !h[i].attrs.wide) ==> h[i].name in Names(h, wide)
  {
    if |h| > 0 {
      NamesComplete(h[1..], wide);
      forall i | 1 <= i < |h| && (wide || !h[i].attrs.wide)
        ensures h[i].name in Names(h, wide)
      {
        assert h[1..][i - 1] == h[i];
      }
    }
  }

  // ---------------------------------------------------------------------------
  // Rows
  // ---------------------------------------------------------------------------

  /** A row: a resource id and its cell texts. */
  datatype Row = Row(id: string, fields: seq<string>)

  /** NewRow(size): an id-less row of `size` empty cells. */
  function NewRow(size: nat): (r: Row)
    ensures r.id == "" && |r.fields| == size
    ensures forall i :: 0 <= i < size ==> r.fields[i] == ""
  {
    Row("", seq(size, _ => ""))
  }

  /** Row.Len. */
  function RowLen(r: Row): (n: nat)
    ensures n == |r.fields|
  {
    |r.fields|
  }

  /** Row.Diff: a different id is a difference whatever the fields say; otherwise the
      fields are compared outside the age column. The field comparison lives in the
      source's fields.go, which is not part of this model: it is taken to follow the same
      rule as DeltaRow.Diff on non-nil cells. */
  function RowDiff(r: Row, o: Row, ageCol: int): (d: bool)
    ensures r.id != o.id ==> d
    ensures r.id == o.id ==> d == CellsDiff(r.fields, o.fields, ageCol)
    ensures r == o ==> !d
  {
    if r.id != o.id then true else CellsDiff(r.fields, o.fields, ageCol)
  }

  /** Row.Customize: a row with the same id and one cell per requested column; column
      indices that are negative or past the end leave the cell empty. */
  function RowCustomize(r: Row, cols: seq<int>): (o: Row)
    ensures o.id == r.id
    ensures |o.fields| == |cols|
    ensures forall i :: 0 <= i < |cols| ==>
              o.fields[i] == (if 0 <= cols[i] < |r.fields| then r.fields[cols[i]] else "")
  {
    Row(r.id, seq(|cols|, i requires 0 <= i < |cols| =>
      if 0 <= cols[i] < |r.fields| then r.fields[cols[i]] else ""))
  }

  /** Row.Clone. */
  function RowClone(r: Row): (c: Row)
    ensures c.id == r.id && c.fields == r.fields
    ensures !RowDiff(r, c, -1)
  {
    Row(r.id, r.fields[..])
  }

  /** Rows.Clone: element-wise clones in the same order. */
  function RowsClone(rs: seq<Row>): (cs: seq<Row>)
    ensures |cs| == |rs|
    ensures forall i :: 0 <= i < |rs| ==> cs[i] == RowClone(rs[i])
  {
    seq(|rs|, i requires 0 <= i < |rs| => RowClone(rs[i]))
  }

  // ---------------------------------------------------------------------------
  // Deltas
  // ---------------------------------------------------------------------------

  /** A delta row. Go distinguishes a nil slice from an empty one under
      `reflect.DeepEqual`; `Nil` is the nil delta of a freshly created event. */
  datatype Delta = Nil | Cells(cells: seq<string>)
  {
    function Len(): nat {
      if Nil? then 0 else |cells|
    }
  }

  /** The cells of `f` and `g` differ outside `ageCol` (or anywhere, when `ageCol` is out
      of range). */
  function CellsDiff(f: seq<string>, g: seq<string>, ageCol: int): (d: bool)
    ensures |f| != |g| ==> d
    ensures |f| == |g| && 0 <= ageCol < |f| ==>
              (d <==> exists i :: 0 <= i < |f| && i != ageCol && f[i] != g[i])
    ensures |f| == |g| && !(0 <= ageCol < |f|) ==> (d <==> f != g)
  {
    if |f| != |g| then true
    else if ageCol < 0 || ageCol >= |f| then f != g
    else if f[..ageCol] != g[..ageCol] then
      assert exists i :: 0 <= i < ageCol && f[i] != g[i];
      true
    else if ageCol + 1 >= |f| then
      assert forall i :: 0 <= i < |f| && i != ageCol ==> f[i] == g[i] by {
        forall i | 0 <= i < |f| && i != ageCol
          ensures f[i] == g[i]
        {
          assert f[..ageCol][i] == g[..ageCol][i];
        }
      }
      false
    else
      assert (f[ageCol + 1..] != g[ageCol + 1..]) <==>
             exists i :: 0 <= i < |f| && i != ageCol && f[i] != g[i] by {
        if f[ageCol + 1..] != g[ageCol + 1..] {
          var k :| 0 <= k < |f| - ageCol - 1 && f[ageCol + 1..][k] != g[ageCol + 1..][k];
          assert f[ageCol + 1 + k] != g[ageCol + 1 + k];
        } else {
          forall i | 0 <= i < |f| && i != ageCol
            ensures f[i] == g[i]
          {
            if i < ageCol {
              assert f[..ageCol][i] == g[..ageCol][i];
            } else {
              assert f[ageCol + 1..][i - ageCol - 1] == g[ageCol + 1..][i - ageCol - 1];
            }
          }
        }
      }
      f[ageCol + 1..] != g[ageCol + 1..]
  }

  /** NewDeltaRow: one cell per old field; a cell keeps the old text exactly when that
      text is non-empty, the new row has the column, the value changed and the column is
      not a time column. */
  function NewDeltaRow(o: Row, n: Row, h: Header): (d: Delta)
    ensures d.Cells? && |d.cells| == |o.fields|
    ensures forall i :: 0 <= i < |o.fields| ==>
              (d.cells[i] != "" <==>
                 i < |n.fields| && o.fields[i] != "" && o.fields[i] != n.fields[i] && !IsTimeCol(h, i))
    ensures forall i :: 0 <= i < |o.fields| && d.cells[i] != "" ==> d.cells[i] == o.fields[i]
  {
    Cells(seq(|o.fields|, i requires 0 <= i < |o.fields| =>
      if i < |n.fields| && o.fields[i] != "" && o.fields[i] != n.fields[i] && !IsTimeCol(h, i)
      then o.fields[i] else ""))
  }

  /** DeltaRow.IsBlank: nothing recorded. */
  function IsBlank(d: Delta): (b: bool)
    ensures b <==> d.Len() == 0 || forall i :: 0 <= i < |d.cells| ==> d.cells[i] == ""
  {
    match d
    case Nil => true
    case Cells(c) => AllEmpty(c)
  }

  function AllEmpty(c: seq<string>): (b: bool)
    ensures b <==> forall i :: 0 <= i < |c| ==> c[i] == ""
  {
    if |c| == 0 then true
    else if c[0] != "" then false
    else
      var b := AllEmpty(c[1..]);
      assert b <==> forall i :: 1 <= i < |c| ==> c[i] == "" by {
        if !b {
          var k :| 0 <= k < |c[1..]| && c[1..][k] != "";
          assert c[k + 1] != "";
        }
      }
      b
  }

  /** Rows that differ only in time columns give a blank delta. */
  lemma TimeOnlyChangesAreBlank(o: Row, n: Row, h: Header)
    requires forall i :: 0 <= i < |o.fields| && i < |n.fields| && o.fields[i] != n.fields[i] ==>
               IsTimeCol(h, i)
    ensures IsBlank(NewDeltaRow(o, n, h))
  {
  }

  /** Go's `reflect.DeepEqual` on two delta rows: a nil and a non-nil slice differ. */
  function DeepEqualDelta(d: Delta, e: Delta): (b: bool)
    ensures b <==> d == e
  {
    match (d, e)
    case (Nil, Nil) => true
    case (Cells(a), Cells(c)) => a == c
    case _ => false
  }

  /** DeltaRow.Diff. A nil delta and an empty non-nil one differ: their lengths match and
      no age column fits, so the source falls back to `reflect.DeepEqual`. */
  function DeltaDiff(d: Delta, r: Delta, ageCol: int): (b: bool)
    ensures d.Len() != r.Len() ==> b
    ensures d.Len() == r.Len() && 0 <= ageCol < d.Len() ==>
              (b <==> exists i :: 0 <= i < d.Len() && i != ageCol && d.cells[i] != r.cells[i])
    ensures d.Len() == r.Len() && !(0 <= ageCol < d.Len()) ==> (b <==> d != r)
  {
    if d.Len() != r.Len() then true
    else if ageCol < 0 || ageCol >= d.Len() then !DeepEqualDelta(d, r)
    else CellsDiff(d.cells, r.cells, ageCol)
  }

  /** DeltaRow.Customize into the caller's `out`: non-blank deltas copy cell `cols[i]` into
      `out[i]` wherever both exist; negative columns are skipped. */
  function DeltaCustomize(d: Delta, cols: seq<int>, out: seq<string>): (r: seq<string>)
    ensures |r| == |out|
    ensures IsBlank(d) ==> r == out
    ensures !IsBlank(d) ==> forall i :: 0 <= i < |out| ==>
              r[i] == (if i < |cols| && 0 <= cols[i] < |d.cells| then d.cells[cols[i]] else out[i])
  {
    if IsBlank(d) then out
    else
      seq(|out|, i requires 0 <= i < |out| =>
        if i < |cols| && 0 <= cols[i] < |d.cells| then d.cells[cols[i]] else out[i])
  }

  /** DeltaRow.Clone: always a fresh non-nil slice with the same cells. */
  function DeltaClone(d: Delta): (c: Delta)
    ensures c.Cells? && c.Len() == d.Len()
    ensures d.Cells? ==> c == d
    ensures IsBlank(c) == IsBlank(d)
  {
    Cells(if d.Nil? then [] else d.cells)
  }

  /** A clone never differs from a non-nil original; a nil delta's clone does differ,
      because `reflect.DeepEqual` tells a nil slice from an empty one. */
  lemma DeltaCloneDiff(d: Delta, ageCol: int)
    ensures d.Cells? ==> !DeltaDiff(d, DeltaClone(d), ageCol)
    ensures d.Nil? ==> DeltaDiff(d, DeltaClone(d), ageCol)
  {
  }
}

=== FILE: s3_browser.dfy ===
/** Bucket and prefix navigation of the S3 browser (internal/view/s3_browser.go): the
    current bucket, the current prefix and the breadcrumb trail. Listing and the table
    itself are outside; the selected row's id is a parameter. */
module S3Navigation {
  import opened Strs

  datatype Nav = Nav(bucket: string, prefix: string, crumbs: seq<string>)

  function NewNav(): (n: Nav)
    ensures n.bucket == "" && n.prefix == "" && n.crumbs == []
  {
    Nav("", "", [])
  }

  /** Name: the bucket list, the bucket, or bucket/prefix. */
  function Name(n: Nav): (s: string)
    ensures n.bucket == "" ==> s == "S3 Buckets"
    ensures n.bucket != "" && n.prefix == "" ==> s == n.bucket
    ensures n.bucket != "" && n.prefix != "" ==> s == n.bucket + "/" + n.prefix
  {
    if n.bucket == "" then "S3 Buckets"
    else if n.prefix == "" then n.bucket
    else n.bucket + "/" + n.prefix
  }

  /** A path segment: non-empty and without "/". */
  predicate Segment(s: string) {
    s != "" && '/' !in s
  }

  /** splitPrefix: the "/"-separated segments, empty ones dropped. */
  function SplitPrefix(prefix: string): (segs: seq<string>)
    ensures prefix == "" ==> segs == []
    ensures forall k :: 0 <= k < |segs| ==> Segment(segs[k])
  {
    if prefix == "" then []
    else
      var segs := NonEmpty(Split(prefix, '/'));
      assert forall k :: 0 <= k < |segs| ==> segs[k] in Split(prefix, '/');
      segs
  }

  /** The prefix that names a list of segments: "" for none, otherwise the segments
      joined with "/" and a trailing "/". */
  function PrefixOf(segs: seq<string>): string {
    if |segs| == 0 then "" else Join(segs, "/") + "/"
  }

  /** splitPrefix reads back the segments a prefix was built from. */
  lemma SplitPrefixOf(segs: seq<string>)
    requires forall k :: 0 <= k < |segs| ==> Segment(segs[k])
    ensures SplitPrefix(PrefixOf(segs)) == segs
  {
    if |segs| > 0 {
      var j := Join(segs, "/");
      assert PrefixOf(segs) == j + ['/'] + "";
      SplitAround(j, "", '/');
      SplitJoin(segs, '/');
      NonEmptyAppend(segs, [""]);
      NonEmptyKeepsAll(segs);
    }
  }

  /** The prefix of one more segment. */
  lemma PrefixOfAppend(segs: seq<string>, x: string)
    ensures PrefixOf(segs + [x]) == PrefixOf(segs) + x + "/"
  {
    if |segs| > 0 {
      JoinAppend(segs, x, "/");
    } else {
      assert segs + [x] == [x];
    }
  }

  /** SetBucket: the trail is the bucket alone, or empty for "". */
  function SetBucket(n: Nav, bucket: string): (r: Nav)
    ensures r.bucket == bucket && r.prefix == n.prefix
    ensures r.crumbs == if bucket != "" then [bucket] else []
  {
    n.(bucket := bucket, crumbs := if bucket != "" then [bucket] else [])
  }

  /** SetPrefix: with a bucket, the trail is the bucket followed by the prefix's
      segments; without one, only the prefix changes. */
  function SetPrefix(n: Nav, prefix: string): (r: Nav)
    ensures r.prefix == prefix && r.bucket == n.bucket
    ensures n.bucket != "" ==> r.crumbs == [n.bucket] + SplitPrefix(prefix)
    ensures n.bucket == "" ==> r.crumbs == n.crumbs
  {
    if n.bucket != "" then
      n.(prefix := prefix, crumbs := [n.bucket] + (if prefix != "" then SplitPrefix(prefix) else []))
    else n.(prefix := prefix)
  }

  /** goUpCmd: returns the new position and whether the key was consumed. */
  function GoUp(n: Nav): (r: (Nav, bool))
    ensures |n.crumbs| == 0 ==> r == (n, false)
    ensures |n.crumbs| == 1 ==> r == (Nav("", "", []), true)
    ensures |n.crumbs| > 1 ==> r.1 && r.0.crumbs == n.crumbs[..|n.crumbs| - 1] && r.0.bucket == n.crumbs[0]
    ensures |n.crumbs| > 1 ==> r.0.prefix == PrefixOf(n.crumbs[1..|n.crumbs| - 1])
  {
    if |n.crumbs| == 0 then (n, false)
    else if |n.crumbs| == 1 then (Nav("", "", []), true)
    else
      var crumbs := n.crumbs[..|n.crumbs| - 1];
      assert crumbs[1..] == n.crumbs[1..|n.crumbs| - 1];
      (Nav(crumbs[0], if |crumbs| > 1 then Join(crumbs[1..], "/") + "/" else "", crumbs), true)
  }

  /** The positions the browser can be in: the bucket list, or a bucket with a prefix
      built from the segments after it on the trail. */
  predicate Canonical(n: Nav) {
    (n.bucket == "" && n.prefix == "" && n.crumbs == [])
    || (n.bucket != "" && |n.crumbs| >= 1 && n.crumbs[0] == n.bucket
        && (forall k :: 1 <= k < |n.crumbs| ==> Segment(n.crumbs[k]))
        && n.prefix == PrefixOf(n.crumbs[1..]))
  }

  /** Inside a bucket the title is the trail joined with "/", with a trailing "/" below
      the bucket level. */
  lemma NameIsTrail(n: Nav)
    requires Canonical(n) && n.bucket != ""
    ensures Name(n) == Join(n.crumbs, "/") + (if |n.crumbs| > 1 then "/" else "")
  {
    if |n.crumbs| > 1 {
      assert n.crumbs == [n.crumbs[0]] + n.crumbs[1..];
    }
  }

  /** drillDownCmd as written: a folder's id is appended to the current prefix. */
  function DrillDownAsWritten(n: Nav, path: string): (r: Nav)
    ensures path == "" ==> r == n
    ensures path != "" && n.bucket == "" ==> r == SetBucket(n, path)
    ensures path != "" && n.bucket != "" && HasSuffix(path, "/") ==> r == SetPrefix(n, n.prefix + path)
    ensures path != "" && n.bucket != "" && !HasSuffix(path, "/") ==> r == n
  {
    if path == "" then n
    else if n.bucket == "" then SetBucket(n, path)
    else if HasSuffix(path, "/") then SetPrefix(n, n.prefix + path)
    else n
  }

  /** The prefix of two runs of segments is the two prefixes one after the other. */
  lemma PrefixOfConcat(a: seq<string>, b: seq<string>)
    requires |a| > 0 && |b| > 0
    ensures PrefixOf(a + b) == PrefixOf(a) + PrefixOf(b)
  {
    JoinConcat(a, b, "/");
    var ja, jb := Join(a, "/"), Join(b, "/");
    AppendAssoc(ja + "/", jb, "/");
    AppendAssoc(ja, "/", jb + "/");
  }

  /** A folder row's id is the full prefix the listing returned (the S3 object layer
      builds folders from the common prefixes, which start with the listed prefix), so
      below the bucket's top level the current prefix is put in front twice: from "a/",
      entering the folder "a/b/" lands in "a/a/b/", and the trail repeats the segments. */
  lemma DrillDownDoublesPrefix(n: Nav, x: string)
    requires Canonical(n) && n.bucket != "" && n.prefix != "" && Segment(x)
    ensures var id := n.prefix + x + "/";
            && DrillDownAsWritten(n, id).prefix == n.prefix + id
            && DrillDownAsWritten(n, id).crumbs == n.crumbs + n.crumbs[1..] + [x]
            && DrillDownAsWritten(n, id).prefix != DrillDown(n, id).prefix
  {
    var segs := n.crumbs[1..];
    assert n.crumbs == [n.bucket] + segs;
    assert |segs| > 0;
    PrefixOfAppend(segs, x);
    var id := PrefixOf(segs + [x]);
    assert id == n.prefix + x + "/";
    assert HasSuffix(id, "/");
    PrefixOfConcat(segs, segs + [x]);
    var all := segs + (segs + [x]);
    assert forall k :: 0 <= k < |all| ==> Segment(all[k]) by {
      forall k | 0 <= k < |all|
        ensures Segment(all[k])
      {
        if k < |segs| {
          assert all[k] == n.crumbs[k + 1];
        } else if k < 2 * |segs| {
          assert all[k] == n.crumbs[k - |segs| + 1];
        }
      }
    }
    SplitPrefixOf(all);
    AppendAssoc([n.bucket], segs, segs + [x]);
    AppendAssoc(n.crumbs, segs, [x]);
    assert |n.prefix + id| > |id|;
  }

  /** drillDownCmd with the folder's id taken as the new prefix. */
  function DrillDown(n: Nav, path: string): (r: Nav)
    ensures path == "" ==> r == n
    ensures path != "" && n.bucket == "" ==> r == SetBucket(n, path)
    ensures path != "" && n.bucket != "" && HasSuffix(path, "/") ==> r == SetPrefix(n, path)
    ensures path != "" && n.bucket != "" && !HasSuffix(path, "/") ==> r == n
  {
    if path == "" then n
    else if n.bucket == "" then SetBucket(n, path)
    else if HasSuffix(path, "/") then SetPrefix(n, path)
    else n
  }

  /** Entering a folder one level below the current prefix and going up returns to the
      same position, and the trail grows by exactly that folder's segment. */
  lemma DrillDownThenGoUp(n: Nav, x: string)
    requires Canonical(n) && n.bucket != "" && Segment(x)
    ensures DrillDown(n, n.prefix + x + "/").crumbs == n.crumbs + [x]
    ensures GoUp(DrillDown(n, n.prefix + x + "/")).0 == n
  {
    var segs := n.crumbs[1..];
    assert n.crumbs == [n.bucket] + segs;
    PrefixOfAppend(segs, x);
    var id := PrefixOf(segs + [x]);
    assert id == n.prefix + x + "/";
    assert HasSuffix(id, "/");
    SplitPrefixOf(segs + [x]);
    var d := DrillDown(n, id);
    assert d.crumbs == [n.bucket] + segs + [x];
    assert d.crumbs[..|d.crumbs| - 1] == n.crumbs;
    assert d.crumbs[1..|d.crumbs| - 1] == segs;
  }

  /** Entering a bucket from the list and going up returns to the list. */
  lemma EnterBucketThenGoUp(b: string)
    requires b != ""
    ensures Canonical(DrillDown(NewNav(), b))
    ensures GoUp(DrillDown(NewNav(), b)) == (NewNav(), true)
  {
  }

  /** Every position reached by drilling down one level or going up is canonical. */
  lemma GoUpCanonical(n: Nav)
    requires Canonical(n)
    ensures Canonical(GoUp(n).0)
  {
    if |n.crumbs| > 1 {
      var r := GoUp(n).0;
      assert r.crumbs[1..] == n.crumbs[1..|n.crumbs| - 1];
    }
  }
}

=== FILE: schema.dfy ===
/** What the editor may change in a Cloud Control resource (internal/aws/schema.go):
    the CloudFormation schema lists read-only and create-only properties as JSON
    pointers, which are reduced to top-level property names and removed from the
    resource's property map. Fetching and decoding the schema are left out; the
    pointer lists are the input. */
module Schema {
  import opened Wrappers
  import opened Strs

  datatype ResourceSchema = ResourceSchema(typeName: string, readOnly: seq<string>, createOnly: seq<string>,
                                           conditionalCreateOnly: seq<string>)

  /** extractPropertyName: one leading "/" is dropped; a pointer whose first segment is
      "properties" names the segment after it, anything else names nothing (""). */
  function ExtractPropertyName(path: string): (name: string)
    ensures '/' !in name
  {
    var parts := Split(TrimPrefix(path, "/"), '/');
    if |parts| >= 2 && parts[0] == Properties then parts[1] else ""
  }

  /** The first segment of a pointer into a resource's properties. */
  const Properties := "properties"

  /** A pointer with its leading "/" is judged by the segments after it. */
  lemma ExtractAfterSlash(t: string)
    ensures ExtractPropertyName("/" + t) ==
            (var parts := Split(t, '/'); if |parts| >= 2 && parts[0] == Properties then parts[1] else "")
  {
    assert HasPrefix("/" + t, "/");
    assert TrimPrefix("/" + t, "/") == t;
  }

  /** "/properties/Name" names the top-level property "Name". */
  lemma PropertyNameOfPointer(name: string)
    requires '/' !in name
    ensures ExtractPropertyName("/" + Properties + "/" + name) == name
  {
    var t := Properties + ['/'] + name;
    assert "/" + Properties + "/" + name == "/" + t;
    ExtractAfterSlash(t);
    SplitTwo(Properties, name, '/');
  }

  /** So does "/properties/Name/Sub/...": only the top level counts. */
  lemma PropertyNameOfNestedPointer(name: string, sub: string)
    requires '/' !in name
    ensures ExtractPropertyName("/" + Properties + "/" + name + "/" + sub) == name
  {
    var t := Properties + ['/'] + (name + ['/'] + sub);
    assert "/" + Properties + "/" + name + "/" + sub == "/" + t;
    ExtractAfterSlash(t);
    SplitFirst(Properties, name + ['/'] + sub, '/');
    SplitFirst(name, sub, '/');
  }

  /** A pointer outside "/properties" names nothing. */
  lemma OtherPointerNamesNothing(first: string, rest: string)
    requires '/' !in first && first != Properties
    ensures ExtractPropertyName("/" + first + "/" + rest) == ""
  {
    var t := first + ['/'] + rest;
    assert "/" + first + "/" + rest == "/" + t;
    ExtractAfterSlash(t);
    SplitFirst(first, rest, '/');
  }

  /** extractPropertyNames: the names, in order, with the empty ones dropped. */
  function ExtractPropertyNames(paths: seq<string>): (names: seq<string>)
    ensures |names| <= |paths|
    ensures forall n :: n in names <==> n != "" && exists p :: p in paths && ExtractPropertyName(p) == n
  {
    if |paths| == 0 then []
    else
      var rest := ExtractPropertyNames(paths[1..]);
      assert forall p :: p in paths <==> p == paths[0] || p in paths[1..];
      NameOf(paths[0]) + rest
  }

  /** The names of two runs of pointers are the names of the first followed by those of
      the second: order and repeats are kept. */
  lemma {:induction false} ExtractPropertyNamesAppend(a: seq<string>, b: seq<string>)
    ensures ExtractPropertyNames(a + b) == ExtractPropertyNames(a) + ExtractPropertyNames(b)
  {
    if |a| == 0 {
      assert a + b == b;
    } else {
      var head := NameOf(a[0]);
      calc {
        ExtractPropertyNames(a + b);
      == { assert (a + b)[0] == a[0]; assert (a + b)[1..] == a[1..] + b; }
        head + ExtractPropertyNames(a[1..] + b);
      == { ExtractPropertyNamesAppend(a[1..], b); }
        head + (ExtractPropertyNames(a[1..]) + ExtractPropertyNames(b));
      == { assert (head + ExtractPropertyNames(a[1..])) + ExtractPropertyNames(b)
               == head + (ExtractPropertyNames(a[1..]) + ExtractPropertyNames(b)); }
        ExtractPropertyNames(a) + ExtractPropertyNames(b);
      }
    }
  }

  /** The name one pointer contributes, as a list of at most one. */
  function NameOf(p: string): seq<string> {
    if ExtractPropertyName(p) != "" then [ExtractPropertyName(p)] else []
  }

  /** One pointer contributes its name, or nothing when the name is empty. */
  lemma ExtractPropertyNamesOne(p: string)
    ensures ExtractPropertyNames([p]) == if ExtractPropertyName(p) != "" then [ExtractPropertyName(p)] else []
  {
    assert [p][1..] == [];
  }

  /** GetResourceSchema after decoding: the three pointer lists reduced to names. */
  function SchemaFromPointers(typeName: string, readOnly: seq<string>, createOnly: seq<string>,
                              conditional: seq<string>): (s: ResourceSchema)
    ensures s.typeName == typeName
    ensures forall n :: n in s.readOnly <==> n != "" && exists p :: p in readOnly && ExtractPropertyName(p) == n
    ensures forall n :: n in s.createOnly <==> n != "" && exists p :: p in createOnly && ExtractPropertyName(p) == n
    ensures forall n :: n in s.conditionalCreateOnly <==>
              n != "" && exists p :: p in conditional && ExtractPropertyName(p) == n
  {
    ResourceSchema(typeName, ExtractPropertyNames(readOnly), ExtractPropertyNames(createOnly),
                   ExtractPropertyNames(conditional))
  }

  /** A property the editor must leave alone. */
  predicate NonEditable(schema: ResourceSchema, key: string) {
    key in schema.readOnly || key in schema.createOnly || key in schema.conditionalCreateOnly
  }

  /** FilterEditableProperties: nil stays nil; otherwise the properties minus the
      non-editable ones, values untouched. */
  function FilterEditableProperties<V>(props: Option<map<string, V>>, schema: ResourceSchema): (r: Option<map<string, V>>)
    ensures props.None? <==> r.None?
    ensures r.Some? ==> forall k :: k in r.value <==> k in props.value && !NonEditable(schema, k)
    ensures r.Some? ==> forall k :: k in r.value ==> r.value[k] == props.value[k]
  {
    if props.None? then None
    else Some(map k | k in props.value && !NonEditable(schema, k) :: props.value[k])
  }

  /** Filtering twice removes nothing more. */
  lemma FilterIdempotent<V>(props: Option<map<string, V>>, schema: ResourceSchema)
    ensures FilterEditableProperties(FilterEditableProperties(props, schema), schema)
            == FilterEditableProperties(props, schema)
  {
    if props.Some? {
      var once := FilterEditableProperties(props, schema).value;
      var twice := FilterEditableProperties(Some(once), schema).value;
      assert forall k :: k in twice <==> k in once;
      assert forall k :: k in twice ==> twice[k] == once[k];
      assert twice == once;
      assert FilterEditableProperties(props, schema) == Some(once);
    }
  }
}

=== FILE: shell.dfy ===
/** Shelling into an instance (internal/aws/shell.go): the argument vectors handed to
    `ssh` and to the `aws` CLI, the address lookups they need, and the guess of the
    login user from the image. The DescribeInstances/DescribeImages answers are
    parameters; spawning the process is left out. */
module Shell {
  import opened Wrappers
  import opened Strs

  const DefaultPort := 22

  datatype SSHConfig = SSHConfig(user: string, keyPath: string, port: int)

  /** DefaultSSHConfig: no user, no key, port 22. */
  function DefaultSSHConfig(): (c: SSHConfig)
    ensures c.user == "" && c.keyPath == "" && c.port == DefaultPort
  {
    SSHConfig("", "", DefaultPort)
  }

  /** What BuildSSHCommand puts last: the bare address, or user@address. */
  function Target(ip: string, user: string): string {
    if user != "" then user + "@" + ip else ip
  }

  /** BuildSSHCommand: "-i key" when a key is set, "-p port" when the port is not 22,
      always the host-key option, and the target last. */
  function BuildSSHCommand(ip: string, cfg: SSHConfig): (args: seq<string>)
    ensures |args| == 3 + (if cfg.keyPath != "" then 2 else 0) + (if cfg.port != DefaultPort then 2 else 0)
    ensures args[|args| - 1] == Target(ip, cfg.user)
    ensures args[|args| - 3..|args| - 1] == ["-o", "StrictHostKeyChecking=accept-new"]
    ensures cfg.keyPath != "" ==> args[..2] == ["-i", cfg.keyPath]
    ensures cfg.port != DefaultPort ==>
              args[|args| - 5..|args| - 3] == ["-p", IntToString(cfg.port)]
  {
    var key := if cfg.keyPath != "" then ["-i", cfg.keyPath] else [];
    var port := if cfg.port != DefaultPort then ["-p", IntToString(cfg.port)] else [];
    key + port + ["-o", "StrictHostKeyChecking=accept-new", Target(ip, cfg.user)]
  }

  /** With the default configuration the command is just the option and the address. */
  lemma DefaultSSHCommand(ip: string)
    ensures BuildSSHCommand(ip, DefaultSSHConfig()) == ["-o", "StrictHostKeyChecking=accept-new", ip]
  {
  }

  /** The login user can be read back from the target when the address has no "@". */
  lemma TargetCarriesUser(ip: string, user: string)
    requires '@' !in ip
    ensures user != "" ==> AfterLast(Target(ip, user), '@') == ip
    ensures user != "" ==> Target(ip, user)[..|user|] == user
    ensures user == "" ==> Target(ip, user) == ip
  {
    if user != "" {
      AfterLastAt(user, ip, '@');
    }
  }

  /** An optional "--region r" tail shared by the two aws CLI commands. */
  function RegionFlag(region: string): (args: seq<string>)
    ensures region == "" <==> args == []
  {
    if region != "" then ["--region", region] else []
  }

  /** An aws CLI command: a four-word head, then the region if any. */
  function AwsCommand(head: seq<string>, region: string): (args: seq<string>)
    requires |head| == 4
    ensures |args| >= 4 && args[..4] == head
    ensures region == "" ==> |args| == 4
    ensures region != "" ==> args[4..] == ["--region", region]
  {
    head + RegionFlag(region)
  }

  /** BuildSSMCommand: "ssm start-session --target id", then the region if any. */
  function BuildSSMCommand(instanceID: string, region: string): (args: seq<string>)
    ensures |args| == (if region == "" then 4 else 6)
    ensures args[..4] == ["ssm", "start-session", "--target", instanceID]
  {
    AwsCommand(["ssm", "start-session", "--target", instanceID], region)
  }

  /** BuildEC2ICCommand: "ec2-instance-connect ssh --instance-id id", then the region if any. */
  function BuildEC2ICCommand(instanceID: string, region: string): (args: seq<string>)
    ensures |args| == (if region == "" then 4 else 6)
    ensures args[..4] == ["ec2-instance-connect", "ssh", "--instance-id", instanceID]
  {
    AwsCommand(["ec2-instance-connect", "ssh", "--instance-id", instanceID], region)
  }

  /** The two aws CLI commands differ only in their four-word head, and the tail names
      the region exactly when one is given. */
  lemma SameRegionTail(instanceID: string, region: string)
    ensures BuildSSMCommand(instanceID, region)[4..] == BuildEC2ICCommand(instanceID, region)[4..]
    ensures |BuildSSMCommand(instanceID, region)| == |BuildEC2ICCommand(instanceID, region)|
    ensures region != "" ==> BuildSSMCommand(instanceID, region)[4..] == ["--region", region]
  {
  }

  /** The parts of a described instance the lookups read. */
  datatype Instance = Instance(publicIp: Option<string>, privateIp: Option<string>, imageId: Option<string>)

  /** The first instance of the first reservation, if there is one. */
  function FirstInstance(reservations: seq<seq<Instance>>): (r: Option<Instance>)
    ensures r.Some? <==> |reservations| > 0 && |reservations[0]| > 0
    ensures r.Some? ==> r.value == reservations[0][0]
  {
    if |reservations| == 0 || |reservations[0]| == 0 then None else Some(reservations[0][0])
  }

  /** GetInstancePublicIP (public) and GetInstancePrivateIP (not public): the address
      of the first instance answered, or the error the source reports. */
  function InstanceIP(instanceID: string, response: Result<seq<seq<Instance>>>, public: bool): (r: Result<string>)
    ensures response.Err? ==> r == Err("failed to describe instance: " + response.msg)
    ensures response.Ok? && FirstInstance(response.value).None? ==> r == Err("instance " + instanceID + " not found")
    ensures r.Ok? ==> response.Ok? && |response.value| > 0 && |response.value[0]| > 0 &&
                      Some(r.value) == (if public then response.value[0][0].publicIp else response.value[0][0].privateIp)
    ensures response.Ok? && FirstInstance(response.value).Some? ==>
              (r.Ok? <==> (if public then response.value[0][0].publicIp else response.value[0][0].privateIp).Some?)
  {
    if response.Err? then Err("failed to describe instance: " + response.msg)
    else
      match FirstInstance(response.value)
      case None => Err("instance " + instanceID + " not found")
      case Some(inst) =>
        var addr := if public then inst.publicIp else inst.privateIp;
        if addr.None? then Err("instance " + instanceID + " has no " + (if public then "public" else "private") + " IP")
        else Ok(addr.value)
  }

  /** Only the first instance of the first reservation is consulted. */
  lemma InstanceIPIgnoresRest(instanceID: string, inst: Instance, more: seq<Instance>, others: seq<seq<Instance>>, public: bool)
    ensures InstanceIP(instanceID, Ok([[inst] + more] + others), public) == InstanceIP(instanceID, Ok([[inst]]), public)
  {
    assert FirstInstance([[inst] + more] + others) == Some(inst);
    assert FirstInstance([[inst]]) == Some(inst);
  }

  datatype Image = Image(name: Option<string>, description: Option<string>)

  /** The lower-cased "name description" text the user guess searches. */
  function ImageText(image: Image): string {
    ToLower(image.name.GetOr("")) + " " + ToLower(image.description.GetOr(""))
  }

  /** The users the guess can produce. */
  predicate KnownUser(u: string) {
    u == "ec2-user" || u == "ubuntu" || u == "admin" || u == "centos" || u == "fedora"
  }

  /** DetectSSHUser once the image is known (None: any lookup failed or answered nothing):
      the first of ubuntu, debian, centos, fedora found in the text decides, else ec2-user. */
  function DetectSSHUser(image: Option<Image>): (u: string)
    ensures KnownUser(u)
    ensures image.None? ==> u == "ec2-user"
    ensures u == "ubuntu" <==> image.Some? && Contains(ImageText(image.value), "ubuntu")
    ensures u == "admin" <==> image.Some? && !Contains(ImageText(image.value), "ubuntu") &&
                              Contains(ImageText(image.value), "debian")
    ensures u == "centos" <==> image.Some? && !Contains(ImageText(image.value), "ubuntu") &&
                               !Contains(ImageText(image.value), "debian") && Contains(ImageText(image.value), "centos")
    ensures u == "fedora" <==> image.Some? && !Contains(ImageText(image.value), "ubuntu") &&
                               !Contains(ImageText(image.value), "debian") &&
                               !Contains(ImageText(image.value), "centos") && Contains(ImageText(image.value), "fedora")
  {
    if image.None? then "ec2-user"
    else
      var text := ImageText(image.value);
      if Contains(text, "ubuntu") then "ubuntu"
      else if Contains(text, "debian") then "admin"
      else if Contains(text, "centos") then "centos"
      else if Contains(text, "fedora") then "fedora"
      else "ec2-user"
  }

  /** The image is looked up only for the first instance, and only when it names an image. */
  function ImageFor(reservations: Result<seq<seq<Instance>>>, images: Result<seq<Image>>): (r: Option<Image>)
    ensures r.Some? ==> reservations.Ok? && FirstInstance(reservations.value).Some? &&
                        FirstInstance(reservations.value).value.imageId.Some? && images.Ok? &&
                        |images.value| > 0 && r.value == images.value[0]
    ensures reservations.Ok? && FirstInstance(reservations.value).Some? &&
            FirstInstance(reservations.value).value.imageId.Some? && images.Ok? && |images.value| > 0 ==>
              r == Some(images.value[0])
  {
    if reservations.Err? then None
    else
      match FirstInstance(reservations.value)
      case None => None
      case Some(inst) =>
        if inst.imageId.None? || images.Err? || |images.value| == 0 then None
        else Some(images.value[0])
  }

  /** An Ubuntu image named in mixed case is still recognised: the text is lower-cased first. */
  lemma UbuntuImage(desc: Option<string>)
    ensures DetectSSHUser(Some(Image(Some("Ubuntu"), desc))) == "ubuntu"
  {
    var text := ImageText(Image(Some("Ubuntu"), desc));
    assert ToLower("Ubuntu") == "ubuntu";
    assert text == "ubuntu" + (" " + ToLower(desc.GetOr("")));
    assert HasPrefix(text, "ubuntu");
  }
}

=== FILE: stack.dfy ===
/** The view stack (internal/model/stack.go): components pushed and popped in LIFO
    order, with listeners told of every change. Component and listener identity (Go
    interface equality on pointers) is value equality of the records below; the side
    effects the stack causes (stopping a component, notifying a listener) are returned
    as a log of events instead of being performed. The lock is left out. */
module ViewStack {
  import opened Wrappers

  datatype Component = Component(id: nat, name: string)

  datatype Listener = Listener(id: nat)

  /** What the stack does to the outside world, in order. */
  datatype Event =
    | Stopped(c: Component)
    | Pushed(l: Listener, c: Component)
    | Popped(l: Listener, gone: Component, now: Option<Component>)
    | TopIs(l: Listener, c: Component)

  datatype Stack = Stack(components: seq<Component>, listeners: seq<Listener>)

  /** A new state together with the events that produced it. */
  datatype Step = Step(stack: Stack, events: seq<Event>)

  function NewStack(): (s: Stack)
    ensures Empty(s) && |s.listeners| == 0
  {
    Stack([], [])
  }

  predicate Empty(s: Stack) {
    |s.components| == 0
  }

  predicate IsLast(s: Stack) {
    |s.components| == 1
  }

  /** Top: the last pushed component, or nil. */
  function Top(s: Stack): (c: Option<Component>)
    ensures c.None? <==> Empty(s)
    ensures c.Some? ==> c.value == s.components[|s.components| - 1]
  {
    if Empty(s) then None else Some(s.components[|s.components| - 1])
  }

  /** Previous: nil when empty, the top itself when it is alone, else the one below it. */
  function Previous(s: Stack): (c: Option<Component>)
    ensures c.None? <==> Empty(s)
    ensures IsLast(s) ==> c == Top(s)
    ensures |s.components| >= 2 ==> c == Some(s.components[|s.components| - 2])
  {
    if Empty(s) then None
    else if IsLast(s) then Top(s)
    else Some(s.components[|s.components| - 2])
  }

  /** Peek: the components, bottom first. */
  function Peek(s: Stack): seq<Component> {
    s.components
  }

  /** Flatten: the component names, bottom first. */
  function Flatten(s: Stack): (names: seq<string>)
    ensures |names| == |s.components|
    ensures forall i :: 0 <= i < |names| ==> names[i] == s.components[i].name
  {
    seq(|s.components|, i requires 0 <= i < |s.components| => s.components[i].name)
  }

  /** AddListener: appended; told the current top at once when there is one. */
  function AddListener(s: Stack, l: Listener): (r: Step)
    ensures r.stack == Stack(s.components, s.listeners + [l])
    ensures Empty(s) ==> r.events == []
    ensures !Empty(s) ==> r.events == [TopIs(l, Top(s).value)]
  {
    var s' := Stack(s.components, s.listeners + [l]);
    if Empty(s) then Step(s', []) else Step(s', [TopIs(l, Top(s).value)])
  }

  /** The position of the first listener equal to `l`, or -1. */
  function FirstIndex(ls: seq<Listener>, l: Listener): (i: int)
    ensures -1 <= i < |ls|
    ensures i >= 0 ==> ls[i] == l && l !in ls[..i]
    ensures i < 0 ==> l !in ls
  {
    if |ls| == 0 then -1
    else if ls[0] == l then 0
    else
      var j := FirstIndex(ls[1..], l);
      if j < 0 then -1 else j + 1
  }

  /** RemoveListener: drops only the first occurrence; an unknown listener changes nothing. */
  function RemoveListener(s: Stack, l: Listener): (r: Stack)
    ensures r.components == s.components
    ensures l !in s.listeners ==> r == s
    ensures l in s.listeners ==>
              (|r.listeners| == |s.listeners| - 1 &&
               exists i :: 0 <= i < |s.listeners| && s.listeners[i] == l && l !in s.listeners[..i] &&
                           r.listeners == s.listeners[..i] + s.listeners[i + 1..])
  {
    var i := FirstIndex(s.listeners, l);
    if i < 0 then s else Stack(s.components, s.listeners[..i] + s.listeners[i + 1..])
  }

  /** Adding a listener that was not there and removing it again restores the listeners. */
  lemma AddRemoveListener(s: Stack, l: Listener)
    requires l !in s.listeners
    ensures RemoveListener(AddListener(s, l).stack, l) == s
  {
    var ls := s.listeners + [l];
    assert ls[|s.listeners|] == l;
    assert ls[..|s.listeners|] == s.listeners;
    assert forall j :: 0 <= j < |s.listeners| ==> ls[j] == s.listeners[j];
    assert FirstIndex(ls, l) == |s.listeners|;
  }

  /** Each listener in turn hears StackPushed then StackTop. */
  function PushNotes(ls: seq<Listener>, c: Component): (es: seq<Event>)
    ensures |es| == 2 * |ls|
    ensures forall i :: 0 <= i < |ls| ==> es[2 * i] == Pushed(ls[i], c) && es[2 * i + 1] == TopIs(ls[i], c)
  {
    if |ls| == 0 then []
    else
      var rest := PushNotes(ls[1..], c);
      [Pushed(ls[0], c), TopIs(ls[0], c)] + rest
  }

  /** Each listener in turn hears StackPopped, then StackTop when something is left. */
  function PopNotes(ls: seq<Listener>, gone: Component, now: Option<Component>): (es: seq<Event>)
    ensures now.None? ==> |es| == |ls| && forall i :: 0 <= i < |ls| ==> es[i] == Popped(ls[i], gone, now)
    ensures now.Some? ==>
              (|es| == 2 * |ls| &&
               forall i :: 0 <= i < |ls| ==> es[2 * i] == Popped(ls[i], gone, now) && es[2 * i + 1] == TopIs(ls[i], now.value))
  {
    if |ls| == 0 then []
    else
      var rest := PopNotes(ls[1..], gone, now);
      (if now.Some? then [Popped(ls[0], gone, now), TopIs(ls[0], now.value)] else [Popped(ls[0], gone, now)]) + rest
  }

  /** Push: the old top is stopped, the component goes on top, the listeners are told. */
  function Push(s: Stack, c: Component): (r: Step)
    ensures r.stack == Stack(s.components + [c], s.listeners)
    ensures Top(r.stack) == Some(c)
    ensures |r.stack.components| == |s.components| + 1
    ensures r.events == (if Empty(s) then [] else [Stopped(Top(s).value)]) + PushNotes(s.listeners, c)
  {
    var stop := if Empty(s) then [] else [Stopped(Top(s).value)];
    Step(Stack(s.components + [c], s.listeners), stop + PushNotes(s.listeners, c))
  }

  /** Pop: nothing on an empty stack; otherwise the top is stopped and removed and the
      listeners are told what is on top now. */
  function Pop(s: Stack): (r: (Step, Option<Component>))
    ensures Empty(s) ==> r == (Step(s, []), None)
    ensures !Empty(s) ==>
              (r.1 == Top(s) &&
               r.0.stack == Stack(s.components[..|s.components| - 1], s.listeners) &&
               r.0.events == [Stopped(Top(s).value)] + PopNotes(s.listeners, Top(s).value, Top(r.0.stack)))
  {
    if Empty(s) then (Step(s, []), None)
    else
      var c := s.components[|s.components| - 1];
      var s' := Stack(s.components[..|s.components| - 1], s.listeners);
      (Step(s', [Stopped(c)] + PopNotes(s.listeners, c, Top(s'))), Some(c))
  }

  /** Pop undoes Push: it hands back the pushed component and the stack as it was. */
  lemma PushThenPop(s: Stack, c: Component)
    ensures Pop(Push(s, c).stack).1 == Some(c)
    ensures Pop(Push(s, c).stack).0.stack == s
    ensures Pop(Push(s, c).stack).0.events == [Stopped(c)] + PopNotes(s.listeners, c, Top(s))
  {
    assert (s.components + [c])[..|s.components|] == s.components;
  }

  /** Flatten follows push order. */
  lemma FlattenPush(s: Stack, c: Component)
    ensures Flatten(Push(s, c).stack) == Flatten(s) + [c.name]
  {
  }

  /** After a push, Previous is the old top (or the new one on a stack that was empty). */
  lemma PreviousAfterPush(s: Stack, c: Component)
    ensures Previous(Push(s, c).stack) == if Empty(s) then Some(c) else Top(s)
  {
  }

  /** Clear: as many pops as there were components when it started; the stops come
      top first. */
  function Clear(s: Stack): (r: Step)
    ensures Empty(r.stack) && r.stack.listeners == s.listeners
    decreases |s.components|
  {
    if Empty(s) then Step(s, [])
    else
      var p := Pop(s).0;
      var rest := Clear(p.stack);
      Step(rest.stack, p.events + rest.events)
  }

  /** The first thing Clear does is stop the top component. */
  lemma ClearStopsTopFirst(s: Stack)
    requires !Empty(s)
    ensures |Clear(s).events| > 0 && Clear(s).events[0] == Stopped(Top(s).value)
  {
  }

  /** With no listeners, Clear stops every component, top first, and does nothing else. */
  lemma {:induction false} ClearStopsAll(s: Stack)
    requires |s.listeners| == 0
    ensures |Clear(s).events| == |s.components|
    ensures forall i :: 0 <= i < |s.components| ==> Clear(s).events[i] == Stopped(s.components[|s.components| - 1 - i])
    decreases |s.components|
  {
    if !Empty(s) {
      var s' := Pop(s).0.stack;
      ClearStopsAll(s');
      assert Pop(s).0.events == [Stopped(Top(s).value)];
      assert forall i :: 0 <= i < |s'.components| ==> s'.components[i] == s.components[i];
    }
  }
}

=== FILE: strs.dfy ===
/** The fragment of Go's `strings`, `strconv` and `sort` packages the model relies on,
    on `string == seq<char>` with one character standing for one byte. */
module Strs {

  // ---------------------------------------------------------------------------
  // Characters
  // ---------------------------------------------------------------------------

  /** Go's `unicode.IsSpace`, which `strings.TrimSpace` and `bytes.TrimSpace` use. */
  predicate IsSpace(c: char) {
    || c == ' ' || c == '\t' || c == '\n' || c == '\r'
    || c == '\U{000B}' || c == '\U{000C}' || c == '\U{0085}' || c == '\U{00A0}'
    || c == '\U{1680}' || ('\U{2000}' <= c <= '\U{200A}')
    || c == '\U{2028}' || c == '\U{2029}' || c == '\U{202F}' || c == '\U{205F}' || c == '\U{3000}'
  }

  predicate IsDigit(c: char) {
    '0' <= c <= '9'
  }

  function LowerChar(c: char): char {
    if 'A' <= c <= 'Z' then (c as int + 32) as char else c
  }

  function UpperChar(c: char): char {
    if 'a' <= c <= 'z' then (c as int - 32) as char else c
  }

  /** `strings.ToLower` restricted to ASCII letters. */
  function ToLower(s: string): (r: string)
    ensures |r| == |s|
    ensures forall i :: 0 <= i < |s| ==> r[i] == LowerChar(s[i])
  {
    seq(|s|, i requires 0 <= i < |s| => LowerChar(s[i]))
  }

  /** `strings.ToUpper` restricted to ASCII letters. */
  function ToUpper(s: string): (r: string)
    ensures |r| == |s|
    ensures forall i :: 0 <= i < |s| ==> r[i] == UpperChar(s[i])
  {
    seq(|s|, i requires 0 <= i < |s| => UpperChar(s[i]))
  }

  // ---------------------------------------------------------------------------
  // Prefixes, suffixes, substrings
  // ---------------------------------------------------------------------------

  predicate HasPrefix(s: string, p: string) {
    |p| <= |s| && s[..|p|] == p
  }

  predicate HasSuffix(s: string, p: string) {
    |p| <= |s| && s[|s| - |p|..] == p
  }

  /** `strings.Contains`. */
  predicate Contains(s: string, sub: string)
    decreases |s|
  {
    HasPrefix(s, sub) || (|s| > 0 && Contains(s[1..], sub))
  }

  lemma {:induction false} ContainsAppend(a: string, b: string, sub: string)
    requires Contains(b, sub)
    ensures Contains(a + b, sub)
    decreases |a|
  {
    if |a| > 0 {
      assert (a + b)[1..] == a[1..] + b;
      ContainsAppend(a[1..], b, sub);
    } else {
      assert a + b == b;
    }
  }

  /** Whatever sits around `b`, the whole still contains it. */
  lemma ContainsMiddle(a: string, b: string, c: string)
    ensures Contains(a + b + c, b)
  {
    assert HasPrefix(b + c, b);
    ContainsAppend(a, b + c, b);
    assert a + (b + c) == a + b + c;
  }

  lemma ContainsSelf(s: string)
    ensures Contains(s, s)
  {
    assert HasPrefix(s, s);
  }

  lemma ContainsEmpty(s: string)
    ensures Contains(s, "")
  {
    assert HasPrefix(s, "");
  }

  // ---------------------------------------------------------------------------
  // Searching for one character
  // ---------------------------------------------------------------------------

  /** `strings.IndexByte`: the first position of `c`, or -1. */
  function IndexOf(s: string, c: char): (i: int)
    ensures -1 <= i < |s|
    ensures i >= 0 ==> s[i] == c && c !in s[..i]
    ensures i < 0 ==> c !in s
  {
    if |s| == 0 then -1
    else if s[0] == c then 0
    else
      var j := IndexOf(s[1..], c);
      if j < 0 then -1 else j + 1
  }

  /** `strings.LastIndex` with a one-character separator: the last position of `c`, or -1. */
  function LastIndexOf(s: string, c: char): (i: int)
    ensures -1 <= i < |s|
    ensures i >= 0 ==> s[i] == c && c !in s[i + 1..]
    ensures i < 0 ==> c !in s
  {
    if |s| == 0 then -1
    else if s[|s| - 1] == c then |s| - 1
    else
      var j := LastIndexOf(s[..|s| - 1], c);
      assert s[j + 1..] == s[..|s| - 1][j + 1..] + [s[|s| - 1]] by {
        if j >= 0 {}
      }
      j
  }

  /** The text after the last `c`, or all of `s` when there is none. */
  function AfterLast(s: string, c: char): (r: string)
    ensures c !in r
    ensures HasSuffix(s, r)
    ensures c !in s ==> r == s
    ensures |r| < |s| ==> s[|s| - |r| - 1] == c
  {
    var i := LastIndexOf(s, c);
    if i >= 0 then s[i + 1..] else s
  }

  /** The last separator is the one after which none follows. */
  lemma {:induction false} LastIndexOfAt(s: string, t: string, c: char)
    requires c !in t
    ensures LastIndexOf(s + [c] + t, c) == |s|
    decreases |t|
  {
    var u := s + [c] + t;
    if |t| > 0 {
      assert u[|u| - 1] == t[|t| - 1];
      assert u[..|u| - 1] == s + [c] + t[..|t| - 1];
      LastIndexOfAt(s, t[..|t| - 1], c);
    }
  }

  /** What follows the last separator is exactly the separator-free tail. */
  lemma AfterLastAt(s: string, t: string, c: char)
    requires c !in t
    ensures AfterLast(s + [c] + t, c) == t
  {
    LastIndexOfAt(s, t, c);
    assert (s + [c] + t)[|s| + 1..] == t;
  }

  /** The number of occurrences of `c` in `s`. */
  function Count(s: string, c: char): nat
  {
    if |s| == 0 then 0 else (if s[0] == c then 1 else 0) + Count(s[1..], c)
  }

  lemma {:induction false} CountZero(s: string, c: char)
    ensures Count(s, c) == 0 <==> c !in s
  {
    if |s| > 0 {
      CountZero(s[1..], c);
      assert s == [s[0]] + s[1..];
    }
  }

  /** Occurrences in a concatenation add up. */
  lemma {:induction false} CountAppend(a: string, b: string, c: char)
    ensures Count(a + b, c) == Count(a, c) + Count(b, c)
    decreases |a|
  {
    if |a| > 0 {
      assert (a + b)[1..] == a[1..] + b;
      CountAppend(a[1..], b, c);
    } else {
      assert a + b == b;
    }
  }

  /** Concatenation regrouped; stated once so that proofs need not rediscover it. */
  lemma AppendAssoc<T>(a: seq<T>, b: seq<T>, c: seq<T>)
    ensures (a + b) + c == a + (b + c)
  {
  }

  // ---------------------------------------------------------------------------
  // Splitting and joining
  // ---------------------------------------------------------------------------

  /** `strings.Split(s, string(c))`: one more part than there are separators. */
  function Split(s: string, c: char): (parts: seq<string>)
    ensures |parts| == Count(s, c) + 1
    ensures forall k :: 0 <= k < |parts| ==> c !in parts[k]
    decreases |s|
  {
    var i := IndexOf(s, c);
    if i < 0 then
      CountZero(s, c);
      [s]
    else
      CountSplitsAt(s, c, i);
      [s[..i]] + Split(s[i + 1..], c)
  }

  lemma CountSplitsAt(s: string, c: char, i: int)
    requires 0 <= i < |s| && s[i] == c && c !in s[..i]
    ensures Count(s, c) == 1 + Count(s[i + 1..], c)
    decreases i
  {
    if i > 0 {
      assert s[1..][..i - 1] == s[1..i];
      CountSplitsAt(s[1..], c, i - 1);
      assert s[1..][i..] == s[i + 1..];
    }
  }

  /** `strings.SplitN(s, string(c), 2)`: split at the first `c` only. */
  function SplitN2(s: string, c: char): (parts: seq<string>)
    ensures 1 <= |parts| <= 2
    ensures |parts| == 1 <==> c !in s
    ensures |parts| == 1 ==> parts[0] == s
    ensures |parts| == 2 ==> c !in parts[0] && s == parts[0] + [c] + parts[1]
  {
    var i := IndexOf(s, c);
    if i < 0 then [s]
    else
      assert s == s[..i] + [c] + s[i + 1..];
      [s[..i], s[i + 1..]]
  }

  /** `strings.Join`. */
  function Join(parts: seq<string>, sep: string): string
  {
    if |parts| == 0 then ""
    else if |parts| == 1 then parts[0]
    else parts[0] + sep + Join(parts[1..], sep)
  }

  /** Joining one more part appends the separator and the part. */
  lemma {:induction false} JoinAppend(parts: seq<string>, x: string, sep: string)
    requires |parts| > 0
    ensures Join(parts + [x], sep) == Join(parts, sep) + sep + x
    decreases |parts|
  {
    if |parts| > 1 {
      assert (parts + [x])[1..] == parts[1..] + [x];
      JoinAppend(parts[1..], x, sep);
    } else {
      assert parts + [x] == [parts[0], x];
    }
  }

  /** The non-empty strings, in order. */
  function NonEmpty(ss: seq<string>): (ps: seq<string>)
    ensures |ps| <= |ss|
    ensures forall p :: p in ps <==> p in ss && p != ""
  {
    if |ss| == 0 then []
    else if ss[0] == "" then NonEmpty(ss[1..])
    else [ss[0]] + NonEmpty(ss[1..])
  }

  lemma {:induction false} NonEmptyAppend(a: seq<string>, b: seq<string>)
    ensures NonEmpty(a + b) == NonEmpty(a) + NonEmpty(b)
    decreases |a|
  {
    if |a| == 0 {
      assert a + b == b;
    } else {
      assert (a + b)[1..] == a[1..] + b;
      NonEmptyAppend(a[1..], b);
    }
  }

  lemma {:induction false} NonEmptyKeepsAll(ss: seq<string>)
    requires forall k :: 0 <= k < |ss| ==> ss[k] != ""
    ensures NonEmpty(ss) == ss
  {
    if |ss| > 0 {
      NonEmptyKeepsAll(ss[1..]);
      assert ss == [ss[0]] + ss[1..];
    }
  }

  /** The first occurrence of `c` is where the text says it is. */
  lemma IndexOfAt(s: string, c: char, j: int)
    requires 0 <= j < |s| && s[j] == c && c !in s[..j]
    ensures IndexOf(s, c) == j
  {
    var k := IndexOf(s, c);
    assert s[j] in s;
    assert forall m :: 0 <= m < j ==> s[m] == s[..j][m];
    assert forall m :: 0 <= m < k ==> s[m] == s[..k][m];
  }

  /** A text without the separator is one part. */
  lemma SplitNoSep(s: string, c: char)
    requires c !in s
    ensures Split(s, c) == [s]
  {
  }

  /** Splitting at a separator splits the two sides independently. */
  lemma {:induction false} SplitAround(s: string, t: string, c: char)
    ensures Split(s + [c] + t, c) == Split(s, c) + Split(t, c)
    decreases |s|
  {
    var u := s + [c] + t;
    var i := IndexOf(s, c);
    assert u[..|s|] == s;
    if i < 0 {
      IndexOfAt(u, c, |s|);
      assert u[|s| + 1..] == t;
    } else {
      assert u[..i] == s[..i];
      IndexOfAt(u, c, i);
      assert u[i + 1..] == s[i + 1..] + [c] + t;
      SplitAround(s[i + 1..], t, c);
    }
  }

  /** A separator-free first field splits off on its own. */
  lemma SplitFirst(a: string, rest: string, c: char)
    requires c !in a
    ensures Split(a + [c] + rest, c) == [a] + Split(rest, c)
  {
    SplitAround(a, rest, c);
    SplitNoSep(a, c);
  }

  /** Two separator-free fields joined by the separator split back into the two. */
  lemma SplitTwo(a: string, b: string, c: char)
    requires c !in a && c !in b
    ensures Split(a + [c] + b, c) == [a, b]
  {
    SplitFirst(a, b, c);
    SplitNoSep(b, c);
  }

  /** Three separator-free fields joined by the separator split back into the three. */
  lemma SplitThree(a: string, b: string, d: string, c: char)
    requires c !in a && c !in b && c !in d
    ensures Split(a + [c] + b + [c] + d, c) == [a, b, d]
  {
    assert a + [c] + b + [c] + d == a + [c] + (b + [c] + d);
    SplitFirst(a, b + [c] + d, c);
    SplitTwo(b, d, c);
  }

  /** Joining what `Split` produced with the same separator gives the text back. */
  lemma {:induction false} JoinSplit(s: string, c: char)
    ensures Join(Split(s, c), [c]) == s
    decreases |s|
  {
    var i := IndexOf(s, c);
    if i >= 0 {
      var parts := Split(s, c);
      var rest := Split(s[i + 1..], c);
      JoinSplit(s[i + 1..], c);
      assert parts == [s[..i]] + rest;
      assert |parts| >= 2 && parts[0] == s[..i] && parts[1..] == rest;
      assert Join(parts, [c]) == s[..i] + [c] + Join(rest, [c]);
      assert s == s[..i] + [c] + s[i + 1..];
    } else {
      assert Split(s, c) == [s];
    }
  }

  /** Splitting a join of separator-free parts gives the parts back. */
  lemma {:induction false} SplitJoin(parts: seq<string>, c: char)
    requires |parts| >= 1
    requires forall k :: 0 <= k < |parts| ==> c !in parts[k]
    ensures Split(Join(parts, [c]), c) == parts
    decreases |parts|
  {
    if |parts| > 1 {
      var tail := Join(parts[1..], [c]);
      var s := parts[0] + [c] + tail;
      assert Join(parts, [c]) == s;
      assert s[..|parts[0]|] == parts[0];
      assert IndexOf(s, c) == |parts[0]| by {
        assert s[|parts[0]|] == c;
        assert s[..|parts[0]|] == parts[0];
      }
      assert s[|parts[0]| + 1..] == tail;
      SplitJoin(parts[1..], c);
      assert parts == [parts[0]] + parts[1..];
    }
  }

  /** Joining two non-empty runs of parts puts one separator between their joins. */
  lemma {:induction false} JoinConcat(a: seq<string>, b: seq<string>, sep: string)
    requires |a| > 0 && |b| > 0
    ensures Join(a + b, sep) == Join(a, sep) + sep + Join(b, sep)
    decreases |a|
  {
    if |a| == 1 {
      assert (a + b)[1..] == b;
    } else {
      assert (a + b)[1..] == a[1..] + b;
      JoinConcat(a[1..], b, sep);
    }
  }

  /** The first part of a split is where the text starts. */
  lemma SplitHeadPrefix(s: string, c: char)
    ensures HasPrefix(s, Split(s, c)[0])
  {
  }

  // ---------------------------------------------------------------------------
  // Trimming and replacing
  // ---------------------------------------------------------------------------

  function TrimLeft(s: string): (r: string)
    ensures HasSuffix(s, r)
    ensures r == [] || !IsSpace(r[0])
    ensures forall i :: 0 <= i < |s| - |r| ==> IsSpace(s[i])
  {
    if |s| > 0 && IsSpace(s[0]) then TrimLeft(s[1..]) else s
  }

  function TrimRight(s: string): (r: string)
    ensures HasPrefix(s, r)
    ensures r == [] || !IsSpace(r[|r| - 1])
    ensures forall i :: |r| <= i < |s| ==> IsSpace(s[i])
  {
    if |s| > 0 && IsSpace(s[|s| - 1]) then TrimRight(s[..|s| - 1]) else s
  }

  /** `strings.TrimSpace` / `bytes.TrimSpace`. */
  function TrimSpace(s: string): (r: string)
    ensures r == [] || (!IsSpace(r[0]) && !IsSpace(r[|r| - 1]))
  {
    TrimRight(TrimLeft(s))
  }

  /** Trimming a string that has no space at either end changes nothing. */
  lemma TrimSpaceNoop(s: string)
    requires s == [] || (!IsSpace(s[0]) && !IsSpace(s[|s| - 1]))
    ensures TrimSpace(s) == s
  {
  }

  /** One leading space is trimmed like the rest. */
  lemma TrimLeftSpace(s: string)
    requires |s| > 0 && IsSpace(s[0])
    ensures TrimLeft(s) == TrimLeft(s[1..])
  {
  }

  /** One trailing space is trimmed like the rest. */
  lemma TrimRightSpace(s: string)
    requires |s| > 0 && IsSpace(s[|s| - 1])
    ensures TrimRight(s) == TrimRight(s[..|s| - 1])
  {
  }

  /** Trimming only removes characters: one the text lacks, the result lacks too. */
  lemma TrimSpaceWithin(s: string, c: char)
    requires c !in s
    ensures c !in TrimSpace(s)
  {
    var l := TrimLeft(s);
    assert l == s[|s| - |l|..];
    forall k | 0 <= k < |l|
      ensures l[k] != c
    {
      assert l[k] == s[|s| - |l| + k];
    }
    var r := TrimRight(l);
    assert r == l[..|r|];
    forall k | 0 <= k < |r|
      ensures r[k] != c
    {
      assert r[k] == l[k];
    }
  }

  /** `strings.TrimPrefix`. */
  function TrimPrefix(s: string, p: string): (r: string)
    ensures HasPrefix(s, p) ==> s == p + r
    ensures !HasPrefix(s, p) ==> r == s
  {
    if HasPrefix(s, p) then s[|p|..] else s
  }

  /** `strings.TrimSuffix`. */
  function TrimSuffix(s: string, p: string): (r: string)
    ensures HasSuffix(s, p) ==> s == r + p
    ensures !HasSuffix(s, p) ==> r == s
  {
    if HasSuffix(s, p) then s[..|s| - |p|] else s
  }

  /** `strings.ReplaceAll(s, string(c), "")`. */
  function RemoveChar(s: string, c: char): (r: string)
    ensures c !in r
    ensures |r| == |s| - Count(s, c)
  {
    if |s| == 0 then ""
    else (if s[0] == c then "" else [s[0]]) + RemoveChar(s[1..], c)
  }

  // ---------------------------------------------------------------------------
  // Decimal numbers
  // ---------------------------------------------------------------------------

  function DigitChar(d: nat): (c: char)
    requires d < 10
    ensures IsDigit(c) && c as int - '0' as int == d
  {
    (48 + d) as char
  }

  /** `strconv.Itoa` on a non-negative value. */
  function NatToString(n: nat): (s: string)
    ensures |s| >= 1
    ensures forall i :: 0 <= i < |s| ==> IsDigit(s[i])
  {
    if n < 10 then [DigitChar(n)] else NatToString(n / 10) + [DigitChar(n % 10)]
  }

  /** `strconv.Itoa` / `fmt.Sprintf("%d")`. */
  function IntToString(i: int): (s: string)
    ensures i >= 0 ==> s == NatToString(i)
    ensures i < 0 ==> s == "-" + NatToString(-i)
  {
    if i < 0 then "-" + NatToString(-i) else NatToString(i)
  }

  // ---------------------------------------------------------------------------
  // Byte-wise ordering and `sort.Strings`
  // ---------------------------------------------------------------------------

  /** Go's `<=` on strings: lexicographic on the characters. */
  predicate LessEq(a: string, b: string)
    decreases |a|
  {
    |a| == 0 || (|b| > 0 && (a[0] < b[0] || (a[0] == b[0] && LessEq(a[1..], b[1..]))))
  }

  lemma {:induction false} LessEqTotal(a: string, b: string)
    ensures LessEq(a, b) || LessEq(b, a)
    decreases |a|
  {
    if |a| > 0 && |b| > 0 && a[0] == b[0] {
      LessEqTotal(a[1..], b[1..]);
    }
  }

  lemma {:induction false} LessEqTrans(a: string, b: string, c: string)
    requires LessEq(a, b) && LessEq(b, c)
    ensures LessEq(a, c)
    decreases |a|
  {
    if |a| > 0 && a[0] == b[0] && b[0] == c[0] {
      LessEqTrans(a[1..], b[1..], c[1..]);
    }
  }

  lemma {:induction false} LessEqAntisym(a: string, b: string)
    requires LessEq(a, b) && LessEq(b, a)
    ensures a == b
    decreases |a|
  {
    if |a| > 0 {
      LessEqAntisym(a[1..], b[1..]);
      assert a == [a[0]] + a[1..];
      assert b == [b[0]] + b[1..];
    }
  }

  predicate Sorted(s: seq<string>) {
    forall i, j :: 0 <= i < j < |s| ==> LessEq(s[i], s[j])
  }

  function Insert(x: string, s: seq<string>): (r: seq<string>)
    requires Sorted(s)
    ensures Sorted(r)
    ensures multiset(r) == multiset(s) + multiset{x}
  {
    if |s| == 0 then [x]
    else if LessEq(x, s[0]) then
      assert forall j :: 0 < j < |s| ==> LessEq(x, s[j]) by {
        forall j | 0 < j < |s| {
          LessEqTrans(x, s[0], s[j]);
        }
      }
      assert s == [s[0]] + s[1..];
      [x] + s
    else
      LessEqTotal(x, s[0]);
      var t := Insert(x, s[1..]);
      assert s == [s[0]] + s[1..];
      forall j | 0 <= j < |t|
        ensures LessEq(s[0], t[j])
      {
        assert t[j] in multiset(t);
        if t[j] != x {
          assert t[j] in multiset(s[1..]);
          var k :| 0 <= k < |s[1..]| && s[1..][k] == t[j];
          assert s[k + 1] == t[j];
        }
      }
      [s[0]] + t
  }

  /** `sort.Strings`: strings are totally ordered, so the sorted permutation is unique
      and the source's unstable sort has no room to differ from this insertion sort. */
  function SortStrings(s: seq<string>): (r: seq<string>)
    ensures Sorted(r)
    ensures multiset(r) == multiset(s)
    ensures |r| == |s|
  {
    if |s| == 0 then []
    else
      var r := Insert(s[|s| - 1], SortStrings(s[..|s| - 1]));
      assert s == s[..|s| - 1] + [s[|s| - 1]];
      assert |r| == |multiset(r)|;
      r
  }
}

=== FILE: table_data.dfy ===
/** The table snapshot value (internal/model1/table_data.go). */
module TableSnapshot {
  import opened Rows
  import opened Events

  /** TableData: header, rows, namespace and an error message ("" for none). The source
      hands out its row collection by pointer; the model keeps it as a value. */
  datatype TableData = TableData(header: Header, rows: RowEvents, namespace: string, errMsg: string)

  /** NewTableData: no header, no rows, no namespace, no error. */
  function NewTableData(): (t: TableData)
    ensures |t.header| == 0 && t.namespace == "" && Empty(t) && !HasError(t)
    ensures Consistent(t.rows)
  {
    TableData([], NewRowEvents(), "", "")
  }

  predicate Empty(t: TableData) {
    Events.Empty(t.rows)
  }

  /** RowCount: the number of row events. */
  function RowCount(t: TableData): (n: nat)
    ensures n == Len(t.rows)
    ensures n == 0 <==> Empty(t)
  {
    |t.rows.events|
  }

  predicate HasError(t: TableData) {
    t.errMsg != ""
  }

  function SetHeader(t: TableData, h: Header): (t': TableData)
    ensures t'.header == h
    ensures t'.rows == t.rows && t'.namespace == t.namespace && t'.errMsg == t.errMsg
  {
    t.(header := h)
  }

  function SetNamespace(t: TableData, ns: string): (t': TableData)
    ensures t'.namespace == ns
    ensures t'.rows == t.rows && t'.header == t.header && t'.errMsg == t.errMsg
  {
    t.(namespace := ns)
  }

  function SetError(t: TableData, msg: string): (t': TableData)
    ensures t'.errMsg == msg
    ensures HasError(t') <==> msg != ""
    ensures t'.rows == t.rows && t'.header == t.header && t'.namespace == t.namespace
  {
    t.(errMsg := msg)
  }

  /** Setting a field twice keeps the last value, and setters of different fields commute. */
  lemma SettersCommute(t: TableData, h: Header, ns: string, msg: string, h2: Header)
    ensures SetHeader(SetHeader(t, h), h2) == SetHeader(t, h2)
    ensures SetHeader(SetNamespace(t, ns), h) == SetNamespace(SetHeader(t, h), ns)
    ensures SetError(SetNamespace(t, ns), msg) == SetNamespace(SetError(t, msg), ns)
  {
  }

  /** Clone: a copy with the same header, namespace and error that shares the rows. */
  function Clone(t: TableData): (c: TableData)
    ensures c.header == t.header && c.namespace == t.namespace && c.errMsg == t.errMsg
    ensures c.rows == t.rows
    ensures RowCount(c) == RowCount(t) && (HasError(c) <==> HasError(t))
  {
    TableData(t.header, t.rows, t.namespace, t.errMsg)
  }
}

=== FILE: wrappers.dfy ===
/** Failure-carrying values shared by every module of the model.
    Go's `(T, error)` returns become `Result<T>`, a bare `error` return becomes
    `Outcome`, and a nil pointer becomes `None`. */
module Wrappers {

  datatype Option<+T> = None | Some(value: T) {
    function GetOr(default: T): T {
      match this
      case Some(v) => v
      case None => default
    }
  }

  /** The error text is kept because several callers branch on it. */
  datatype Result<+T> = Ok(value: T) | Err(msg: string)

  datatype Outcome = Pass | Fail(msg: string)
}
